=== FILE: README.md ===
# otakudesu scraper API — a Dafny model

The otakudesu API scrapes the otakudesu anime site and serves JSON: the home page columns,
the ongoing and complete listings, the A–Z list, anime and episode details, the genre index and
genre listings, the release schedule, search, and the streaming resolver. That resolver turns a
mirror's `data-content` token into a player URL. The service comes in two builds:
- a NestJS build: `src/otakudesu/otakudesu.service.ts` with the global exception filter;
- a Hono build: `src/services/otakudesu.service.ts` with the `onError` handler of `src/index.ts`.

Both builds parse pages the same way. They differ in how the resolver decodes base64, how it
reports a failure, and how a failure becomes an HTTP answer.

The model is a set of pure functions over the extracted contents of a page: texts, attributes
and lists of elements, as the CSS selectors find them. The modules follow the source:

- `Text`: the JavaScript string operations the parsers rely on, written out. These are
  `trim`, `||` on strings, `includes`, `indexOf`, first-occurrence `replace`, ASCII case
  mapping and decimal rendering.
- `Slugs`: `extractSlug` and `extractGenreSlug`, as leftmost regular-expression matches.
- `Paging`: `parsePagination`.
- `Lists`: the generic "guard, then push" loop every parser uses.
- `Cards`: the home, ongoing, complete, genre and search cards, the search rating loop and
  the listing URLs.
- `Catalog`: the genre index, the A–Z list and the schedule.
- `Titles`: the title regular expressions. These are the episode-range and suffix clean-up of
  the anime title, the `Episode N` label and the anime title of an episode page.
- `AnimeDetails` and `EpisodeDetails`: the two detail parsers. The latter includes the
  quality map of the streaming mirrors and the download sections.
- `Errors`: the status-to-code mapping, the NestJS filter, the Hono handler and the success
  envelope.
- `Resolver`: the streaming resolver, as a state machine over an `Upstream` parameter that
  stands for the network, base64 and `JSON.parse`.
- `Routes`: the answers of the detail and resolver routes. This includes the `dataContent`
  guard of the Hono POST route.

Where the documented behaviour of the API and its code disagree, the model follows the code:
- A card's slug can be empty. A link that ends right after `/anime/` passes the listing guard,
  and `extractSlug` then yields `""` (`Cards.CardWithEmptySlug`).
- A genre's slug can be empty too. The genre-list guard asks only for a name and an `href`, not
  for a `/genres/` link (`Catalog.EmptySlugsListed`).
- A–Z and schedule entries likewise need only a title and an `href`, so their slugs can be empty
  (`Catalog.EmptySlugsListed`).
- The current page is not clamped to 1. `parseInt("-2") || 1` is `-2`
  (`Paging.NegativeCurrentPage`).
- The two builds answer resolver failures differently:
  - In NestJS every failure is answered 502, including a token that cannot be parsed and a
    request without `dataContent`.
  - In Hono only an empty nonce or player reply is answered 502. Every other failure is a plain
    `Error` and becomes 500 INTERNAL_ERROR, including an HTTP error status from the site.
- NestJS derives the error code from `request.url`, query string included. Hono derives it from
  the path.

## Model

| member | source | states |
|---|---|---|
| Text.Trim | src/services/otakudesu.service.ts:152 | the trimmed text is a slice of the text with only white space cut from either side, has no white space at either end, and is empty exactly when the text is all white space |
| Text.IndexOfFindsContained | src/services/otakudesu.service.ts:162 | searching from the start finds an occurrence exactly when the text includes the pattern |
| Text.ReplaceFirst | src/services/otakudesu.service.ts:158 | the leftmost occurrence of the pattern, and only it, is replaced; a text that does not contain the pattern is left unchanged |
| Text.IntToString | src/services/otakudesu.service.ts:145 | a page number prints as its decimal digits, with a leading `-` when negative |
| Text.NatToStringRoundTrip | src/services/otakudesu.service.ts:145 | reading back the decimal rendering of a number gives that number |
| Text.NatToStringInjective | src/services/otakudesu.service.ts:145 | distinct numbers print differently |
| Slugs.SlugFrom | src/services/otakudesu.service.ts:43-51 | the capture contains no `/`; it is empty exactly when the pattern matches nowhere; otherwise it comes from the leftmost match |
| Slugs.ExtractSlug | src/services/otakudesu.service.ts:43-46 | `extractSlug` gives `""` exactly when no `/anime/` or `/episode/` marker is followed by a non-`/` character; otherwise the segment after the leftmost such marker |
| Slugs.ExtractGenreSlug | src/services/otakudesu.service.ts:48-51 | the same rule for the `/genres/` marker |
| Slugs.FirstMatchCapture | src/services/otakudesu.service.ts:44-45 | once the leftmost match is known, the slug is the maximal non-`/` run after its marker |
| Slugs.PageUrlFirstMatch | src/services/otakudesu.service.ts:249 | in a page URL the service builds, the leftmost match is the marker right after the base URL |
| Slugs.PageUrlSlug | src/services/otakudesu.service.ts:43-46 | the capture taken from a page URL is the slug the URL was built from |
| Slugs.DetailUrlRoundTrip | src/services/otakudesu.service.ts:249 | a non-empty slug without `/` survives the round trip through the anime and the episode page URL |
| Slugs.GenreUrlRoundTrip | src/services/otakudesu.service.ts:48-51 | a genre slug survives the round trip through its genre page URL |
| Slugs.MarkerWithoutSegment | src/services/otakudesu.service.ts:44-45 | a link can contain `/anime/` and still yield the empty slug |
| Paging.PageNumbers | src/services/otakudesu.service.ts:61-65 | every positive number of a numbered widget element is kept, and nothing else is |
| Paging.MaxOf | src/services/otakudesu.service.ts:67 | the maximum is one of the numbers and bounds them all |
| Paging.ParsePagination | src/services/otakudesu.service.ts:53-80 | current page is the parsed number or 1; total pages is at least 1 and is the largest page number listed (or 1); items per page and total items as given; the flags and neighbours agree with current and total |
| Paging.NoWidget | src/services/otakudesu.service.ts:59-79 | a page without a widget is page 1 of 1 with no neighbours |
| Paging.CurrentWithinTotal | src/services/otakudesu.service.ts:59-79 | when the current page is one of the listed numbers, it lies within the total, and a next page exists exactly when a higher number is listed |
| Paging.NegativeCurrentPage | src/services/otakudesu.service.ts:59 | a negative current-page text is kept as it is, with no previous page and a next page one higher |
| Lists.FilterMap | src/services/otakudesu.service.ts:148-172 | the records are built from exactly the elements that pass the guard |
| Lists.FilterMapAppend | src/services/otakudesu.service.ts:150-172 | each element is judged on its own: a concatenation yields the concatenated results |
| Lists.FilterMapAll | src/services/otakudesu.service.ts:150-172 | when every element passes, one record per element, in document order |
| Lists.FilterMapPair | src/services/otakudesu.service.ts:150-172 | two passing elements give their two records, in order, never merged |
| Lists.FilterMapPointwise | src/services/otakudesu.service.ts:150-172 | walks that agree element by element in guard and record build the same records |
| Lists.LastWhere | src/services/otakudesu.service.ts:550-555 | the index found satisfies the test and no later element does; none means no element does |
| Cards.Poster | src/services/otakudesu.service.ts:154-157 | the image `src` when non-empty, otherwise the `data-src` or `""` |
| Cards.HomeOngoing | src/services/otakudesu.service.ts:89-111 | a home ongoing card is built from exactly the elements with a non-blank title and a non-empty link, poster from `src` only; each has a title and an episode but no episode count |
| Cards.HomeComplete | src/services/otakudesu.service.ts:114-136 | a home complete card is built from exactly the elements with a non-blank title and a non-empty link; each has a title and an episode count but no episode |
| Cards.HomeOngoingCompositional | src/services/otakudesu.service.ts:89-111 | the home ongoing column is built element by element in document order; a single element gives its card exactly when its title is non-blank and its link non-empty |
| Cards.HomeCompleteCompositional | src/services/otakudesu.service.ts:114-136 | the home complete column is built element by element in the same way |
| Cards.OngoingCards | src/services/otakudesu.service.ts:150-172 | an ongoing card is built from exactly the elements with a non-blank title and a link containing `/anime/`; each has a title, an episode and a release day |
| Cards.CompleteCards | src/services/otakudesu.service.ts:179-215 | a complete card is built from exactly the elements with a non-blank title and a link containing `/anime/`; each has a title, an episode count and a rating |
| Cards.CompleteCardsCompositional | src/services/otakudesu.service.ts:179-215 | the complete listing is built element by element in document order; a single element gives its card exactly when it passes the listing guard |
| Cards.GenreCards | src/services/otakudesu.service.ts:447-490 | a genre card is built from exactly the elements with a non-blank title and a link containing `/anime/`; each has a title and a rating but no episode |
| Cards.GenreCardsCompositional | src/services/otakudesu.service.ts:447-490 | the genre listing is built element by element in document order; a single element gives its card exactly when it passes the guard |
| Cards.ScanRating | src/services/otakudesu.service.ts:549-555 | the loop leaves the rating of the last `.set` text that mentions `Rating` |
| Cards.LastRatingStep | src/services/otakudesu.service.ts:550-555 | one more text decides the rating when it mentions `Rating`, and leaves it unchanged otherwise |
| Cards.SearchCards | src/services/otakudesu.service.ts:536-568 | a search card is built from exactly the hits with a non-blank title and a link containing `/anime/`; its rating is absent rather than empty |
| Cards.SearchCardsCompositional | src/services/otakudesu.service.ts:536-568 | search hits are judged one at a time in document order; a single hit gives its card exactly when it passes the guard |
| Cards.OngoingPage | src/services/otakudesu.service.ts:141-177 | the ongoing response holds a card for exactly the kept elements; its pagination starts at the parsed page (or 1), counts at least one page and every listed page, 50 items per page, and its flags agree with current and total |
| Cards.CompletePage | src/services/otakudesu.service.ts:179-215 | the complete response holds a card for exactly the kept elements, with the same pagination rules at 50 items per page |
| Cards.GenreListingPage | src/services/otakudesu.service.ts:447-490 | the genre response echoes the genre, holds a card for exactly the kept elements, and has the same pagination rules at 50 items per page |
| Cards.EmptyGenrePage | src/services/otakudesu.service.ts:447-490 | a genre page with no items and no widget is an empty first page, not an error |
| Cards.OngoingCardsCompositional | src/services/otakudesu.service.ts:150-172 | the listing is built element by element: a single element gives its card exactly when it passes the guard |
| Cards.CardSlugFromPageUrl | src/services/otakudesu.service.ts:165 | a card linking to the anime page of a slug carries that slug |
| Cards.CardWithEmptySlug | src/services/otakudesu.service.ts:162-165 | any element with a non-blank title whose link ends right after `/anime/` is kept, with the empty slug |
| Cards.PageText | src/services/otakudesu.service.ts:145 | a page number prints as a non-empty text that does not start with `/` |
| Cards.PageTextInjective | src/services/otakudesu.service.ts:145 | distinct page numbers (and `NaN`) print differently |
| Cards.ListingUrlsDistinct | src/services/otakudesu.service.ts:142-145 | distinct pages of a listing are fetched from distinct URLs |
| Cards.ListingUrl | src/services/otakudesu.service.ts:141-145 | page 1 is fetched from the listing's root URL, every other page from `/page/<n>/`; `Cards.ListingUrlsDistinct` shows no two pages share a URL |
| Catalog.Genres | src/services/otakudesu.service.ts:426-445 | a genre is built from exactly the links with a trimmed name and a non-empty `href`; each has a name and a `/`-free slug |
| Catalog.GenresCompositional | src/services/otakudesu.service.ts:426-445 | genre links are judged one at a time in document order; a single link is listed exactly when its name and `href` are non-empty |
| Catalog.GenreLinkRoundTrip | src/services/otakudesu.service.ts:431-441 | a link to the genre page of a slug is listed under its trimmed name and that slug |
| Catalog.Entries | src/services/otakudesu.service.ts:231-242 | an A–Z or schedule entry is built from exactly the links with a trimmed title and a non-empty `href`; each has a title |
| Catalog.EntriesCompositional | src/services/otakudesu.service.ts:231-242 | title links are judged one at a time in document order; a single link is kept exactly when its title and `href` are non-empty |
| Catalog.EmptySlugsListed | src/services/otakudesu.service.ts:433-441 | a link with a name and the `href` `#` is listed as a genre and as an entry, with the empty slug |
| Catalog.LetterOf | src/services/otakudesu.service.ts:224-225 | a block's key is its trimmed letter text upper-cased, and `#` when that text is blank |
| Catalog.AnimeList | src/services/otakudesu.service.ts:217-246 | no key of the A–Z map is empty |
| Catalog.AnimeListBuckets | src/services/otakudesu.service.ts:217-246 | a key is in the A–Z map exactly when some block carries it, and it holds the entries of every such block, in document order |
| Catalog.EmptyLetterBlock | src/services/otakudesu.service.ts:227-229 | a letter block without titles still creates its key, with an empty list |
| Catalog.DayLabel | src/services/otakudesu.service.ts:508-509 | a day label is the trimmed heading when there is one, else the Indonesian weekday of the block's position for the first seven, else `Day <position + 1>` |
| Catalog.DefaultLabelsDistinct | src/services/otakudesu.service.ts:496-509 | headless blocks get pairwise distinct labels |
| Catalog.Schedule | src/services/otakudesu.service.ts:492-534 | at most one day per block; each day has a label and at least one title |
| Catalog.ScheduleAppend | src/services/otakudesu.service.ts:505-531 | a block's label depends on its position among all blocks, dropped ones included |
| Catalog.ScheduleSingle | src/services/otakudesu.service.ts:525-530 | a block becomes a day exactly when it lists a title |
| Titles.FirstFrom | src/services/otakudesu.service.ts:251-256 | a regular-expression search finds the leftmost position where the pattern matches, or none |
| Titles.RemoveRange | src/services/otakudesu.service.ts:252-253 | the leftmost episode-range group, with the white space around it, is cut out; a title without one is unchanged |
| Titles.RemoveRangeWithoutParen | src/services/otakudesu.service.ts:252-253 | a title without `(` is left unchanged |
| Titles.StripSuffixes | src/services/otakudesu.service.ts:254-255 | the text loses exactly its leftmost trailing run of `Subtitle Indonesia` / `Sub Indo` words, and is unchanged when there is none |
| Titles.NormalizeAnimeTitle | src/services/otakudesu.service.ts:251-256 | the title is no longer than the heading and starts and ends with a non-space; `Titles.NormalizedTitleHasNoSuffix` shows it never ends with a release suffix |
| Titles.NormalizedTitleHasNoSuffix | src/services/otakudesu.service.ts:251-256 | a normalised anime title never ends with either release suffix, in any case |
| Titles.EpisodeLabel | src/services/otakudesu.service.ts:293-294 | the label is the digit run after the leftmost `Episode` followed by a digit; without such a match it is the text |
| Titles.EpisodeLabelOfNumber | src/services/otakudesu.service.ts:293-294 | the text `… Episode <n> …` is labelled with the digits of n |
| Titles.AnimeTitleOf | src/services/otakudesu.service.ts:340 | the anime title is the text before the leftmost episode tail, trimmed (the trimmed title when there is no tail); the tail may break lines before its number but not after |
| Titles.AnimeTitleOfEpisode | src/services/otakudesu.service.ts:340 | the title `<name> Episode<gap><n>…` gives the anime title `<name>`, whatever white space the gap is |
| Titles.AnimeTitleAcrossLineBreak | src/services/otakudesu.service.ts:340 | a line break between `Episode` and the number still cuts the tail |
| Titles.NamedEpisodeTitle | src/services/otakudesu.service.ts:340 | the title `<name> Episode <n>` is already trimmed and has the anime title `<name>` |
| AnimeDetails.InfoEntryOf | src/services/otakudesu.service.ts:266-274 | an info line gives an entry only when it contains `:` |
| AnimeDetails.InfoEntryRoundTrip | src/services/otakudesu.service.ts:270-272 | `key: value` is read back as the lower-cased trimmed key and the trimmed value, later colons included |
| AnimeDetails.CollectLookup | src/services/otakudesu.service.ts:266-274 | a key is collected exactly when some entry carries it, and holds the value of the last such entry |
| AnimeDetails.InfoMap | src/services/otakudesu.service.ts:266-274 | every key of the info map, with its value, is read from some line; `AnimeDetails.InfoMapLookup` adds that it is the last such line |
| AnimeDetails.InfoMapLookup | src/services/otakudesu.service.ts:266-274 | the info map holds a key exactly when some line carries it, with the value of the last such line |
| AnimeDetails.Field | src/services/otakudesu.service.ts:305-320 | a missing info field reads as `""` |
| AnimeDetails.GenreNames | src/services/otakudesu.service.ts:276-280 | a genre name is taken from exactly the links whose `href` contains `/genres/`, trimmed |
| AnimeDetails.GenreNamesCompositional | src/services/otakudesu.service.ts:276-280 | genre links are judged one at a time in document order; a single link contributes its trimmed text exactly when its `href` contains `/genres/` |
| AnimeDetails.Episodes | src/services/otakudesu.service.ts:285-303 | an episode entry is built from exactly the items whose link contains `/episode/`; each has a `/`-free slug |
| AnimeDetails.EpisodesCompositional | src/services/otakudesu.service.ts:285-303 | episode items are judged one at a time in document order; a single item is listed exactly when its link contains `/episode/` |
| AnimeDetails.EpisodeEntryOfPage | src/services/otakudesu.service.ts:285-303 | a link to the episode page of a slug reading `Episode <n>` is listed as episode n of that slug |
| AnimeDetails.ParseAnimeDetail | src/services/otakudesu.service.ts:248-321 | not found exactly when the normalised title is empty, with the message naming the slug; otherwise each of the nine info fields is the value of its key (`japanese`, `skor`, `produser`, `tipe`, `status`, `total episode`, `durasi`, `tanggal rilis`, `studio`) or `""`, the synopsis is trimmed, the poster is the image `src` or `""`, and the title, genres and episodes are those parsed |
| AnimeDetails.ParsedTitleHasNoSuffix | src/services/otakudesu.service.ts:251-256 | a parsed anime title never ends with a release suffix |
| AnimeDetails.ScoreIsLastSkorLine | src/services/otakudesu.service.ts:266-274 | the score is the value of the last `skor` line, or `""` when there is none |
| AnimeDetails.FieldIsLastLine | src/services/otakudesu.service.ts:266-274 | every info field is the value of the last line whose key reads that field, or `""` when there is none |
| EpisodeDetails.QualityOf | src/services/otakudesu.service.ts:360-361 | the quality is the digits and `p` after the leftmost `m<digits>p`, and `unknown` exactly when there is none |
| EpisodeDetails.QualityOfClass | src/services/otakudesu.service.ts:360-361 | the class `…m<n>p…` has the quality `<n>p` |
| EpisodeDetails.Servers | src/services/otakudesu.service.ts:367-380 | a server is built from exactly the mirror links with a provider text and a `data-content`; none is marked `isDefault: false` |
| EpisodeDetails.ServersCompositional | src/services/otakudesu.service.ts:367-380 | mirror links are judged one at a time in document order; a single link becomes a server exactly when its text and `data-content` are non-empty |
| EpisodeDetails.DefaultMarking | src/services/otakudesu.service.ts:371-377 | a server is marked default exactly when its `data-default` is `true` |
| EpisodeDetails.FindGroup | src/services/otakudesu.service.ts:363-365 | the group found carries the quality, and none is found only when no group does |
| EpisodeDetails.Qualities | src/services/otakudesu.service.ts:351-381 | the quality keys are pairwise distinct |
| EpisodeDetails.QualitiesListed | src/services/otakudesu.service.ts:351-381 | a quality is a key exactly when some mirror list has it |
| EpisodeDetails.GroupedSpec | src/services/otakudesu.service.ts:351-381 | the quality map has one group per distinct quality, in order of first appearance, with the servers of every list of that quality in document order |
| EpisodeDetails.StreamingServersSpec | src/services/otakudesu.service.ts:383-387 | the streaming groups are the qualities in order of first appearance with the server-less ones dropped, each with all of its servers; no two groups share a quality and none is empty |
| EpisodeDetails.StreamingServers | src/services/otakudesu.service.ts:383-387 | exactly the groups of the quality map that hold a server are kept; order and uniqueness are stated by `EpisodeDetails.StreamingServersSpec` |
| EpisodeDetails.Grouped | src/services/otakudesu.service.ts:351-381 | no two groups share a quality, and every group's quality is that of some mirror list; `EpisodeDetails.GroupedSpec` pins the groups |
| EpisodeDetails.Downloads | src/services/otakudesu.service.ts:390-410 | a section is built from exactly the items with a resolution and at least one listed link; each link has a provider and a URL |
| EpisodeDetails.DownloadsCompositional | src/services/otakudesu.service.ts:390-410 | download items are judged one at a time in document order; a single item becomes a section exactly when it is kept |
| EpisodeDetails.SectionKeptIff | src/services/otakudesu.service.ts:393-407 | an item is kept exactly when its resolution is non-blank and some link has a provider text and a URL |
| EpisodeDetails.DownloadsNotMerged | src/services/otakudesu.service.ts:390-410 | sections with the same resolution are not merged |
| EpisodeDetails.SlugOfLink | src/services/otakudesu.service.ts:418-419 | a missing or empty link gives no slug; any other gives its extracted slug |
| EpisodeDetails.ParseEpisodeDetail | src/services/otakudesu.service.ts:323-424 | not found exactly when the title is blank, with the message naming the slug; otherwise the anime slug comes from the first non-empty of the two anime links, the neighbours are the slugs of the `Previous` and `Next` links, the streaming URL is the player `src` when non-empty, and the anime title, servers and downloads are those parsed |
| EpisodeDetails.EpisodeBelongsToNamedAnime | src/services/otakudesu.service.ts:323-424 | an episode titled `<name> Episode <n>` is found and belongs to the anime `<name>` |
| Errors.FirstListed | src/common/filters/global-exception.filter.ts:62-67 | the resource is the one of the first marker the path contains, no earlier marker being contained, or none when it contains none |
| Errors.ResourceOf | src/common/filters/global-exception.filter.ts:62-67 | ANIME, EPISODE, GENRE, SEARCH, STREAMING or RESOURCE, each exactly when its marker is the first one the path contains |
| Errors.ResourceOfFirstListed | src/index.ts:20-25 | the Hono resource chain picks the first listed marker, the same as the NestJS one |
| Errors.ErrorCode | src/common/filters/global-exception.filter.ts:60-80 | the code is INTERNAL_ERROR exactly for an unmapped status; a 404 names the resource |
| Errors.ErrorCodeRoundTrip | src/index.ts:27-37 | a mapped status is recovered from its code; an unmapped one is not |
| Errors.PathMattersOnlyForNotFound | src/index.ts:27-37 | the path matters to the code only for 404 |
| Errors.AnimeNotFoundCode | src/common/filters/global-exception.filter.ts:63-71 | a 404 on `/api/anime/<slug>` is ANIME_NOT_FOUND |
| Errors.EpisodeNotFoundCode | src/common/filters/global-exception.filter.ts:64-71 | a 404 on `/api/episode/<slug>` is EPISODE_NOT_FOUND |
| Errors.GenreNotFoundCode | src/common/filters/global-exception.filter.ts:65-71 | a 404 on `/api/genres/<genre>` is GENRE_NOT_FOUND |
| Errors.IndexPathsAreGeneric | src/common/filters/global-exception.filter.ts:62-67 | `/api/anime-list` and `/api/genres` contain no marker and name the generic resource |
| Errors.ExceptionMessage | src/common/filters/global-exception.filter.ts:27-36 | a string response is the message; an object response gives its non-empty `message`, else its non-empty `error`, else the default |
| Errors.NestErrorBody | src/common/filters/global-exception.filter.ts:13-58 | an `HttpException` keeps its status, gets the mapped code and the message chosen from its response (string, else `message`, else `error`, else the default); a plain `Error` is 500 INTERNAL_ERROR with its own message; anything else is 500 with the default message; details appear only in development and are the response object's `details` or the error's stack; the path is the URL |
| Errors.HonoErrorBody | src/index.ts:16-51 | a missing or zero status is 500; the code is mapped from the status; the message is the error's, or "Internal server error" when the error's message is empty; no details |
| Errors.HandlersAgree | src/index.ts:16-51 | the same status and message give the same body in both builds, save for NestJS details |
| Errors.PlainErrorStatus | src/common/filters/global-exception.filter.ts:40-43 | a plain error carrying a 404 is a 404 in Hono but a 500 in NestJS |
| Errors.Succeed | src/index.ts:54-68 | the success envelope is 200 `OK` with the data unchanged and the request path |
| Resolver.FormFields | src/services/otakudesu.service.ts:588-630 | the nonce request sends exactly `action=aa1208d27f29ca340c92c66d1926f13f`; the player request sends `action=2a3505c93b0035d3f455df82bf976b84`, then `nonce`, `id`, `i` and `q`, in that order, each with the request's own value |
| Resolver.FormFieldsInjective | src/services/otakudesu.service.ts:588-630 | two requests with the same form fields are the same request, so the form carries the nonce and every token field |
| Resolver.DecodeWith | src/otakudesu/otakudesu.service.ts:603-605 | NestJS decodes leniently with `Buffer`; Hono uses `atob`, which can fail |
| Resolver.ReplyData | src/services/otakudesu.service.ts:602-645 | a reply yields data exactly when it is a 2xx JSON object with a non-empty `data`; a transport failure keeps its message; a non-2xx status is a rejection; a 2xx body that is not JSON is an unreadable body in Hono (`json()` throws) and missing data in NestJS (axios hands back the text); a 2xx JSON body without data is missing |
| Resolver.FieldText | src/services/otakudesu.service.ts:616-645 | an absent number is sent as `""`, a present one as its decimal rendering |
| Resolver.PlayerRequestFor | src/services/otakudesu.service.ts:616-630 | the player request carries the nonce received; `id` and `i` are sent as their decimal rendering and `q` unchanged, and a field is `""` exactly when the token lacks it (or `q` is empty) |
| Resolver.PlayerFieldsRoundTrip | src/services/otakudesu.service.ts:616-645 | a non-negative `id` or `i` is read back unchanged from the request |
| Resolver.ExtractSrc | src/services/otakudesu.service.ts:651-652 | the URL is the first `src="…"` value of the fragment, or `""` when there is none |
| Resolver.ExtractSrcOf | src/services/otakudesu.service.ts:651-652 | a fragment whose first `src="` opens a quote-free URL yields that URL |
| Resolver.TokenParams | src/services/otakudesu.service.ts:584-585 | a failed base64 decode (Hono's `atob`) or a failed `JSON.parse` stops the run with that error's message; a token parsing to `null` gives no fields; any other parsed value gives its `id`, `i` and `q`; in NestJS only a failed `JSON.parse` stops the run |
| Resolver.Step | src/services/otakudesu.service.ts:570-658 | every step makes progress; only the nonce and player phases send a request; the player request carries the nonce received |
| Resolver.RunFrom | src/services/otakudesu.service.ts:570-658 | a run always ends, done or stopped, after at most one request per remaining phase |
| Resolver.Resolve | src/services/otakudesu.service.ts:570-658 | a resolution always ends, done or stopped; `Resolver.ResolveProtocol` and `Resolver.ResolvedUrl` state what it sends and returns |
| Resolver.ResolveProtocol | src/services/otakudesu.service.ts:570-658 | nothing is sent for an unreadable token; the nonce request comes first; the player request follows exactly when a nonce came back and the token was not `null` |
| Resolver.ResolvedUrl | src/services/otakudesu.service.ts:570-658 | a finished run made both requests, the second with the first reply's nonce, and returns the decoded fragment and the URL taken from it |
| Resolver.BuildsAgree | src/otakudesu/otakudesu.service.ts:589-679 | when the decoders agree and every reply is JSON, the two builds run identically |
| Resolver.ExampleResolution | src/services/otakudesu.service.ts:570-658 | the token `{id:123,i:0,q:"480p"}` with nonce `nonce1` resolves to the iframe's URL in both builds, after exactly the two requests |
| Resolver.NestThrown | src/otakudesu/otakudesu.service.ts:607-678 | NestJS throws 502 for every fault, naming a missing nonce or player and otherwise saying the resolution failed |
| Resolver.HonoThrown | src/services/otakudesu.service.ts:588-645 | Hono gives status 502 exactly for a missing nonce or player; every other fault carries no status |
| Resolver.NestFaultsAreUpstream | src/otakudesu/otakudesu.service.ts:670-678 | every NestJS resolver failure is answered 502 UPSTREAM_ERROR |
| Resolver.HonoFaultStatus | src/index.ts:16-51 | a Hono resolver failure is 502 for a missing nonce or player and 500 INTERNAL_ERROR otherwise |
| Routes.HonoAnswer | src/index.ts:174-175 | the route answers the envelope exactly when the run finished, and otherwise the error body of the fault |
| Routes.HonoResolveGet | src/index.ts:179-184 | the GET route sends exactly the resolver's requests and answers with the run's envelope, or the Hono error body of its fault |
| Routes.HonoResolvePost | src/index.ts:163-176 | without a token the POST route sends nothing and answers 400 "dataContent is required"; with one it sends and answers what the GET route does |
| Routes.PostGuard | src/index.ts:168-172 | a missing or empty `dataContent` is answered 400 BAD_REQUEST and nothing is sent |
| Routes.PostMatchesGet | src/index.ts:163-184 | with a token, the POST and GET routes behave the same |
| Routes.NestResolve | src/otakudesu/otakudesu.controller.ts:243-246 | a finished run answers its `{url, html}`; a stopped run answers the NestJS error body of the fault it throws; every failure, a missing body field included, is 502 UPSTREAM_ERROR |
| Routes.UnreadableToken | src/otakudesu/otakudesu.service.ts:602-678 | a token that cannot be decoded or parsed sends no request; NestJS answers it 502 UPSTREAM_ERROR "Failed to resolve streaming URL", Hono 500 INTERNAL_ERROR with the decoder's or parser's message |
| Routes.EmptyTokenDiffers | src/index.ts:168-172 | an empty token is refused with 400 by Hono but handed to the resolver by NestJS |
| Routes.FetchFailed | src/services/otakudesu.service.ts:30-41 | NestJS answers every failed fetch 502 UPSTREAM_ERROR with the URL in the message; Hono answers 500 INTERNAL_ERROR, with the URL message on an error status and the request's own message when the request fails |
| Routes.NotFound | src/services/otakudesu.service.ts:259-264 | a not-found failure is answered 404 with the resource's code and the message, in both builds |
| Routes.AnimeRoute | src/index.ts:116-121 | a parsed page is answered with the success envelope of the detail at `/api/anime/<slug>`; otherwise with the not-found body of the parser's message |
| Routes.AnimeNotFound | src/services/otakudesu.service.ts:259-264 | an anime page with an empty normalised title is 404 ANIME_NOT_FOUND naming the slug |
| Routes.EpisodeRoute | src/index.ts:124-129 | a parsed page is answered with the success envelope of the detail at `/api/episode/<slug>`; otherwise with the not-found body of the parser's message |
| Routes.EpisodeNotFound | src/services/otakudesu.service.ts:328-333 | an episode page with a blank title is 404 EPISODE_NOT_FOUND naming the slug |

## Left out

- Network I/O (`fetchHtml`, axios, `fetch`) is left out. Pages enter as their extracted contents; a failed fetch enters only as `Routes.FetchFailed`.
- Cheerio and CSS selection are left out. Every parser takes the texts and attributes its selectors would return, in document order; the pagination and listing parsers take numbers instead (next line).
- Paging.ParsePagination: `parseInt` is not modelled. The current page and each numbered link enter as `parseInt`'s result (a number or `NaN`), and `Cards.ListingUrl` takes the route's page number likewise; how `parseInt` reads leading space, a sign, a digit prefix or a non-number is left out.
- Base64 (`atob`, `Buffer.from`), `JSON.parse` and the two AJAX replies are parameters of `Resolver.Upstream`. They are foreign code, not modelled.
- Text.ToLower, Text.ToUpper: ASCII letters only. Full Unicode case mapping is not modelled.
- Resolver.TokenParams: only an integer `id` or `i` and a string `q`, reply `data` or `dataContent` are modelled; any other JSON value reads as absent. The source sends `{"id":"0123"}`, `{"id":1.5}` and `{"q":5}` as `"0123"`, `"1.5"` and `"5"`, and accepts a non-string `data` such as `5` as a nonce; the model cannot express these.
- Text.IntToString: JavaScript number limits are not modelled. The source prints a number of 1e21 or more with an exponent and loses precision above 2^53; the model's rendering is exact.
- The `timestamp`, `responseTime` and the `X-Response-Time` header are left out. They come from the clock.
- The NestJS response interceptor, the OpenAPI document, the DTOs, `main.ts`, the module wiring and the route list are left out. Only the detail and resolver routes decide failures, and those are modelled.
- The search query default and `encodeURIComponent` of the search URL are left out. The query only shapes the URL fetched.
- Catalog.AnimeList: the A–Z result is a map, so the key order of the JavaScript object is not modelled.
- Routes.HonoResolvePost: a POST body that is not JSON, or is `null`, is left out. It throws before the guard and would be a 500.
- Errors.HonoErrorBody: a status outside the HTTP range, which `c.json` would refuse, is not modelled.
- Errors.ExceptionMessage: a `message` given as an array (Nest validation) is not modelled; messages are strings.
- The `Nest` parsers are not modelled separately from the Hono ones. They follow the same selectors and rules; only fetching, the not-found exceptions and the resolver differ.

=== FILE: animedetail.dfy ===
/**
 * The anime page: the normalised title (and the not-found outcome when it is empty), the
 * info panel as a key/value map, the genre names, the synopsis, the poster and the episode
 * list.
 */
module AnimeDetails {
  import opened Wrappers
  import opened Text
  import opened Slugs
  import opened Lists
  import opened Catalog
  import opened Titles

  /** One entry of the episode list: the `href` of its link, the link's text and the `.zeebr` date text. */
  datatype EpisodeItem = EpisodeItem(href: Option<string>, linkText: string, dateText: string)

  /** `EpisodeListItem`. */
  datatype EpisodeEntry = EpisodeEntry(episode: string, slug: string, date: string)

  /** The extracted contents of an anime page. */
  datatype AnimePage = AnimePage(
    h1Text: string,
    posterSrc: Option<string>,
    infoLines: seq<string>,
    genreLinks: seq<Link>,
    synopsisText: string,
    episodeItems: seq<EpisodeItem>)

  /** `AnimeDetail` (the optional batch links are never filled in by the parser). */
  datatype AnimeDetail = AnimeDetail(
    title: string,
    japanese: string,
    score: string,
    producer: string,
    animeType: string,
    status: string,
    totalEpisode: string,
    duration: string,
    releaseDate: string,
    studio: string,
    genres: seq<string>,
    synopsis: string,
    poster: string,
    episodes: seq<EpisodeEntry>)

  /** The message of the not-found outcome for `what` (`Anime` or `Episode`) and the requested slug. */
  function NotFoundMessage(what: string, slug: string): string {
    what + " dengan slug '" + slug + "' tidak ditemukan"
  }

  /**
   * An info-panel line split at its first `:`: the key lower-cased and trimmed, the rest
   * (later colons included) trimmed. A line without `:` or with nothing before it is skipped.
   */
  function InfoEntryOf(line: string): (r: Option<(string, string)>)
    ensures r.Some? ==> Contains(line, ":")
    ensures r.None? ==> !Contains(line, ":") || line[0] == ':'
  {
    IndexOfFindsContained(line, ":");
    match IndexOf(line, ":", 0)
    case None => None
    case Some(i) =>
      if i == 0 then None else Some((ToLower(Trim(line[..i])), Trim(line[i + 1..])))
  }

  /** A key written without `:` is read back (lower-cased and trimmed) with everything after its colon. */
  lemma InfoEntryRoundTrip(key: string, value: string)
    requires key != [] && ':' !in key
    ensures InfoEntryOf(key + ":" + value) == Some((ToLower(Trim(key)), Trim(value)))
  {
    var line := key + ":" + value;
    assert OccursAt(line, ":", |key|);
    forall j: nat | j < |key|
      ensures !OccursAt(line, ":", j)
    {
      assert line[j] == key[j] && key[j] in key;
      if j + 1 <= |line| {
        assert line[j..j + 1][0] == line[j];
      }
    }
    IndexOfFindsContained(line, ":");
    assert line[..|key|] == key && line[|key| + 1..] == value;
  }

  /** An entry read from some line carries `key`. */
  predicate EntryHasKey(e: Option<(string, string)>, key: string) {
    e.Some? && e.value.0 == key
  }

  /** `line` contributes an entry under `key`. */
  predicate HasKey(line: string, key: string) {
    EntryHasKey(InfoEntryOf(line), key)
  }

  /** The entries read from the lines, one per line. */
  function InfoEntries(lines: seq<string>): (es: seq<Option<(string, string)>>)
    ensures |es| == |lines|
    ensures forall i :: 0 <= i < |lines| ==> es[i] == InfoEntryOf(lines[i])
  {
    seq(|lines|, i requires 0 <= i < |lines| => InfoEntryOf(lines[i]))
  }

  /** Entries stored in order into a map, a later entry overwriting an earlier one with the same key. */
  function Collect(es: seq<Option<(string, string)>>): (m: map<string, string>)
    ensures forall k :: k in m ==> exists i :: 0 <= i < |es| && es[i] == Some((k, m[k]))
  {
    if |es| == 0 then map[]
    else
      var m := Collect(es[..|es| - 1]);
      match es[|es| - 1]
      case None => m
      case Some(e) => m[e.0 := e.1]
  }

  /** The info map. */
  function InfoMap(lines: seq<string>): (m: map<string, string>)
    ensures forall k :: k in m ==> exists i :: 0 <= i < |lines| && InfoEntryOf(lines[i]) == Some((k, m[k]))
  {
    Collect(InfoEntries(lines))
  }

  /** Some entry carries `key`. */
  predicate KeyListed(es: seq<Option<(string, string)>>, key: string) {
    exists i :: 0 <= i < |es| && EntryHasKey(es[i], key)
  }

  /** Entry `i` is the last entry that carries `key`, and its value is `value`. */
  predicate LastEntryFor(es: seq<Option<(string, string)>>, key: string, value: string, i: int) {
    0 <= i < |es| && es[i] == Some((key, value))
    && forall j :: i < j < |es| ==> !EntryHasKey(es[j], key)
  }

  /** A key is collected exactly when some entry carries it, and it holds the value of the last such entry. */
  lemma {:induction false} CollectLookup(es: seq<Option<(string, string)>>, key: string)
    ensures key in Collect(es) <==> KeyListed(es, key)
    ensures key in Collect(es) ==> exists i :: LastEntryFor(es, key, Collect(es)[key], i)
  {
    if |es| > 0 {
      var init := es[..|es| - 1];
      var last := es[|es| - 1];
      CollectLookup(init, key);
      assert forall i :: 0 <= i < |init| ==> init[i] == es[i];
      if EntryHasKey(last, key) {
        assert LastEntryFor(es, key, Collect(es)[key], |es| - 1);
      } else if key in Collect(init) {
        assert Collect(es)[key] == Collect(init)[key];
        var i :| LastEntryFor(init, key, Collect(init)[key], i);
        assert LastEntryFor(es, key, Collect(es)[key], i);
      }
    }
  }

  /**
   * A key is in the info map exactly when some line carries it, and it holds the value of the
   * last such line: later colons are kept, later duplicates win.
   */
  lemma InfoMapLookup(lines: seq<string>, key: string)
    ensures key in InfoMap(lines) <==> exists i :: 0 <= i < |lines| && HasKey(lines[i], key)
    ensures key in InfoMap(lines) ==>
              exists i :: 0 <= i < |lines| && InfoEntryOf(lines[i]) == Some((key, InfoMap(lines)[key]))
                          && forall j :: i < j < |lines| ==> !HasKey(lines[j], key)
  {
    var es := InfoEntries(lines);
    CollectLookup(es, key);
    if key in InfoMap(lines) {
      var i :| LastEntryFor(es, key, Collect(es)[key], i);
      assert InfoEntryOf(lines[i]) == Some((key, InfoMap(lines)[key]));
    }
  }

  /** A field of the detail record: the map's value for `key`, `""` when absent. */
  function Field(info: map<string, string>, key: string): (r: string)
    ensures key in info ==> r == info[key]
    ensures key !in info ==> r == []
  {
    if key in info && info[key] != [] then info[key] else ""
  }

  predicate IsGenreLink(l: Link) {
    Contains(Or(l.href, ""), GenresMarker)
  }

  function LinkName(l: Link): string {
    Trim(l.text)
  }

  /** The genre names: the trimmed text of every link whose `href` contains `/genres/` (empty names included). */
  function GenreNames(links: seq<Link>): (r: seq<string>)
    ensures |r| <= |links|
    ensures forall l :: l in links && IsGenreLink(l) ==> Trim(l.text) in r
    ensures forall n :: n in r ==> exists l :: l in links && IsGenreLink(l) && n == Trim(l.text)
  {
    FilterMap(links, IsGenreLink, LinkName)
  }

  /**
   * Genre links are judged one at a time and kept in document order; a single link contributes
   * its trimmed text exactly when its `href` contains `/genres/`.
   */
  lemma GenreNamesCompositional(xs: seq<Link>, ys: seq<Link>, l: Link)
    ensures GenreNames(xs + ys) == GenreNames(xs) + GenreNames(ys)
    ensures GenreNames([l]) == if Contains(Or(l.href, ""), "/genres/") then [Trim(l.text)] else []
  {
    FilterMapAppend(xs, ys, IsGenreLink, LinkName);
    FilterMapSingle(l, IsGenreLink, LinkName);
  }

  predicate LinksToEpisode(x: EpisodeItem) {
    Contains(Or(x.href, ""), EpisodeMarker)
  }

  function EpisodeEntryOf(x: EpisodeItem): EpisodeEntry {
    EpisodeEntry(EpisodeLabel(Trim(x.linkText)), ExtractSlug(Or(x.href, "")), Trim(x.dateText))
  }

  /** The episode list: one entry per item whose link contains `/episode/`, in document order. */
  function Episodes(items: seq<EpisodeItem>): (r: seq<EpisodeEntry>)
    ensures |r| <= |items|
    ensures forall e :: e in r ==> '/' !in e.slug
    ensures forall x :: x in items && LinksToEpisode(x) ==> EpisodeEntryOf(x) in r
    ensures forall e :: e in r ==> exists x :: x in items && LinksToEpisode(x) && e == EpisodeEntryOf(x)
  {
    FilterMap(items, LinksToEpisode, EpisodeEntryOf)
  }

  /**
   * Episode items are judged one at a time and kept in document order; a single item is listed
   * exactly when its link contains `/episode/`.
   */
  lemma EpisodesCompositional(xs: seq<EpisodeItem>, ys: seq<EpisodeItem>, x: EpisodeItem)
    ensures Episodes(xs + ys) == Episodes(xs) + Episodes(ys)
    ensures Episodes([x]) == if Contains(Or(x.href, ""), "/episode/")
                             then [EpisodeEntry(EpisodeLabel(Trim(x.linkText)), ExtractSlug(Or(x.href, "")), Trim(x.dateText))]
                             else []
  {
    FilterMapAppend(xs, ys, LinksToEpisode, EpisodeEntryOf);
    FilterMapSingle(x, LinksToEpisode, EpisodeEntryOf);
  }

  /** An entry linking to the episode page of `slug` and reading `Episode <n>` is listed as episode `n` of that slug. */
  lemma EpisodeEntryOfPage(slug: string, n: nat, date: string)
    requires slug != [] && '/' !in slug
    ensures Episodes([EpisodeItem(Some(PageUrl(EpisodeMarker, slug)), "Episode " + NatToString(n), date)])
            == [EpisodeEntry(NatToString(n), slug, Trim(date))]
  {
    var x := EpisodeItem(Some(PageUrl(EpisodeMarker, slug)), "Episode " + NatToString(n), date);
    EpisodeItemOfPage(slug, n, date);
    FilterMapSingle(x, LinksToEpisode, EpisodeEntryOf);
  }

  lemma EpisodeItemOfPage(slug: string, n: nat, date: string)
    requires slug != [] && '/' !in slug
    ensures var x := EpisodeItem(Some(PageUrl(EpisodeMarker, slug)), "Episode " + NatToString(n), date);
            LinksToEpisode(x) && EpisodeEntryOf(x) == EpisodeEntry(NatToString(n), slug, Trim(date))
  {
    var url := PageUrl(EpisodeMarker, slug);
    assert Or(Some(url), "") == url;
    PageUrlContainsMarker(EpisodeMarker, slug);
    SlugOfEpisodeUrl(slug);
    NumberedLabel(n);
  }

  lemma SlugOfEpisodeUrl(slug: string)
    requires slug != [] && '/' !in slug
    ensures ExtractSlug(PageUrl(EpisodeMarker, slug)) == slug
  {
    DetailUrlRoundTrip(slug);
  }

  /** The link text `Episode <n>` is labelled `n`. */
  lemma NumberedLabel(n: nat)
    ensures EpisodeLabel(Trim("Episode " + NatToString(n))) == NatToString(n)
  {
    var digits := NatToString(n);
    var text := "Episode " + digits;
    assert IsDigit(text[|text| - 1]);
    TrimOfTrimmed(text);
    assert forall i: nat :: !WordAt([], EpisodeWord, i);
    EpisodeLabelOfNumber([], n, []);
    assert [] + "Episode " + digits + [] == text by {
      assert [] + "Episode " == "Episode ";
      assert text + [] == text;
    }
  }

  /** The page URL of a slug contains its marker. */
  lemma PageUrlContainsMarker(marker: string, slug: string)
    ensures Contains(PageUrl(marker, slug), marker)
  {
    assert OccursAt(PageUrl(marker, slug), marker, |BaseUrl|);
  }

  /**
   * The anime page parser: a page whose normalised title is empty is reported as not found
   * (and nothing else is read); otherwise every field is filled in, defaulting to `""`.
   */
  function ParseAnimeDetail(slug: string, page: AnimePage): (r: Result<AnimeDetail, string>)
    ensures r.Failure? <==> NormalizeAnimeTitle(page.h1Text) == []
    ensures r.Failure? ==> r.error == NotFoundMessage("Anime", slug)
    ensures r.Success? ==> r.value.title != [] && r.value.title == NormalizeAnimeTitle(page.h1Text)
    ensures r.Success? ==> r.value.genres == GenreNames(page.genreLinks) && r.value.episodes == Episodes(page.episodeItems)
    ensures r.Success? ==>
              var info := InfoMap(page.infoLines);
              r.value.japanese == Field(info, "japanese") && r.value.score == Field(info, "skor")
              && r.value.producer == Field(info, "produser") && r.value.animeType == Field(info, "tipe")
              && r.value.status == Field(info, "status") && r.value.totalEpisode == Field(info, "total episode")
              && r.value.duration == Field(info, "durasi") && r.value.releaseDate == Field(info, "tanggal rilis")
              && r.value.studio == Field(info, "studio")
    ensures r.Success? ==> r.value.synopsis == Trim(page.synopsisText) && r.value.poster == Or(page.posterSrc, "")
  {
    var title := NormalizeAnimeTitle(page.h1Text);
    if title == [] then Failure(NotFoundMessage("Anime", slug))
    else
      var info := InfoMap(page.infoLines);
      Success(AnimeDetail(
        title,
        Field(info, "japanese"),
        Field(info, "skor"),
        Field(info, "produser"),
        Field(info, "tipe"),
        Field(info, "status"),
        Field(info, "total episode"),
        Field(info, "durasi"),
        Field(info, "tanggal rilis"),
        Field(info, "studio"),
        GenreNames(page.genreLinks),
        Trim(page.synopsisText),
        Or(page.posterSrc, ""),
        Episodes(page.episodeItems)))
  }

  /** A parsed title never ends with a release suffix. */
  lemma ParsedTitleHasNoSuffix(slug: string, page: AnimePage)
    requires ParseAnimeDetail(slug, page).Success?
    ensures !EndsWithIgnoreCase(ParseAnimeDetail(slug, page).value.title, SubtitleIndonesia)
    ensures !EndsWithIgnoreCase(ParseAnimeDetail(slug, page).value.title, SubIndo)
  {
    NormalizedTitleHasNoSuffix(page.h1Text);
  }

  /**
   * Every info field is the value of the last info line whose key reads `key` (in any case, with
   * any surrounding white space), and `""` when there is none.
   */
  lemma FieldIsLastLine(lines: seq<string>, key: string)
    ensures var v := Field(InfoMap(lines), key);
            (v == [] && forall i :: 0 <= i < |lines| ==> !HasKey(lines[i], key))
            || exists i :: 0 <= i < |lines| && InfoEntryOf(lines[i]) == Some((key, v))
                           && forall j :: i < j < |lines| ==> !HasKey(lines[j], key)
  {
    InfoMapLookup(lines, key);
  }

  /**
   * The score field is the value of the last info line whose key reads `skor` (in any case,
   * with any surrounding white space), and `""` when there is none.
   */
  lemma ScoreIsLastSkorLine(slug: string, page: AnimePage)
    requires ParseAnimeDetail(slug, page).Success?
    ensures var score := ParseAnimeDetail(slug, page).value.score;
            (score == [] && forall i :: 0 <= i < |page.infoLines| ==> !HasKey(page.infoLines[i], "skor"))
            || exists i :: 0 <= i < |page.infoLines| && InfoEntryOf(page.infoLines[i]) == Some(("skor", score))
                           && forall j :: i < j < |page.infoLines| ==> !HasKey(page.infoLines[j], "skor")
  {
    InfoMapLookup(page.infoLines, "skor");
  }
}

=== FILE: cards.dfy ===
/**
 * The card parsers: home (ongoing and complete columns), the ongoing/complete listings,
 * the genre-filtered listing and search. Each walks its item elements in document order and
 * emits an `AnimeCard` only when the item's guard holds; other items are dropped silently.
 */
module Cards {
  import opened Wrappers
  import opened Text
  import opened Slugs
  import opened Paging
  import opened Lists

  /** `AnimeCard`; `None` marks an optional field the parser leaves out. */
  datatype AnimeCard = AnimeCard(
    title: string,
    slug: string,
    poster: string,
    episode: Option<string>,
    rating: Option<string>,
    releaseDay: Option<string>,
    releaseDate: Option<string>,
    totalEpisode: Option<string>)

  /**
   * One item of the home columns (`.venz ul li`) or of a listing (`.venz ul li, .rapi .detpost`):
   * the untrimmed texts of its title, `.epz`, `.epztipe` and `.newnime` elements, the `href` of
   * its first link and the `src`/`data-src` of its first image (absent attributes are `None`).
   */
  datatype ListingItem = ListingItem(
    titleText: string,
    href: Option<string>,
    src: Option<string>,
    dataSrc: Option<string>,
    epzText: string,
    epztipeText: string,
    newnimeText: string)

  /** One item of the genre-filtered listing (`.col-anime, .col-md-4, .venz li, .page .col-6`). */
  datatype GenreItem = GenreItem(
    titleText: string,
    href: Option<string>,
    src: Option<string>,
    dataSrc: Option<string>,
    ratingText: string)

  /** One search hit (`.chivsrc li`): title and link of `h2 a`, the image `src`, the texts of its `.set` elements. */
  datatype SearchItem = SearchItem(
    titleText: string,
    href: Option<string>,
    src: Option<string>,
    setTexts: seq<string>)

  /** A listing response: the cards and the pagination of the same page. */
  datatype ListingPage = ListingPage(anime: seq<AnimeCard>, pagination: Pagination)

  /** The genre listing response echoes the requested genre. */
  datatype GenrePage = GenrePage(genre: string, anime: seq<AnimeCard>, pagination: Pagination)

  /** The guard of the home columns: a non-blank title and a non-empty link. */
  predicate HomeKeeps(x: ListingItem) {
    Trim(x.titleText) != [] && Or(x.href, "") != []
  }

  /** The guard of every listing, genre and search parser: a non-blank title and a link containing `/anime/`. */
  predicate LinksToAnime(titleText: string, href: Option<string>) {
    Trim(titleText) != [] && Contains(Or(href, ""), AnimeMarker)
  }

  /** The episode label of an ongoing card: the `.epz` text with its first `Episode` removed, trimmed. */
  function EpisodeText(epzText: string): string {
    Trim(ReplaceFirst(epzText, "Episode", ""))
  }

  /** The poster of a listing card: the image `src`, else its `data-src`, else empty. */
  function Poster(src: Option<string>, dataSrc: Option<string>): (r: string)
    ensures src.Some? && src.value != [] ==> r == src.value
    ensures Or(src, "") == [] ==> r == Or(dataSrc, "")
  {
    Or(src, Or(dataSrc, ""))
  }

  /** An ongoing card: episode, release day and release date. */
  function OngoingCard(x: ListingItem, poster: string): AnimeCard {
    AnimeCard(Trim(x.titleText), ExtractSlug(Or(x.href, "")), poster,
              Some(EpisodeText(x.epzText)), None, Some(Trim(x.epztipeText)), Some(Trim(x.newnimeText)), None)
  }

  /** A complete card: total episodes, rating and release date. */
  function CompleteCard(x: ListingItem, poster: string): AnimeCard {
    AnimeCard(Trim(x.titleText), ExtractSlug(Or(x.href, "")), poster,
              None, Some(Trim(x.epztipeText)), None, Some(Trim(x.newnimeText)), Some(Trim(x.epzText)))
  }

  /** The home columns take the poster from `src` only. */
  function HomeOngoingCard(x: ListingItem): AnimeCard {
    OngoingCard(x, Or(x.src, ""))
  }

  function HomeCompleteCard(x: ListingItem): AnimeCard {
    CompleteCard(x, Or(x.src, ""))
  }

  /** The ongoing column of the home page (`.venz ul` first list): poster from `src` only. */
  function HomeOngoing(items: seq<ListingItem>): (r: seq<AnimeCard>)
    ensures |r| <= |items|
    ensures forall c :: c in r ==> c.title != [] && c.episode.Some? && c.totalEpisode.None?
    ensures forall x :: x in items && HomeKeeps(x) ==> HomeOngoingCard(x) in r
    ensures forall c :: c in r ==> exists x :: x in items && HomeKeeps(x) && c == HomeOngoingCard(x)
  {
    FilterMap(items, HomeKeeps, HomeOngoingCard)
  }

  /** The complete column of the home page (`.venz ul` last list): poster from `src` only. */
  function HomeComplete(items: seq<ListingItem>): (r: seq<AnimeCard>)
    ensures |r| <= |items|
    ensures forall c :: c in r ==> c.title != [] && c.totalEpisode.Some? && c.episode.None?
    ensures forall x :: x in items && HomeKeeps(x) ==> HomeCompleteCard(x) in r
    ensures forall c :: c in r ==> exists x :: x in items && HomeKeeps(x) && c == HomeCompleteCard(x)
  {
    FilterMap(items, HomeKeeps, HomeCompleteCard)
  }

  /**
   * Home items are judged one at a time and kept in document order; a single item yields its
   * card exactly when its title is non-blank and its link is non-empty.
   */
  lemma HomeOngoingCompositional(xs: seq<ListingItem>, ys: seq<ListingItem>, x: ListingItem)
    ensures HomeOngoing(xs + ys) == HomeOngoing(xs) + HomeOngoing(ys)
    ensures HomeOngoing([x]) == if Trim(x.titleText) != [] && Or(x.href, "") != []
                                then [OngoingCard(x, Or(x.src, ""))] else []
  {
    FilterMapAppend(xs, ys, HomeKeeps, HomeOngoingCard);
    FilterMapSingle(x, HomeKeeps, HomeOngoingCard);
  }

  /** The complete column is built item by item in the same way. */
  lemma HomeCompleteCompositional(xs: seq<ListingItem>, ys: seq<ListingItem>, x: ListingItem)
    ensures HomeComplete(xs + ys) == HomeComplete(xs) + HomeComplete(ys)
    ensures HomeComplete([x]) == if Trim(x.titleText) != [] && Or(x.href, "") != []
                                 then [CompleteCard(x, Or(x.src, ""))] else []
  {
    FilterMapAppend(xs, ys, HomeKeeps, HomeCompleteCard);
    FilterMapSingle(x, HomeKeeps, HomeCompleteCard);
  }

  /** The guard of the ongoing/complete listings. */
  predicate ListingKeeps(x: ListingItem) {
    LinksToAnime(x.titleText, x.href)
  }

  /** The listings take the poster from `src`, else `data-src`. */
  function ListedOngoingCard(x: ListingItem): AnimeCard {
    OngoingCard(x, Poster(x.src, x.dataSrc))
  }

  function ListedCompleteCard(x: ListingItem): AnimeCard {
    CompleteCard(x, Poster(x.src, x.dataSrc))
  }

  /** The cards of the ongoing listing. */
  function OngoingCards(items: seq<ListingItem>): (r: seq<AnimeCard>)
    ensures |r| <= |items|
    ensures forall c :: c in r ==> c.title != [] && c.episode.Some? && c.releaseDay.Some?
    ensures forall x :: x in items && ListingKeeps(x) ==> ListedOngoingCard(x) in r
    ensures forall c :: c in r ==> exists x :: x in items && ListingKeeps(x) && c == ListedOngoingCard(x)
  {
    FilterMap(items, ListingKeeps, ListedOngoingCard)
  }

  /** The cards of the complete listing. */
  function CompleteCards(items: seq<ListingItem>): (r: seq<AnimeCard>)
    ensures |r| <= |items|
    ensures forall c :: c in r ==> c.title != [] && c.totalEpisode.Some? && c.rating.Some?
    ensures forall x :: x in items && ListingKeeps(x) ==> ListedCompleteCard(x) in r
    ensures forall c :: c in r ==> exists x :: x in items && ListingKeeps(x) && c == ListedCompleteCard(x)
  {
    FilterMap(items, ListingKeeps, ListedCompleteCard)
  }

  /** The complete listing is built item by item, with the guard of the ongoing listing. */
  lemma CompleteCardsCompositional(xs: seq<ListingItem>, ys: seq<ListingItem>, x: ListingItem)
    ensures CompleteCards(xs + ys) == CompleteCards(xs) + CompleteCards(ys)
    ensures CompleteCards([x]) == if Trim(x.titleText) != [] && Contains(Or(x.href, ""), "/anime/")
                                  then [CompleteCard(x, Poster(x.src, x.dataSrc))] else []
  {
    FilterMapAppend(xs, ys, ListingKeeps, ListedCompleteCard);
    FilterMapSingle(x, ListingKeeps, ListedCompleteCard);
  }

  /** The guard of the genre listing. */
  predicate GenreKeeps(x: GenreItem) {
    LinksToAnime(x.titleText, x.href)
  }

  /** A genre-listing card carries only a rating besides title, slug and poster. */
  function GenreCard(x: GenreItem): AnimeCard {
    AnimeCard(Trim(x.titleText), ExtractSlug(Or(x.href, "")), Poster(x.src, x.dataSrc),
              None, Some(Trim(x.ratingText)), None, None, None)
  }

  /** The cards of a genre listing page. */
  function GenreCards(items: seq<GenreItem>): (r: seq<AnimeCard>)
    ensures |r| <= |items|
    ensures forall c :: c in r ==> c.title != [] && c.rating.Some? && c.episode.None?
    ensures forall x :: x in items && GenreKeeps(x) ==> GenreCard(x) in r
    ensures forall c :: c in r ==> exists x :: x in items && GenreKeeps(x) && c == GenreCard(x)
  {
    FilterMap(items, GenreKeeps, GenreCard)
  }

  /** Genre items are judged one at a time and kept in document order. */
  lemma GenreCardsCompositional(xs: seq<GenreItem>, ys: seq<GenreItem>, x: GenreItem)
    ensures GenreCards(xs + ys) == GenreCards(xs) + GenreCards(ys)
    ensures GenreCards([x]) == if Trim(x.titleText) != [] && Contains(Or(x.href, ""), "/anime/")
                               then [GenreCard(x)] else []
  {
    FilterMapAppend(xs, ys, GenreKeeps, GenreCard);
    FilterMapSingle(x, GenreKeeps, GenreCard);
  }

  /** The `.set` texts that mention a rating, processed as the search loop does. */
  function RatingOf(text: string): string {
    Trim(ReplaceFirst(text, "Rating :", ""))
  }

  predicate MentionsRating(text: string) {
    Contains(text, "Rating")
  }

  /**
   * The rating the search loop ends with: every `.set` text that mentions `Rating` overwrites
   * it, so the last such text wins; `""` when none does.
   */
  function LastRating(sets: seq<string>): string {
    match LastWhere(sets, MentionsRating)
    case None => ""
    case Some(k) => RatingOf(sets[k])
  }

  /** The search loop over the `.set` elements, assigning `rating` whenever a text mentions `Rating`. */
  method ScanRating(sets: seq<string>) returns (rating: string)
    ensures rating == LastRating(sets)
  {
    rating := "";
    var i := 0;
    while i < |sets|
      invariant 0 <= i <= |sets|
      invariant rating == LastRating(sets[..i])
    {
      LastRatingStep(sets[..i + 1]);
      assert sets[..i + 1][..i] == sets[..i];
      assert sets[..i + 1][i] == sets[i];
      if Contains(sets[i], "Rating") {
        rating := RatingOf(sets[i]);
      }
      i := i + 1;
    }
    assert sets[..i] == sets;
  }

  /** One more text: it decides the rating when it mentions `Rating`, and leaves it otherwise. */
  lemma LastRatingStep(sets: seq<string>)
    requires |sets| > 0
    ensures LastRating(sets) == if Contains(sets[|sets| - 1], "Rating") then RatingOf(sets[|sets| - 1]) else LastRating(sets[..|sets| - 1])
  {
    var init := sets[..|sets| - 1];
    LastWhereStep(sets, MentionsRating);
    if !MentionsRating(sets[|sets| - 1]) {
      var k := LastWhere(init, MentionsRating);
      if k.Some? {
        assert sets[k.value] == init[k.value];
      }
    }
  }

  /** The guard of the search parser. */
  predicate SearchKeeps(x: SearchItem) {
    LinksToAnime(x.titleText, x.href)
  }

  /** A search card: the rating is left out when the loop ended with an empty one. */
  function SearchCard(x: SearchItem): AnimeCard {
    var rating := LastRating(x.setTexts);
    AnimeCard(Trim(x.titleText), ExtractSlug(Or(x.href, "")), Or(x.src, ""),
              None, if rating != [] then Some(rating) else None, None, None, None)
  }

  /** The cards of a search result page. */
  function SearchCards(items: seq<SearchItem>): (r: seq<AnimeCard>)
    ensures |r| <= |items|
    ensures forall c :: c in r ==> c.title != [] && (c.rating.None? || c.rating.value != [])
    ensures forall x :: x in items && SearchKeeps(x) ==> SearchCard(x) in r
    ensures forall c :: c in r ==> exists x :: x in items && SearchKeeps(x) && c == SearchCard(x)
  {
    FilterMap(items, SearchKeeps, SearchCard)
  }

  /** Search hits are judged one at a time and kept in document order. */
  lemma SearchCardsCompositional(xs: seq<SearchItem>, ys: seq<SearchItem>, x: SearchItem)
    ensures SearchCards(xs + ys) == SearchCards(xs) + SearchCards(ys)
    ensures SearchCards([x]) == if Trim(x.titleText) != [] && Contains(Or(x.href, ""), "/anime/")
                                then [SearchCard(x)] else []
  {
    FilterMapAppend(xs, ys, SearchKeeps, SearchCard);
    FilterMapSingle(x, SearchKeeps, SearchCard);
  }

  /** A hit whose `.set` texts mention no rating yields a card without one. */
  lemma SearchCardWithoutRating(x: SearchItem)
    requires forall i :: 0 <= i < |x.setTexts| ==> !Contains(x.setTexts[i], "Rating")
    ensures SearchCard(x).rating.None?
  {
  }

  /** The ongoing listing response: cards plus the pagination of the same page. */
  function OngoingPage(items: seq<ListingItem>, current: Option<int>, links: seq<PageLink>): (r: ListingPage)
    ensures forall x :: x in items && ListingKeeps(x) ==> ListedOngoingCard(x) in r.anime
    ensures forall c :: c in r.anime ==> exists x :: x in items && ListingKeeps(x) && c == ListedOngoingCard(x)
    ensures r.pagination.currentPage == OrElse(current, 1) && r.pagination.totalPages >= 1
    ensures forall l :: l in links && Numbered(l) && OrElse(l.number, 0) > 0 ==> l.number.value <= r.pagination.totalPages
    ensures r.pagination.itemsPerPage == DefaultItemsPerPage
    ensures r.pagination.totalItems == Some(r.pagination.totalPages * DefaultItemsPerPage)
    ensures Navigable(r.pagination)
  {
    ListingPage(OngoingCards(items), ParsePagination(current, links, DefaultItemsPerPage))
  }

  /** The complete listing response. */
  function CompletePage(items: seq<ListingItem>, current: Option<int>, links: seq<PageLink>): (r: ListingPage)
    ensures forall x :: x in items && ListingKeeps(x) ==> ListedCompleteCard(x) in r.anime
    ensures forall c :: c in r.anime ==> exists x :: x in items && ListingKeeps(x) && c == ListedCompleteCard(x)
    ensures r.pagination.currentPage == OrElse(current, 1) && r.pagination.totalPages >= 1
    ensures forall l :: l in links && Numbered(l) && OrElse(l.number, 0) > 0 ==> l.number.value <= r.pagination.totalPages
    ensures r.pagination.itemsPerPage == DefaultItemsPerPage
    ensures r.pagination.totalItems == Some(r.pagination.totalPages * DefaultItemsPerPage)
    ensures Navigable(r.pagination)
  {
    ListingPage(CompleteCards(items), ParsePagination(current, links, DefaultItemsPerPage))
  }

  /** The genre listing response. */
  function GenreListingPage(genre: string, items: seq<GenreItem>, current: Option<int>, links: seq<PageLink>): (r: GenrePage)
    ensures r.genre == genre
    ensures forall x :: x in items && GenreKeeps(x) ==> GenreCard(x) in r.anime
    ensures forall c :: c in r.anime ==> exists x :: x in items && GenreKeeps(x) && c == GenreCard(x)
    ensures r.pagination.currentPage == OrElse(current, 1) && r.pagination.totalPages >= 1
    ensures forall l :: l in links && Numbered(l) && OrElse(l.number, 0) > 0 ==> l.number.value <= r.pagination.totalPages
    ensures r.pagination.itemsPerPage == DefaultItemsPerPage
    ensures r.pagination.totalItems == Some(r.pagination.totalPages * DefaultItemsPerPage)
    ensures Navigable(r.pagination)
  {
    GenrePage(genre, GenreCards(items), ParsePagination(current, links, DefaultItemsPerPage))
  }

  /** A genre page with no item elements and no widget is an empty first page, not an error. */
  lemma EmptyGenrePage(genre: string)
    ensures GenreListingPage(genre, [], None, []) == GenrePage(genre, [], Pagination(1, 1, 50, Some(50), false, false, None, None))
  {
    NoWidget(DefaultItemsPerPage);
  }

  /**
   * Items are judged one at a time and kept in document order: the cards of two runs of items
   * are the cards of the first run followed by those of the second, and a single item yields
   * its card exactly when its title is non-blank and its link contains `/anime/`.
   */
  lemma OngoingCardsCompositional(xs: seq<ListingItem>, ys: seq<ListingItem>, x: ListingItem)
    ensures OngoingCards(xs + ys) == OngoingCards(xs) + OngoingCards(ys)
    ensures OngoingCards([x]) == if Trim(x.titleText) != [] && Contains(Or(x.href, ""), "/anime/")
                                 then [OngoingCard(x, Poster(x.src, x.dataSrc))] else []
  {
    FilterMapAppend(xs, ys, ListingKeeps, ListedOngoingCard);
    FilterMapSingle(x, ListingKeeps, ListedOngoingCard);
  }

  /** The slug of a card whose link is the anime page URL of `slug` is that slug. */
  lemma CardSlugFromPageUrl(x: ListingItem, slug: string)
    requires slug != [] && '/' !in slug
    requires x.href == Some(PageUrl(AnimeMarker, slug))
    ensures OngoingCard(x, "").slug == slug && CompleteCard(x, "").slug == slug
  {
    DetailUrlRoundTrip(slug);
  }

  /**
   * The guard checks the link, not the slug: a link that ends right after `/anime/` passes it
   * and yields a card whose slug is empty.
   */
  lemma CardWithEmptySlug(x: ListingItem)
    requires Trim(x.titleText) != [] && x.href == Some(BaseUrl + AnimeMarker)
    ensures OngoingCards([x]) == [OngoingCard(x, Poster(x.src, x.dataSrc))]
    ensures OngoingCards([x])[0].slug == ""
  {
    EmptySlugLinkKept(x);
    FilterMapSingle(x, ListingKeeps, ListedOngoingCard);
    EmptySlugOf(x);
  }

  /** The link `…/anime/` passes the listing guard of any item with a non-blank title. */
  lemma EmptySlugLinkKept(x: ListingItem)
    requires Trim(x.titleText) != [] && x.href == Some(BaseUrl + AnimeMarker)
    ensures ListingKeeps(x)
  {
    MarkerWithoutSegment();
  }

  /** The card built from the link `…/anime/` has an empty slug. */
  lemma EmptySlugOf(x: ListingItem)
    requires x.href == Some(BaseUrl + AnimeMarker)
    ensures OngoingCard(x, Poster(x.src, x.dataSrc)).slug == ""
  {
    MarkerWithoutSegment();
  }

  /** The listing URL: page 1 has no `/page/N/` segment, every other page has one (`NaN` when unparsable). */
  function ListingUrl(section: string, page: Option<int>): (url: string)
    ensures page == Some(1) ==> url == BaseUrl + "/" + section + "/"
    ensures page != Some(1) ==> url == BaseUrl + "/" + section + "/page/" + PageText(page) + "/"
  {
    if page == Some(1) then BaseUrl + "/" + section + "/"
    else BaseUrl + "/" + section + "/page/" + PageText(page) + "/"
  }

  /** How a page number prints inside a template literal. */
  function PageText(page: Option<int>): (r: string)
    ensures r != []
    ensures r[0] != '/'
  {
    if page.Some? then IntToString(page.value) else "NaN"
  }

  /** The first character of a rendered page tells `NaN`, negative and non-negative pages apart. */
  lemma PageTextFirst(p: Option<int>)
    ensures PageText(p)[0] == 'N' <==> p.None?
    ensures PageText(p)[0] == '-' <==> p.Some? && p.value < 0
  {
    if p.Some? && p.value >= 0 {
      assert IsDigit(NatToString(p.value)[0]);
    }
  }

  /** Distinct page numbers render differently. */
  lemma PageTextInjective(p: Option<int>, q: Option<int>)
    requires PageText(p) == PageText(q)
    ensures p == q
  {
    PageTextFirst(p);
    PageTextFirst(q);
    if p.Some? && p.value < 0 {
      NatToStringInjective(-p.value, -q.value);
    } else if p.Some? {
      NatToStringInjective(p.value, q.value);
    }
  }

  /** Every page of a listing is fetched from its own URL. */
  lemma ListingUrlsDistinct(section: string, p: Option<int>, q: Option<int>)
    requires p != q
    ensures ListingUrl(section, p) != ListingUrl(section, q)
  {
    if p != Some(1) && q != Some(1) {
      if ListingUrl(section, p) == ListingUrl(section, q) {
        InfixCancel(BaseUrl + "/" + section + "/page/", PageText(p), PageText(q), "/");
        PageTextInjective(p, q);
      }
    } else {
      var other := if p == Some(1) then q else p;
      assert |ListingUrl(section, other)| > |ListingUrl(section, Some(1))|;
    }
  }
}

=== FILE: catalog.dfy ===
/**
 * The catalogue pages: the genre list, the A–Z anime list (a map from index letter to the
 * titles filed under it) and the weekly release schedule.
 */
module Catalog {
  import opened Wrappers
  import opened Text
  import opened Slugs
  import opened Lists

  /** A link element: its untrimmed text and its `href` attribute, if present. */
  datatype Link = Link(text: string, href: Option<string>)

  /** `Genre`: a display name and the slug of its `/genres/` page. */
  datatype Genre = Genre(name: string, slug: string)

  /** An entry of the A–Z list or of a schedule day. */
  datatype TitleEntry = TitleEntry(title: string, slug: string)

  /** A link is listed when its trimmed text and its `href` are both non-empty. */
  predicate Listed(l: Link) {
    Trim(l.text) != [] && Or(l.href, "") != []
  }

  function GenreOf(l: Link): Genre {
    Genre(Trim(l.text), ExtractGenreSlug(Or(l.href, "")))
  }

  /** The genre list, one genre per listed link of `.genres li a`, in document order. */
  function Genres(links: seq<Link>): (r: seq<Genre>)
    ensures |r| <= |links|
    ensures forall g :: g in r ==> g.name != [] && '/' !in g.slug
    ensures forall l :: l in links && Listed(l) ==> GenreOf(l) in r
    ensures forall g :: g in r ==> exists l :: l in links && Listed(l) && g == GenreOf(l)
  {
    FilterMap(links, Listed, GenreOf)
  }

  /**
   * Genre links are judged one at a time and kept in document order; a single link is listed
   * exactly when its trimmed text and its `href` are both non-empty.
   */
  lemma GenresCompositional(xs: seq<Link>, ys: seq<Link>, l: Link)
    ensures Genres(xs + ys) == Genres(xs) + Genres(ys)
    ensures Genres([l]) == if Trim(l.text) != [] && Or(l.href, "") != []
                           then [Genre(Trim(l.text), ExtractGenreSlug(Or(l.href, "")))] else []
  {
    FilterMapAppend(xs, ys, Listed, GenreOf);
    FilterMapSingle(l, Listed, GenreOf);
  }

  /** A genre link to the genre page of `slug` is listed under that slug. */
  lemma GenreLinkRoundTrip(name: string, slug: string)
    requires Trim(name) != [] && slug != [] && '/' !in slug
    ensures Genres([Link(name, Some(PageUrl(GenresMarker, slug)))]) == [Genre(Trim(name), slug)]
  {
    var url := PageUrl(GenresMarker, slug);
    var l := Link(name, Some(url));
    assert url[|url| - 1] == '/';
    assert Listed(l);
    GenreUrlRoundTrip(slug);
    assert GenreOf(l) == Genre(Trim(name), slug);
    FilterMapSingle(l, Listed, GenreOf);
  }

  function EntryOf(l: Link): TitleEntry {
    TitleEntry(Trim(l.text), ExtractSlug(Or(l.href, "")))
  }

  /** The entries of one block: the listed links, in document order. */
  function Entries(links: seq<Link>): (r: seq<TitleEntry>)
    ensures |r| <= |links|
    ensures forall e :: e in r ==> e.title != []
    ensures forall l :: l in links && Listed(l) ==> EntryOf(l) in r
    ensures forall e :: e in r ==> exists l :: l in links && Listed(l) && e == EntryOf(l)
  {
    FilterMap(links, Listed, EntryOf)
  }

  /**
   * Title links are judged one at a time and kept in document order; a single link is kept
   * exactly when its trimmed text and its `href` are both non-empty.
   */
  lemma EntriesCompositional(xs: seq<Link>, ys: seq<Link>, l: Link)
    ensures Entries(xs + ys) == Entries(xs) + Entries(ys)
    ensures Entries([l]) == if Trim(l.text) != [] && Or(l.href, "") != []
                            then [TitleEntry(Trim(l.text), ExtractSlug(Or(l.href, "")))] else []
  {
    FilterMapAppend(xs, ys, Listed, EntryOf);
    FilterMapSingle(l, Listed, EntryOf);
  }

  /**
   * The guard asks only for a name and a non-empty `href`, not for a link to a genre or anime
   * page: a link such as `#` is listed, with the empty slug.
   */
  lemma EmptySlugsListed(text: string)
    requires Trim(text) != []
    ensures Genres([Link(text, Some("#"))]) == [Genre(Trim(text), "")]
    ensures Entries([Link(text, Some("#"))]) == [TitleEntry(Trim(text), "")]
  {
    var l := Link(text, Some("#"));
    assert Or(l.href, "") == "#";
    assert ExtractGenreSlug("#") == "" by {
      forall j: nat | j < 1
        ensures !SomeMarkerAt("#", GenreMarkers, j)
      {
      }
    }
    assert ExtractSlug("#") == "" by {
      forall j: nat | j < 1
        ensures !SomeMarkerAt("#", DetailMarkers, j)
      {
      }
    }
    FilterMapSingle(l, Listed, GenreOf);
    FilterMapSingle(l, Listed, EntryOf);
  }

  /** One `.bariskelom` block of the A–Z page: the text of its letter link and its title links. */
  datatype LetterBlock = LetterBlock(letterText: string, links: seq<Link>)

  /** The index key of a block: its letter trimmed and upper-cased, `#` when blank. */
  function LetterOf(b: LetterBlock): (k: string)
    ensures k != []
    ensures Trim(b.letterText) != [] ==> k == ToUpper(Trim(b.letterText))
    ensures Trim(b.letterText) == [] ==> k == "#"
  {
    var l := ToUpper(Trim(b.letterText));
    if l != [] then l else "#"
  }

  /**
   * The A–Z map, built block by block: each block makes sure its key exists (even when none of
   * its links is listed) and appends its entries to that key's list.
   */
  function AnimeList(blocks: seq<LetterBlock>): (m: map<string, seq<TitleEntry>>)
    ensures forall k :: k in m ==> k != []
  {
    if |blocks| == 0 then map[]
    else
      var m := AnimeList(blocks[..|blocks| - 1]);
      var b := blocks[|blocks| - 1];
      var k := LetterOf(b);
      m[k := (if k in m then m[k] else []) + Entries(b.links)]
  }

  /** Reference definition: the entries of every block filed under `key`, in document order. */
  function Bucket(blocks: seq<LetterBlock>, key: string): seq<TitleEntry> {
    if |blocks| == 0 then []
    else
      var b := blocks[|blocks| - 1];
      Bucket(blocks[..|blocks| - 1], key) + (if LetterOf(b) == key then Entries(b.links) else [])
  }

  /** Some block of `blocks` is filed under `key`. */
  predicate HasLetter(blocks: seq<LetterBlock>, key: string) {
    exists i :: 0 <= i < |blocks| && LetterOf(blocks[i]) == key
  }

  /**
   * The map's keys are exactly the letters of the blocks, and each key holds the entries of all
   * blocks filed under it, in document order — blocks that repeat a letter merge.
   */
  lemma {:induction false} AnimeListBuckets(blocks: seq<LetterBlock>, key: string)
    ensures key in AnimeList(blocks) <==> HasLetter(blocks, key)
    ensures key in AnimeList(blocks) ==> AnimeList(blocks)[key] == Bucket(blocks, key)
  {
    if |blocks| > 0 {
      var init := blocks[..|blocks| - 1];
      var last := blocks[|blocks| - 1];
      var m0 := AnimeList(init);
      AnimeListBuckets(init, key);
      HasLetterSnoc(blocks, key);
      assert AnimeList(blocks) == m0[LetterOf(last) := (if LetterOf(last) in m0 then m0[LetterOf(last)] else []) + Entries(last.links)];
      if key !in m0 {
        BucketEmpty(init, key);
      }
    }
  }

  /** A letter occurs in a run of blocks when it occurs before the last one or is the last one's. */
  lemma HasLetterSnoc(blocks: seq<LetterBlock>, key: string)
    requires |blocks| > 0
    ensures HasLetter(blocks, key) <==> HasLetter(blocks[..|blocks| - 1], key) || LetterOf(blocks[|blocks| - 1]) == key
  {
    var init := blocks[..|blocks| - 1];
    if HasLetter(blocks, key) && LetterOf(blocks[|blocks| - 1]) != key {
      var i :| 0 <= i < |blocks| && LetterOf(blocks[i]) == key;
      assert i != |blocks| - 1;
      assert init[i] == blocks[i];
    }
    if HasLetter(init, key) {
      var i :| 0 <= i < |init| && LetterOf(init[i]) == key;
      assert blocks[i] == init[i];
    }
  }

  /** A key no block carries has an empty bucket. */
  lemma {:induction false} BucketEmpty(blocks: seq<LetterBlock>, key: string)
    requires !HasLetter(blocks, key)
    ensures Bucket(blocks, key) == []
  {
    if |blocks| > 0 {
      HasLetterSnoc(blocks, key);
      BucketEmpty(blocks[..|blocks| - 1], key);
    }
  }

  /** A letter block with no listed link still creates its key, with an empty list. */
  lemma EmptyLetterBlock(letterText: string)
    ensures AnimeList([LetterBlock(letterText, [])]) == map[LetterOf(LetterBlock(letterText, [])) := []]
  {
    assert [LetterBlock(letterText, [])][..0] == [];
  }

  /** One `.kglist321` block of the schedule page: its `h2` text and its title links. */
  datatype DayBlock = DayBlock(heading: string, links: seq<Link>)

  /** `ScheduleDay`: a day label and the titles released that day. */
  datatype ScheduleDay = ScheduleDay(day: string, anime: seq<TitleEntry>)

  /** The fallback labels, Monday first, used when a block has no heading. */
  const Days: seq<string> := ["Senin", "Selasa", "Rabu", "Kamis", "Jumat", "Sabtu", "Minggu"]

  /** The label of the block at `index` (counting every block, kept or not). */
  function DayLabel(heading: string, index: nat): (r: string)
    ensures r != []
    ensures Trim(heading) != [] ==> r == Trim(heading)
    ensures Trim(heading) == [] && index < 7 ==> r == Days[index]
    ensures Trim(heading) == [] && index >= 7 ==> r == "Day " + NatToString(index + 1)
  {
    if Trim(heading) != [] then Trim(heading)
    else if index < |Days| then Days[index]
    else "Day " + NatToString(index + 1)
  }

  /** Blocks without a heading get pairwise distinct labels. */
  lemma DefaultLabelsDistinct(i: nat, j: nat)
    requires i != j
    ensures DayLabel("", i) != DayLabel("", j)
  {
    assert Trim("") == [];
    if i >= |Days| && j >= |Days| {
      if DayLabel("", i) == DayLabel("", j) {
        PrefixCancel("Day ", NatToString(i + 1), NatToString(j + 1));
        NatToStringInjective(i + 1, j + 1);
      }
    } else if i >= |Days| || j >= |Days| {
      var k := if i >= |Days| then i else j;
      assert DayLabel("", k)[0] == 'D';
    }
  }

  /** The schedule of the blocks `blocks`, the first of which sits at position `start`; days with no listed title are dropped. */
  function ScheduleFrom(blocks: seq<DayBlock>, start: nat): seq<ScheduleDay> {
    IndexedFlatMap(blocks, DayOf, start)
  }

  /** The day a block at position `index` contributes: none when it lists no title. */
  function DayOf(b: DayBlock, index: nat): (r: seq<ScheduleDay>)
    ensures |r| <= 1
  {
    var entries := Entries(b.links);
    if |entries| > 0 then [ScheduleDay(DayLabel(b.heading, index), entries)] else []
  }

  /** The release schedule, one day per block that lists at least one title. */
  function Schedule(blocks: seq<DayBlock>): (r: seq<ScheduleDay>)
    ensures |r| <= |blocks|
    ensures forall i :: 0 <= i < |r| ==> r[i].day != [] && r[i].anime != []
  {
    ScheduleShape(blocks, 0);
    ScheduleFrom(blocks, 0)
  }

  /** At most one day per block, each with a label and at least one title. */
  lemma {:induction false} ScheduleShape(blocks: seq<DayBlock>, start: nat)
    ensures |ScheduleFrom(blocks, start)| <= |blocks|
    ensures forall i :: 0 <= i < |ScheduleFrom(blocks, start)| ==>
              ScheduleFrom(blocks, start)[i].day != [] && ScheduleFrom(blocks, start)[i].anime != []
    decreases |blocks|
  {
    if |blocks| > 0 {
      ScheduleShape(blocks[1..], start + 1);
      assert ScheduleFrom(blocks, start) == DayOf(blocks[0], start) + ScheduleFrom(blocks[1..], start + 1);
    }
  }

  /**
   * Blocks are judged one at a time, but a skipped block still counts towards the positions of
   * those after it: the schedule of two runs is the first run's followed by the second's, the
   * second numbered from where the first ended.
   */
  lemma ScheduleAppend(xs: seq<DayBlock>, ys: seq<DayBlock>, start: nat)
    ensures ScheduleFrom(xs + ys, start) == ScheduleFrom(xs, start) + ScheduleFrom(ys, start + |xs|)
  {
    IndexedFlatMapAppend(xs, ys, DayOf, start);
  }

  /** A headless block at position `index` with a listed title becomes the day `Days[index]` (or `Day n`). */
  lemma ScheduleSingle(b: DayBlock, index: nat)
    ensures ScheduleFrom([b], index) == if Entries(b.links) != [] then [ScheduleDay(DayLabel(b.heading, index), Entries(b.links))] else []
  {
    assert [b][1..] == [];
    assert ScheduleFrom([b], index) == DayOf(b, index) + IndexedFlatMap([], DayOf, index + 1);
  }
}

=== FILE: episodedetail.dfy ===
/**
 * The episode page: the anime it belongs to, the neighbouring episodes, the default stream,
 * the mirrors grouped by quality and the download sections.
 */
module EpisodeDetails {
  import opened Wrappers
  import opened Text
  import opened Slugs
  import opened Lists
  import opened Catalog
  import opened Titles
  import opened AnimeDetails

  /** A mirror link (`li a[data-content]`): its text and its `data-content` and `data-default` attributes. */
  datatype MirrorLink = MirrorLink(text: string, dataContent: Option<string>, dataDefault: Option<string>)

  /** One `.mirrorstream ul`: its `class` attribute and its mirror links. */
  datatype MirrorList = MirrorList(className: Option<string>, links: seq<MirrorLink>)

  /** A streaming server; `isDefault` is either `Some(true)` or absent, never `Some(false)`. */
  datatype Server = Server(provider: string, dataContent: string, isDefault: Option<bool>)

  /** `StreamingServer`: a quality label and its servers. */
  datatype QualityGroup = QualityGroup(quality: string, servers: seq<Server>)

  /** One `.download ul li`: its `strong` text and its links. */
  datatype DownloadItem = DownloadItem(strongText: string, links: seq<Link>)

  /** `DownloadLink`. */
  datatype DownloadLink = DownloadLink(provider: string, url: string)

  /** `DownloadSection`. */
  datatype DownloadSection = DownloadSection(resolution: string, links: seq<DownloadLink>)

  /** The anime an episode belongs to. */
  datatype AnimeRef = AnimeRef(title: string, slug: string)

  /** `EpisodeDetail`. */
  datatype EpisodeDetail = EpisodeDetail(
    title: string,
    anime: AnimeRef,
    prevEpisode: Option<string>,
    nextEpisode: Option<string>,
    streamingUrl: Option<string>,
    streamingServers: seq<QualityGroup>,
    downloadLinks: seq<DownloadSection>)

  /**
   * The extracted contents of an episode page: the `.posttl` text; the `href` of the first
   * `.flir` link to an anime page and of the `See All` link; the `Previous` and `Next` links;
   * the `src` of the embedded player; the mirror lists and download items in document order.
   */
  datatype EpisodePage = EpisodePage(
    postTitleText: string,
    animeHref: Option<string>,
    seeAllHref: Option<string>,
    prevHref: Option<string>,
    nextHref: Option<string>,
    iframeSrc: Option<string>,
    mirrors: seq<MirrorList>,
    downloads: seq<DownloadItem>)

  // ---------------------------------------------------------------------------------------
  // Quality labels: `m(\d+p)` on the list's class.

  /** `m`, one or more digits and `p` start at `p`. */
  predicate QualityAt(c: string, p: nat) {
    p < |c| && c[p] == 'm' && SkipDigits(c, p + 1) > p + 1 && SkipDigits(c, p + 1) < |c| && c[SkipDigits(c, p + 1)] == 'p'
  }

  /** A captured quality label: one or more digits followed by `p`. */
  predicate IsQualityLabel(q: string) {
    |q| >= 2 && q[|q| - 1] == 'p' && forall i :: 0 <= i < |q| - 1 ==> IsDigit(q[i])
  }

  const Unknown: string := "unknown"

  /** The quality of a mirror list: the digits-and-`p` after the first matching `m`, else `unknown`. */
  function QualityOf(className: string): (r: string)
    ensures r == Unknown || IsQualityLabel(r)
    ensures r == Unknown <==> forall p: nat :: p <= |className| ==> !QualityAt(className, p)
    ensures forall p: nat :: Leftmost(className, QualityAt, p) ==> r == className[p + 1..SkipDigits(className, p + 1) + 1]
  {
    match FirstFrom(className, QualityAt, 0)
    case None =>
      assert forall p: nat :: p <= |className| ==> !QualityAt(className, p);
      NotFoundNoLeftmost(className, QualityAt);
      Unknown
    case Some(p) =>
      FoundIsLeftmost(className, QualityAt, p);
      assert QualityAt(className, p);
      var r := className[p + 1..SkipDigits(className, p + 1) + 1];
      assert r != Unknown by { assert r[|r| - 1] == 'p'; }
      r
  }

  /** A class naming its quality as `m<n>p`, after text without `m`, has the label `<n>p`. */
  lemma QualityOfClass(pre: string, n: nat, post: string)
    requires 'm' !in pre
    ensures QualityOf(pre + "m" + NatToString(n) + "p" + post) == NatToString(n) + "p"
  {
    var digits := NatToString(n);
    var c := pre + "m" + digits + "p" + post;
    var at := |pre|;
    forall p: nat | p < at
      ensures !QualityAt(c, p)
    {
      assert c[p] == pre[p];
    }
    assert c[at] == 'm';
    assert c[at + 1..at + 1 + |digits|] == digits;
    SkipDigitsOver(c, at + 1, |digits|);
    assert QualityAt(c, at);
    assert FirstFrom(c, QualityAt, 0) == Some(at);
    assert c[at + 1..at + 2 + |digits|] == digits + "p";
  }

  // ---------------------------------------------------------------------------------------
  // Servers and their grouping by quality.

  /** A mirror link becomes a server when its provider text and its `data-content` are both non-empty. */
  predicate ServerKept(l: MirrorLink) {
    Trim(l.text) != [] && Or(l.dataContent, "") != []
  }

  function ServerOf(l: MirrorLink): Server {
    Server(Trim(l.text), Or(l.dataContent, ""), if l.dataDefault == Some("true") then Some(true) else None)
  }

  /** The servers of one list, in document order. */
  function Servers(links: seq<MirrorLink>): (r: seq<Server>)
    ensures |r| <= |links|
    ensures forall s :: s in r ==> s.provider != [] && s.dataContent != [] && s.isDefault != Some(false)
    ensures forall l :: l in links && ServerKept(l) ==> ServerOf(l) in r
    ensures forall s :: s in r ==> exists l :: l in links && ServerKept(l) && s == ServerOf(l)
  {
    FilterMap(links, ServerKept, ServerOf)
  }

  /**
   * Mirror links are judged one at a time and kept in document order; a single link becomes a
   * server exactly when its trimmed text and its `data-content` are both non-empty.
   */
  lemma ServersCompositional(xs: seq<MirrorLink>, ys: seq<MirrorLink>, l: MirrorLink)
    ensures Servers(xs + ys) == Servers(xs) + Servers(ys)
    ensures Servers([l]) == if Trim(l.text) != [] && Or(l.dataContent, "") != [] then [ServerOf(l)] else []
  {
    FilterMapAppend(xs, ys, ServerKept, ServerOf);
    FilterMapSingle(l, ServerKept, ServerOf);
  }

  /** A link is marked default exactly when its `data-default` is the string `true`. */
  lemma DefaultMarking(l: MirrorLink)
    requires ServerKept(l)
    ensures Servers([l]) == [ServerOf(l)]
    ensures Servers([l])[0].isDefault == Some(true) <==> l.dataDefault == Some("true")
    ensures Servers([l])[0].isDefault.None? <==> l.dataDefault != Some("true")
  {
    FilterMapSingle(l, ServerKept, ServerOf);
  }

  function ListQuality(l: MirrorList): string {
    QualityOf(Or(l.className, ""))
  }

  /** The index of the group labelled `q`. */
  function FindGroup(gs: seq<QualityGroup>, q: string): (r: Option<nat>)
    ensures r.Some? ==> r.value < |gs| && gs[r.value].quality == q
    ensures r.None? ==> forall i :: 0 <= i < |gs| ==> gs[i].quality != q
  {
    if |gs| == 0 then None
    else if gs[|gs| - 1].quality == q then Some(|gs| - 1)
    else FindGroup(gs[..|gs| - 1], q)
  }

  /** Adds a list's servers to the group of its quality, creating that group (even empty) at the end if it is new. */
  function AddTo(gs: seq<QualityGroup>, q: string, servers: seq<Server>): (r: seq<QualityGroup>)
    ensures |gs| <= |r|
    ensures forall i :: 0 <= i < |r| ==> r[i].quality == q || (i < |gs| && r[i].quality == gs[i].quality)
    ensures DistinctQualities(gs) ==> DistinctQualities(r)
  {
    match FindGroup(gs, q)
    case None => gs + [QualityGroup(q, servers)]
    case Some(i) => gs[i := QualityGroup(q, gs[i].servers + servers)]
  }

  /** The quality map, list by list. */
  function Grouped(lists: seq<MirrorList>): (gs: seq<QualityGroup>)
    ensures DistinctQualities(gs)
    ensures forall g :: g in gs ==> exists k :: 0 <= k < |lists| && ListQuality(lists[k]) == g.quality
  {
    if |lists| == 0 then []
    else
      var init := lists[..|lists| - 1];
      var l := lists[|lists| - 1];
      var r := AddTo(Grouped(init), ListQuality(l), Servers(l.links));
      assert forall g :: g in r ==> exists k :: 0 <= k < |lists| && ListQuality(lists[k]) == g.quality by {
        forall g | g in r
          ensures exists k :: 0 <= k < |lists| && ListQuality(lists[k]) == g.quality
        {
          var i :| 0 <= i < |r| && r[i] == g;
          if g.quality != ListQuality(l) {
            assert Grouped(init)[i] in Grouped(init);
            var k :| 0 <= k < |init| && ListQuality(init[k]) == Grouped(init)[i].quality;
            assert init[k] == lists[k];
          }
        }
      }
      r
  }

  /** Reference definition: the qualities of the lists, each once, in order of first appearance. */
  function Qualities(lists: seq<MirrorList>): (qs: seq<string>)
    ensures forall i, j :: 0 <= i < j < |qs| ==> qs[i] != qs[j]
  {
    if |lists| == 0 then []
    else
      var qs := Qualities(lists[..|lists| - 1]);
      var q := ListQuality(lists[|lists| - 1]);
      if q in qs then qs else qs + [q]
  }

  /** Reference definition: the servers of every list of quality `q`, in document order. */
  function ServersFor(lists: seq<MirrorList>, q: string): seq<Server> {
    if |lists| == 0 then []
    else
      var l := lists[|lists| - 1];
      ServersFor(lists[..|lists| - 1], q) + (if ListQuality(l) == q then Servers(l.links) else [])
  }

  /** A quality appears among the qualities exactly when some list has it. */
  lemma {:induction false} QualitiesListed(lists: seq<MirrorList>, q: string)
    ensures q in Qualities(lists) <==> exists k :: 0 <= k < |lists| && ListQuality(lists[k]) == q
  {
    if q in Qualities(lists) {
      var k := QualityWitness(lists, q);
    } else {
      forall k | 0 <= k < |lists|
        ensures ListQuality(lists[k]) != q
      {
        QualityListed(lists, k);
      }
    }
  }

  /** Each quality listed comes from some list. */
  lemma {:induction false} QualityWitness(lists: seq<MirrorList>, q: string) returns (k: nat)
    requires q in Qualities(lists)
    ensures k < |lists| && ListQuality(lists[k]) == q
  {
    var init := lists[..|lists| - 1];
    var qs := Qualities(init);
    if q in qs {
      k := QualityWitness(init, q);
      assert lists[k] == init[k];
    } else {
      k := |lists| - 1;
    }
  }

  /** Each list's quality is listed. */
  lemma {:induction false} QualityListed(lists: seq<MirrorList>, k: nat)
    requires k < |lists|
    ensures ListQuality(lists[k]) in Qualities(lists)
  {
    var init := lists[..|lists| - 1];
    var qs := Qualities(init);
    var lq := ListQuality(lists[|lists| - 1]);
    assert Qualities(lists) == if lq in qs then qs else qs + [lq];
    if k < |init| {
      QualityListed(init, k);
      assert lists[k] == init[k];
    }
  }

  /** A quality no list has collects no servers. */
  lemma {:induction false} ServersForAbsent(lists: seq<MirrorList>, q: string)
    requires q !in Qualities(lists)
    ensures ServersFor(lists, q) == []
  {
    if |lists| > 0 {
      ServersForAbsent(lists[..|lists| - 1], q);
    }
  }

  /**
   * The quality map has one group per distinct quality, in order of first appearance, each
   * holding the servers of every list of that quality in document order (lists sharing a
   * quality merge).
   */
  lemma {:induction false} GroupedSpec(lists: seq<MirrorList>)
    ensures |Grouped(lists)| == |Qualities(lists)|
    ensures forall i :: 0 <= i < |Grouped(lists)| ==>
              Grouped(lists)[i] == QualityGroup(Qualities(lists)[i], ServersFor(lists, Qualities(lists)[i]))
  {
    if |lists| > 0 {
      var init := lists[..|lists| - 1];
      GroupedSpec(init);
      if ListQuality(lists[|lists| - 1]) in Qualities(init) {
        GroupedMerge(lists);
      } else {
        GroupedAppend(lists);
      }
    }
  }

  /** The groups of `lists` are its qualities, each with the servers of that quality. */
  predicate GroupsFollow(lists: seq<MirrorList>) {
    && |Grouped(lists)| == |Qualities(lists)|
    && forall i :: 0 <= i < |Grouped(lists)| ==>
         Grouped(lists)[i] == QualityGroup(Qualities(lists)[i], ServersFor(lists, Qualities(lists)[i]))
  }

  /** A last list of a quality already seen merges its servers into that group. */
  lemma GroupedMerge(lists: seq<MirrorList>)
    requires |lists| > 0 && GroupsFollow(lists[..|lists| - 1])
    requires ListQuality(lists[|lists| - 1]) in Qualities(lists[..|lists| - 1])
    ensures GroupsFollow(lists)
  {
    var init := lists[..|lists| - 1];
    var l := lists[|lists| - 1];
    var q := ListQuality(l);
    var ss := Servers(l.links);
    var gs, qs := Grouped(init), Qualities(init);
    assert Grouped(lists) == AddTo(gs, q, ss);
    var k := FindGroup(gs, q).value;
    assert qs[k] == q;
    assert Grouped(lists) == gs[k := QualityGroup(q, gs[k].servers + ss)];
    forall i | 0 <= i < |Grouped(lists)|
      ensures Grouped(lists)[i] == QualityGroup(Qualities(lists)[i], ServersFor(lists, Qualities(lists)[i]))
    {
      assert ServersFor(lists, qs[i]) == ServersFor(init, qs[i]) + (if q == qs[i] then ss else []);
    }
  }

  /** A last list of a new quality opens a group of its own at the end. */
  lemma GroupedAppend(lists: seq<MirrorList>)
    requires |lists| > 0 && GroupsFollow(lists[..|lists| - 1])
    requires ListQuality(lists[|lists| - 1]) !in Qualities(lists[..|lists| - 1])
    ensures GroupsFollow(lists)
  {
    var init := lists[..|lists| - 1];
    var l := lists[|lists| - 1];
    var q := ListQuality(l);
    var ss := Servers(l.links);
    var gs, qs := Grouped(init), Qualities(init);
    assert Grouped(lists) == AddTo(gs, q, ss);
    ServersForAbsent(init, q);
    assert FindGroup(gs, q).None?;
    forall i | 0 <= i < |Grouped(lists)|
      ensures Grouped(lists)[i] == QualityGroup(Qualities(lists)[i], ServersFor(lists, Qualities(lists)[i]))
    {
      if i < |gs| {
        assert ServersFor(lists, qs[i]) == ServersFor(init, qs[i]) + [];
      } else {
        assert ServersFor(lists, q) == [] + ss;
      }
    }
  }

  predicate HasServers(g: QualityGroup) {
    |g.servers| > 0
  }

  function Same(g: QualityGroup): QualityGroup {
    g
  }

  /** `streamingServers`: the quality map's groups that hold at least one server. */
  function StreamingServers(lists: seq<MirrorList>): (r: seq<QualityGroup>)
    ensures |r| <= |Grouped(lists)|
    ensures forall g :: g in r ==> g in Grouped(lists) && g.servers != []
    ensures forall g :: g in Grouped(lists) && g.servers != [] ==> g in r
  {
    FilterMap(Grouped(lists), HasServers, Same)
  }

  /** Whether a quality has at least one server among the lists. */
  function Served(lists: seq<MirrorList>): string -> bool {
    q => ServersFor(lists, q) != []
  }

  /** The group of a quality: the servers of every list of that quality. */
  function GroupOf(lists: seq<MirrorList>): string -> QualityGroup {
    q => QualityGroup(q, ServersFor(lists, q))
  }

  /**
   * The streaming servers are the qualities in order of first appearance, those without a
   * server dropped, each with all of its servers; so every quality with a server appears
   * exactly once and no group is empty.
   */
  lemma StreamingServersSpec(lists: seq<MirrorList>, q: string)
    ensures StreamingServers(lists) == FilterMap(Qualities(lists), Served(lists), GroupOf(lists))
    ensures forall g :: g in StreamingServers(lists) ==> g.servers != [] && g.servers == ServersFor(lists, g.quality)
    ensures ServersFor(lists, q) != [] ==> QualityGroup(q, ServersFor(lists, q)) in StreamingServers(lists)
    ensures DistinctQualities(StreamingServers(lists))
  {
    GroupedSpec(lists);
    var gs, qs := Grouped(lists), Qualities(lists);
    FilterMapPointwise(gs, qs, HasServers, Same, Served(lists), GroupOf(lists));
    if ServersFor(lists, q) != [] {
      if q !in qs {
        ServersForAbsent(lists, q);
      }
    }
    ServedDistinct(lists, qs);
  }

  /** No two groups share a quality. */
  predicate DistinctQualities(gs: seq<QualityGroup>) {
    forall i, j :: 0 <= i < j < |gs| ==> gs[i].quality != gs[j].quality
  }

  /** A group put in front of groups of other qualities keeps the qualities distinct. */
  lemma DistinctCons(g: QualityGroup, rest: seq<QualityGroup>)
    requires DistinctQualities(rest)
    requires forall h :: h in rest ==> h.quality != g.quality
    ensures DistinctQualities([g] + rest)
  {
    forall i, j | 0 <= i < j < |[g] + rest|
      ensures ([g] + rest)[i].quality != ([g] + rest)[j].quality
    {
      assert ([g] + rest)[j] == rest[j - 1] && rest[j - 1] in rest;
      if i > 0 {
        assert ([g] + rest)[i] == rest[i - 1];
      }
    }
  }

  /** Walking distinct qualities gives groups with distinct qualities. */
  lemma {:induction false} ServedDistinct(lists: seq<MirrorList>, qs: seq<string>)
    requires forall i, j :: 0 <= i < j < |qs| ==> qs[i] != qs[j]
    ensures DistinctQualities(FilterMap(qs, Served(lists), GroupOf(lists)))
  {
    if |qs| > 0 {
      var rest := FilterMap(qs[1..], Served(lists), GroupOf(lists));
      ServedDistinct(lists, qs[1..]);
      forall g | g in rest
        ensures g.quality != qs[0]
      {
        var x :| x in qs[1..] && Served(lists)(x) && g == GroupOf(lists)(x);
      }
      var r := FilterMap(qs, Served(lists), GroupOf(lists));
      if Served(lists)(qs[0]) {
        assert r == [GroupOf(lists)(qs[0])] + rest;
        DistinctCons(GroupOf(lists)(qs[0]), rest);
      } else {
        assert r == rest;
      }
    }
  }

  // ---------------------------------------------------------------------------------------
  // Download sections.

  function DownloadLinkOf(l: Link): DownloadLink {
    DownloadLink(Trim(l.text), Or(l.href, ""))
  }

  function SectionOf(x: DownloadItem): DownloadSection {
    DownloadSection(Trim(x.strongText), FilterMap(x.links, Listed, DownloadLinkOf))
  }

  /** A section is kept when its resolution is non-blank and at least one link has both a provider and a URL. */
  predicate SectionKept(x: DownloadItem) {
    Trim(x.strongText) != [] && |FilterMap(x.links, Listed, DownloadLinkOf)| > 0
  }

  /** The download sections, one per kept item, in document order. */
  function Downloads(items: seq<DownloadItem>): (r: seq<DownloadSection>)
    ensures |r| <= |items|
    ensures forall d :: d in r ==> d.resolution != [] && d.links != []
    ensures forall d, l :: d in r && l in d.links ==> l.provider != [] && l.url != []
    ensures forall x :: x in items && SectionKept(x) ==> SectionOf(x) in r
    ensures forall d :: d in r ==> exists x :: x in items && SectionKept(x) && d == SectionOf(x)
  {
    FilterMap(items, SectionKept, SectionOf)
  }

  /** A section is kept exactly when its resolution is non-blank and some link has both a provider text and a URL. */
  lemma SectionKeptIff(x: DownloadItem)
    ensures SectionKept(x) <==> Trim(x.strongText) != [] && exists l :: l in x.links && Listed(l)
  {
    var r := FilterMap(x.links, Listed, DownloadLinkOf);
    if |r| > 0 {
      assert r[0] in r;
    }
  }

  /**
   * Download items are judged one at a time and kept in document order; a single item becomes
   * a section exactly when it is kept.
   */
  lemma DownloadsCompositional(xs: seq<DownloadItem>, ys: seq<DownloadItem>, x: DownloadItem)
    ensures Downloads(xs + ys) == Downloads(xs) + Downloads(ys)
    ensures Downloads([x]) == if SectionKept(x) then [SectionOf(x)] else []
  {
    FilterMapAppend(xs, ys, SectionKept, SectionOf);
    FilterMapSingle(x, SectionKept, SectionOf);
  }

  /** Sections are never merged: two kept items give two sections even when their resolutions agree. */
  lemma DownloadsNotMerged(a: DownloadItem, b: DownloadItem)
    requires SectionKept(a) && SectionKept(b)
    ensures Downloads([a, b]) == [SectionOf(a), SectionOf(b)]
  {
    FilterMapPair(a, b, SectionKept, SectionOf);
  }

  // ---------------------------------------------------------------------------------------
  // The page.

  /** An optional slug: absent when the link is missing or empty, otherwise the slug of the link. */
  function SlugOfLink(href: Option<string>): (r: Option<string>)
    ensures r.None? <==> Or(href, "") == []
    ensures r.Some? ==> r.value == ExtractSlug(href.value)
  {
    if Or(href, "") != [] then Some(ExtractSlug(href.value)) else None
  }

  /**
   * The episode page parser: an empty title is reported as not found; otherwise the anime
   * reference comes from the first of the two anime links that is non-empty.
   */
  function ParseEpisodeDetail(slug: string, page: EpisodePage): (r: Result<EpisodeDetail, string>)
    ensures r.Failure? <==> Trim(page.postTitleText) == []
    ensures r.Failure? ==> r.error == NotFoundMessage("Episode", slug)
    ensures r.Success? ==> r.value.title == Trim(page.postTitleText) && r.value.anime.title == AnimeTitleOf(r.value.title)
    ensures r.Success? ==> (r.value.streamingUrl.None? <==> Or(page.iframeSrc, "") == [])
    ensures r.Success? ==> r.value.streamingServers == StreamingServers(page.mirrors) && r.value.downloadLinks == Downloads(page.downloads)
    ensures r.Success? && r.value.streamingUrl.Some? ==> r.value.streamingUrl == page.iframeSrc
    ensures r.Success? && Or(page.animeHref, "") != [] ==> r.value.anime.slug == ExtractSlug(page.animeHref.value)
    ensures r.Success? && Or(page.animeHref, "") == [] ==> r.value.anime.slug == ExtractSlug(Or(page.seeAllHref, ""))
    ensures r.Success? ==> r.value.prevEpisode == SlugOfLink(page.prevHref) && r.value.nextEpisode == SlugOfLink(page.nextHref)
  {
    var title := Trim(page.postTitleText);
    if title == [] then Failure(NotFoundMessage("Episode", slug))
    else
      var animeLink := Or(page.animeHref, Or(page.seeAllHref, ""));
      Success(EpisodeDetail(
        title,
        AnimeRef(AnimeTitleOf(title), ExtractSlug(animeLink)),
        SlugOfLink(page.prevHref),
        SlugOfLink(page.nextHref),
        if Or(page.iframeSrc, "") != [] then Some(page.iframeSrc.value) else None,
        StreamingServers(page.mirrors),
        Downloads(page.downloads)))
  }

  /**
   * An episode titled `<name> Episode <n>` is found, and belongs to the anime `<name>`, when
   * the name has no white space at either end and does not contain the word itself.
   */
  lemma EpisodeBelongsToNamedAnime(slug: string, page: EpisodePage, name: string, n: nat)
    requires name != [] && !IsSpace(name[0]) && NoTrailingSpace(name)
    requires forall i: nat :: !WordAt(name, EpisodeWord, i)
    requires page.postTitleText == name + " Episode " + NatToString(n)
    ensures ParseEpisodeDetail(slug, page).Success?
    ensures ParseEpisodeDetail(slug, page).value.anime.title == name
  {
    NamedEpisodeTitle(name, n);
  }
}

=== FILE: errors.dfy ===
/**
 * How a failure becomes the JSON error body in both builds: the resource named by the request
 * path, the status-to-code table, the exception filter of the NestJS build, the `onError`
 * handler of the Hono build, and the success envelope that wraps every other answer.
 */
module Errors {
  import opened Wrappers
  import opened Text
  import Paging

  const DefaultMessage := "Internal server error"
  const InternalError := "INTERNAL_ERROR"
  const GenericResource := "RESOURCE"

  /** The path markers, in the order they are tried, each with the resource it names. */
  const ResourceMarkers: seq<(string, string)> := [
    ("/anime/", "ANIME"),
    ("/episode/", "EPISODE"),
    ("/genres/", "GENRE"),
    ("/search", "SEARCH"),
    ("/resolve-streaming", "STREAMING")
  ]

  /** The resource of the first marker in `markers` that `path` contains. */
  function FirstListed(path: string, markers: seq<(string, string)>): (r: Option<string>)
    ensures r.None? <==> forall k :: 0 <= k < |markers| ==> !Contains(path, markers[k].0)
    ensures r.Some? ==> exists k :: 0 <= k < |markers| && Contains(path, markers[k].0) && r.value == markers[k].1
                                 && forall j :: 0 <= j < k ==> !Contains(path, markers[j].0)
  {
    if markers == [] then None
    else if Contains(path, markers[0].0) then Some(markers[0].1)
    else
      var rest := FirstListed(path, markers[1..]);
      assert forall k :: 1 <= k < |markers| ==> markers[k] == markers[1..][k - 1];
      rest
  }

  /**
   * The resource a failed request concerns: the first of `/anime/`, `/episode/`, `/genres/`,
   * `/search`, `/resolve-streaming` that the path contains, and `RESOURCE` when none does.
   */
  function ResourceOf(path: string): (r: string)
    ensures r == "ANIME" <==> Contains(path, "/anime/")
    ensures r == "EPISODE" <==> !Contains(path, "/anime/") && Contains(path, "/episode/")
    ensures r == "GENRE" <==> !Contains(path, "/anime/") && !Contains(path, "/episode/") && Contains(path, "/genres/")
    ensures r == "SEARCH" <==>
      !Contains(path, "/anime/") && !Contains(path, "/episode/") && !Contains(path, "/genres/")
      && Contains(path, "/search")
    ensures r == "STREAMING" <==>
      !Contains(path, "/anime/") && !Contains(path, "/episode/") && !Contains(path, "/genres/")
      && !Contains(path, "/search") && Contains(path, "/resolve-streaming")
    ensures r == GenericResource <==>
      !Contains(path, "/anime/") && !Contains(path, "/episode/") && !Contains(path, "/genres/")
      && !Contains(path, "/search") && !Contains(path, "/resolve-streaming")
  {
    if Contains(path, "/anime/") then "ANIME"
    else if Contains(path, "/episode/") then "EPISODE"
    else if Contains(path, "/genres/") then "GENRE"
    else if Contains(path, "/search") then "SEARCH"
    else if Contains(path, "/resolve-streaming") then "STREAMING"
    else GenericResource
  }

  /** The resource is the one of the first marker in the table that the path contains. */
  lemma {:induction false} ResourceOfFirstListed(path: string)
    ensures ResourceOf(path) == FirstListed(path, ResourceMarkers).GetOr(GenericResource)
  {
    var m0 := ResourceMarkers;
    var m1 := m0[1..];
    var m2 := m1[1..];
    var m3 := m2[1..];
    var m4 := m3[1..];
    assert m4[1..] == [];
    assert FirstListed(path, m4) == if Contains(path, "/resolve-streaming") then Some("STREAMING") else None;
    assert FirstListed(path, m3) == if Contains(path, "/search") then Some("SEARCH") else FirstListed(path, m4);
    assert FirstListed(path, m2) == if Contains(path, "/genres/") then Some("GENRE") else FirstListed(path, m3);
    assert FirstListed(path, m1) == if Contains(path, "/episode/") then Some("EPISODE") else FirstListed(path, m2);
    assert FirstListed(path, m0) == if Contains(path, "/anime/") then Some("ANIME") else FirstListed(path, m1);
  }

  /** The codes of the mapped statuses; the not-found code names the resource. */
  function StatusCodes(resource: string): map<int, string> {
    map[
      400 := "BAD_REQUEST",
      404 := resource + "_NOT_FOUND",
      502 := "UPSTREAM_ERROR",
      504 := "UPSTREAM_TIMEOUT",
      429 := "RATE_LIMIT_EXCEEDED",
      401 := "UNAUTHORIZED",
      403 := "FORBIDDEN"
    ]
  }

  /** The statuses the table names. */
  predicate Mapped(status: int) {
    status in {400, 401, 403, 404, 429, 502, 504}
  }

  /**
   * The error code for a status on a path. Every code in the table is non-empty, so the
   * `|| 'INTERNAL_ERROR'` fallback only ever applies to statuses outside the table.
   */
  function ErrorCode(status: int, path: string): (code: string)
    ensures code == InternalError <==> !Mapped(status)
    ensures status == 404 ==> code == ResourceOf(path) + "_NOT_FOUND"
    ensures code != []
  {
    var table := StatusCodes(ResourceOf(path));
    if status in table then table[status] else InternalError
  }

  /** The status a code stands for: the inverse of the table. */
  function StatusOfCode(code: string): (status: Option<int>)
    ensures status.Some? ==> Mapped(status.value)
  {
    if code == "BAD_REQUEST" then Some(400)
    else if code == "UPSTREAM_ERROR" then Some(502)
    else if code == "UPSTREAM_TIMEOUT" then Some(504)
    else if code == "RATE_LIMIT_EXCEEDED" then Some(429)
    else if code == "UNAUTHORIZED" then Some(401)
    else if code == "FORBIDDEN" then Some(403)
    else if EndsWithNotFound(code) then Some(404)
    else None
  }

  predicate EndsWithNotFound(code: string) {
    |code| >= 10 && code[|code| - 10..] == "_NOT_FOUND"
  }

  /** A code gives back the status it was made from; an unmapped status gives no status back. */
  lemma ErrorCodeRoundTrip(status: int, path: string)
    ensures Mapped(status) ==> StatusOfCode(ErrorCode(status, path)) == Some(status)
    ensures !Mapped(status) ==> StatusOfCode(ErrorCode(status, path)).None?
  {
    var code := ErrorCode(status, path);
    if status == 404 {
      var res := ResourceOf(path);
      assert code[|code| - 10..] == "_NOT_FOUND";
    } else if !Mapped(status) {
      assert code == InternalError;
      assert !EndsWithNotFound(code);
    }
  }

  /** The path matters to the code only for 404. */
  lemma PathMattersOnlyForNotFound(status: int, p: string, q: string)
    requires status != 404
    ensures ErrorCode(status, p) == ErrorCode(status, q)
  {
  }

  /** `t` is absent from `s` when its `k`th character never sits `k` after a copy of its first. */
  lemma AbsentByChar(s: string, t: string, k: nat)
    requires 0 < k < |t|
    requires forall j :: 0 <= j && j + |t| <= |s| && s[j] == t[0] ==> s[j + k] != t[k]
    ensures !Contains(s, t)
  {
    forall j: nat | j <= |s|
      ensures !OccursAt(s, t, j)
    {
      if j + |t| <= |s| {
        assert s[j..j + |t|][0] == s[j] && s[j..j + |t|][k] == s[j + k];
      }
    }
  }

  /**
   * A marker that starts with `/` and has another `/` at offset `k` does not occur in
   * `prefix + slug` when the slug has no `/` and no two slashes of the prefix are `k` apart.
   */
  lemma AbsentAfterPrefix(prefix: string, slug: string, t: string, k: nat)
    requires '/' !in slug
    requires 0 < k < |t| && t[0] == '/' && t[k] == '/'
    requires forall j :: 0 <= j && j + k < |prefix| && prefix[j] == '/' ==> prefix[j + k] != '/'
    ensures !Contains(prefix + slug, t)
  {
    var s := prefix + slug;
    forall j | 0 <= j && j + |t| <= |s| && s[j] == t[0]
      ensures s[j + k] != t[k]
    {
      if j + k < |prefix| {
        assert s[j] == prefix[j] && s[j + k] == prefix[j + k];
      } else {
        assert s[j + k] == slug[j + k - |prefix|];
      }
    }
    AbsentByChar(s, t, k);
  }

  /** The anime detail route reports ANIME_NOT_FOUND. */
  lemma AnimeNotFoundCode(slug: string)
    requires '/' !in slug
    ensures ErrorCode(404, "/api/anime/" + slug) == "ANIME_NOT_FOUND"
  {
    assert OccursAt("/api/anime/" + slug, "/anime/", 4);
    assert ResourceOf("/api/anime/" + slug) == "ANIME";
    assert "ANIME" + "_NOT_FOUND" == "ANIME_NOT_FOUND";
  }

  /** The episode detail route reports EPISODE_NOT_FOUND. */
  lemma EpisodeNotFoundCode(slug: string)
    requires '/' !in slug
    ensures ErrorCode(404, "/api/episode/" + slug) == "EPISODE_NOT_FOUND"
  {
    AbsentAfterPrefix("/api/episode/", slug, "/anime/", 6);
    assert OccursAt("/api/episode/" + slug, "/episode/", 4);
    assert ResourceOf("/api/episode/" + slug) == "EPISODE";
    assert "EPISODE" + "_NOT_FOUND" == "EPISODE_NOT_FOUND";
  }

  /** A genre listing reports GENRE_NOT_FOUND. */
  lemma GenreNotFoundCode(genre: string)
    requires '/' !in genre
    ensures ErrorCode(404, "/api/genres/" + genre) == "GENRE_NOT_FOUND"
  {
    AbsentAfterPrefix("/api/genres/", genre, "/anime/", 6);
    AbsentAfterPrefix("/api/genres/", genre, "/episode/", 8);
    assert OccursAt("/api/genres/" + genre, "/genres/", 4);
    assert ResourceOf("/api/genres/" + genre) == "GENRE";
    assert "GENRE" + "_NOT_FOUND" == "GENRE_NOT_FOUND";
  }

  /** The A–Z list and the genre index contain no marker, so they report the generic resource. */
  lemma IndexPathsAreGeneric()
    ensures ResourceOf("/api/anime-list") == GenericResource
    ensures ResourceOf("/api/genres") == GenericResource
  {
    var l := "/api/anime-list";
    AbsentByChar(l, "/anime/", 6);
    AbsentByChar(l, "/episode/", 1);
    AbsentByChar(l, "/genres/", 1);
    AbsentByChar(l, "/search", 1);
    AbsentByChar(l, "/resolve-streaming", 1);
    var g := "/api/genres";
    AbsentByChar(g, "/anime/", 2);
    AbsentByChar(g, "/episode/", 1);
    AbsentByChar(g, "/genres/", 7);
    AbsentByChar(g, "/search", 1);
    AbsentByChar(g, "/resolve-streaming", 1);
  }

  /** The body of every error answer. */
  datatype ErrorBody = ErrorBody(
    success: bool,
    statusCode: int,
    message: string,
    code: string,
    details: Option<string>,
    path: string)

  /** What an `HttpException` carries as its response: a plain string or an object. */
  datatype ExceptionResponse =
    | TextResponse(text: string)
    | ObjectResponse(message: Option<string>, error: Option<string>, details: Option<string>)

  /** What the NestJS filter can catch. */
  datatype Thrown =
    | HttpException(status: int, response: ExceptionResponse)
    | ErrorObject(message: string, stack: Option<string>)
    | OtherValue

  /** The message of an `HttpException`: the string, or the object's `message`, `error`, default. */
  function ExceptionMessage(response: ExceptionResponse): (m: string)
    ensures response.ObjectResponse? ==> m != []
    ensures response.TextResponse? ==> m == response.text
    ensures response.ObjectResponse? && response.message.Some? && response.message.value != [] ==> m == response.message.value
    ensures response.ObjectResponse? && Or(response.message, "") == [] && response.error.Some? && response.error.value != []
            ==> m == response.error.value
    ensures response.ObjectResponse? && Or(response.message, "") == [] && Or(response.error, "") == [] ==> m == DefaultMessage
  {
    match response
    case TextResponse(text) => text
    case ObjectResponse(message, error, _) => Or(message, Or(error, DefaultMessage))
  }

  /**
   * The NestJS exception filter. `url` is the request URL and `development` says whether
   * `NODE_ENV` is `development`; details are reported only then.
   */
  function NestErrorBody(thrown: Thrown, url: string, development: bool): (b: ErrorBody)
    ensures !b.success && b.path == url
    ensures b.details.Some? ==> development
    ensures thrown.HttpException? ==> b.statusCode == thrown.status && b.code == ErrorCode(thrown.status, url)
    ensures !thrown.HttpException? ==> b.statusCode == 500 && b.code == InternalError
    ensures thrown.ErrorObject? ==> b.message == thrown.message
    ensures thrown.OtherValue? ==> b.message == DefaultMessage && b.details.None?
    ensures thrown.HttpException? ==> b.message == ExceptionMessage(thrown.response)
    ensures thrown.HttpException? && development && thrown.response.ObjectResponse?
            ==> b.details == thrown.response.details
    ensures thrown.HttpException? && thrown.response.TextResponse? ==> b.details.None?
    ensures thrown.ErrorObject? && development ==> b.details == thrown.stack
  {
    match thrown
    case HttpException(status, response) =>
      var details := if response.ObjectResponse? then response.details else None;
      ErrorBody(false, status, ExceptionMessage(response), ErrorCode(status, url),
        if development then details else None, url)
    case ErrorObject(message, stack) =>
      ErrorBody(false, 500, message, InternalError, if development then stack else None, url)
    case OtherValue =>
      ErrorBody(false, 500, DefaultMessage, InternalError, None, url)
  }

  /** An `Error` as the Hono build throws it: a message and, sometimes, a `statusCode` property. */
  datatype JsError = JsError(message: string, statusCode: Option<int>)

  /** The Hono `onError` handler; a missing or zero `statusCode` means 500. */
  function HonoErrorBody(err: JsError, path: string): (b: ErrorBody)
    ensures !b.success && b.path == path && b.details.None?
    ensures err.statusCode.Some? && err.statusCode.value != 0 ==> b.statusCode == err.statusCode.value
    ensures err.statusCode.None? || err.statusCode.value == 0 ==> b.statusCode == 500
    ensures b.code == ErrorCode(b.statusCode, path)
    ensures b.message != [] && (err.message != [] ==> b.message == err.message)
    ensures err.message == [] ==> b.message == DefaultMessage
  {
    var status := Paging.OrElse(err.statusCode, 500);
    ErrorBody(false, status, Or(Some(err.message), DefaultMessage), ErrorCode(status, path), None, path)
  }

  /**
   * The two handlers agree: a Hono error carrying a status and a NestJS `HttpException` with
   * the same status and message give the same body, save for the details NestJS may add.
   */
  lemma HandlersAgree(status: int, message: string, path: string, development: bool)
    requires status != 0 && message != []
    ensures
      var h := HonoErrorBody(JsError(message, Some(status)), path);
      var n := NestErrorBody(HttpException(status, TextResponse(message)), path, development);
      h == n.(details := None)
  {
  }

  /**
   * Where they differ: a status carried on a plain `Error` is honoured by Hono and ignored by
   * the NestJS filter, which answers 500.
   */
  lemma PlainErrorStatus(message: string, slug: string)
    requires '/' !in slug && message != []
    ensures HonoErrorBody(JsError(message, Some(404)), "/api/anime/" + slug).code == "ANIME_NOT_FOUND"
    ensures NestErrorBody(ErrorObject(message, None), "/api/anime/" + slug, false).statusCode == 500
  {
    AnimeNotFoundCode(slug);
  }

  /** The body of every successful answer. */
  datatype Envelope<T> = Envelope(success: bool, statusCode: int, message: string, data: T, path: string)

  /** The success envelope: 200, "OK", the data unchanged and the request path. */
  function Succeed<T>(data: T, path: string): (e: Envelope<T>)
    ensures e.success && e.statusCode == 200 && e.message == "OK"
    ensures e.data == data && e.path == path
  {
    Envelope(true, 200, "OK", data, path)
  }
}

=== FILE: lists.dfy ===
/**
 * The common shape of the page parsers: walk the matched elements in document order and
 * push a record built from an element only when a guard holds (`.each(...)` with `if (...) push`).
 */
module Lists {
  import opened Wrappers

  /** The records built from the elements that pass the guard, in document order. */
  function FilterMap<T, U>(xs: seq<T>, keep: T -> bool, build: T -> U): (r: seq<U>)
    ensures |r| <= |xs|
    ensures forall y :: y in r ==> exists x :: x in xs && keep(x) && y == build(x)
    ensures forall x :: x in xs && keep(x) ==> build(x) in r
  {
    if |xs| == 0 then []
    else
      var rest := FilterMap(xs[1..], keep, build);
      assert xs == [xs[0]] + xs[1..];
      (if keep(xs[0]) then [build(xs[0])] else []) + rest
  }

  /** Elements are judged one at a time: the result for a concatenation is the concatenation of the results. */
  lemma {:induction false} FilterMapAppend<T, U>(xs: seq<T>, ys: seq<T>, keep: T -> bool, build: T -> U)
    ensures FilterMap(xs + ys, keep, build) == FilterMap(xs, keep, build) + FilterMap(ys, keep, build)
  {
    if |xs| > 0 {
      assert (xs + ys)[1..] == xs[1..] + ys;
      FilterMapAppend(xs[1..], ys, keep, build);
    } else {
      assert xs + ys == ys;
    }
  }

  /** A single element yields its record when it passes the guard and nothing otherwise. */
  lemma FilterMapSingle<T, U>(x: T, keep: T -> bool, build: T -> U)
    ensures FilterMap([x], keep, build) == if keep(x) then [build(x)] else []
  {
  }

  /** Two passing elements give their two records, in order and never merged. */
  lemma FilterMapPair<T, U>(a: T, b: T, keep: T -> bool, build: T -> U)
    requires keep(a) && keep(b)
    ensures FilterMap([a, b], keep, build) == [build(a), build(b)]
  {
    assert [a, b][1..] == [b];
  }

  /** When every element passes, one record is built per element, in order. */
  lemma {:induction false} FilterMapAll<T, U>(xs: seq<T>, keep: T -> bool, build: T -> U)
    requires forall x :: x in xs ==> keep(x)
    ensures |FilterMap(xs, keep, build)| == |xs|
    ensures forall i :: 0 <= i < |xs| ==> FilterMap(xs, keep, build)[i] == build(xs[i])
  {
    if |xs| > 0 {
      FilterMapAll(xs[1..], keep, build);
    }
  }

  /** Two walks that agree element by element, in guard and in record, build the same records. */
  lemma {:induction false} FilterMapPointwise<T, V, U>(xs: seq<T>, ys: seq<V>, keep: T -> bool, build: T -> U,
                                                       keep': V -> bool, build': V -> U)
    requires |xs| == |ys|
    requires forall i :: 0 <= i < |xs| ==> keep(xs[i]) == keep'(ys[i]) && build(xs[i]) == build'(ys[i])
    ensures FilterMap(xs, keep, build) == FilterMap(ys, keep', build')
  {
    if |xs| > 0 {
      assert keep(xs[0]) == keep'(ys[0]) && build(xs[0]) == build'(ys[0]);
      forall i | 0 <= i < |xs[1..]|
        ensures keep(xs[1..][i]) == keep'(ys[1..][i]) && build(xs[1..][i]) == build'(ys[1..][i])
      {
        assert xs[1..][i] == xs[i + 1] && ys[1..][i] == ys[i + 1];
      }
      FilterMapPointwise(xs[1..], ys[1..], keep, build, keep', build');
    }
  }

  /** The index of the last element that satisfies `p`, if any. */
  function LastWhere<T>(xs: seq<T>, p: T -> bool): (r: Option<nat>)
    ensures r.Some? ==> r.value < |xs| && p(xs[r.value]) && forall j :: r.value < j < |xs| ==> !p(xs[j])
    ensures r.None? ==> forall j :: 0 <= j < |xs| ==> !p(xs[j])
  {
    if |xs| == 0 then None
    else if p(xs[|xs| - 1]) then Some(|xs| - 1)
    else
      assert forall j :: 0 <= j < |xs| - 1 ==> xs[..|xs| - 1][j] == xs[j];
      LastWhere(xs[..|xs| - 1], p)
  }

  /** The last match of a non-empty sequence: its last element if that matches, else the last match before it. */
  lemma LastWhereStep<T>(xs: seq<T>, p: T -> bool)
    requires |xs| > 0
    ensures LastWhere(xs, p) == if p(xs[|xs| - 1]) then Some(|xs| - 1) else LastWhere(xs[..|xs| - 1], p)
  {
  }

  /** Concatenation is associative. */
  lemma ConcatAssoc<T>(a: seq<T>, b: seq<T>, c: seq<T>)
    ensures a + (b + c) == (a + b) + c
  {
  }

  /** The concatenation of `f(xs[i], start + i)` over the elements of `xs`, in order. */
  function IndexedFlatMap<T, U>(xs: seq<T>, f: (T, nat) -> seq<U>, start: nat): seq<U>
    decreases |xs|
  {
    if |xs| == 0 then [] else f(xs[0], start) + IndexedFlatMap(xs[1..], f, start + 1)
  }

  /** Mapping two runs is mapping the first, then the second numbered from where the first ended. */
  lemma {:induction false} IndexedFlatMapAppend<T, U>(xs: seq<T>, ys: seq<T>, f: (T, nat) -> seq<U>, start: nat)
    ensures IndexedFlatMap(xs + ys, f, start) == IndexedFlatMap(xs, f, start) + IndexedFlatMap(ys, f, start + |xs|)
    decreases |xs|
  {
    if |xs| == 0 {
      assert xs + ys == ys;
    } else {
      assert (xs + ys)[0] == xs[0];
      assert (xs + ys)[1..] == xs[1..] + ys;
      IndexedFlatMapAppend(xs[1..], ys, f, start + 1);
      ConcatAssoc(f(xs[0], start), IndexedFlatMap(xs[1..], f, start + 1), IndexedFlatMap(ys, f, start + |xs|));
    }
  }
}

=== FILE: paging.dfy ===
/**
 * `parsePagination`: current page, page count and navigation flags derived from the
 * pagination widget (`.pagenavix, .pagination`) of a listing page.
 */
module Paging {
  import opened Wrappers

  /** The page size every listing endpoint reports (the default argument of `parsePagination`). */
  const DefaultItemsPerPage := 50

  /**
   * One `.page-numbers` element of the widget, in document order: whether it carries the
   * `prev` or `next` class, and `parseInt` of its text (`None` standing for `NaN`).
   */
  datatype PageLink = PageLink(isPrev: bool, isNext: bool, number: Option<int>)

  /** The `Pagination` record of a listing response; `None` stands for `null`. */
  datatype Pagination = Pagination(
    currentPage: int,
    totalPages: int,
    itemsPerPage: int,
    totalItems: Option<int>,
    hasPrevPage: bool,
    hasNextPage: bool,
    prevPage: Option<int>,
    nextPage: Option<int>)

  /** JavaScript `parseInt(text) || fallback`: `NaN` and `0` are falsy and give the fallback. */
  function OrElse(n: Option<int>, fallback: int): int {
    if n.Some? && n.value != 0 then n.value else fallback
  }

  /** A widget element that counts as a page number: not a prev/next control. */
  predicate Numbered(l: PageLink) {
    !l.isPrev && !l.isNext
  }

  /** The page numbers of the widget: prev/next controls excluded, `NaN` read as 0, non-positive values dropped. */
  function PageNumbers(links: seq<PageLink>): (r: seq<int>)
    ensures forall i :: 0 <= i < |r| ==> r[i] > 0
    ensures forall l :: l in links && Numbered(l) && OrElse(l.number, 0) > 0 ==> l.number.value in r
    ensures forall x :: x in r ==> exists l :: l in links && Numbered(l) && l.number == Some(x)
  {
    if |links| == 0 then []
    else
      var rest := PageNumbers(links[1..]);
      var l := links[0];
      assert forall k :: k in links <==> k == l || k in links[1..];
      if Numbered(l) && OrElse(l.number, 0) > 0 then [l.number.value] + rest else rest
  }

  /** `Math.max` of a non-empty sequence. */
  function MaxOf(xs: seq<int>): (m: int)
    requires |xs| > 0
    ensures m in xs
    ensures forall x :: x in xs ==> x <= m
  {
    if |xs| == 1 then xs[0]
    else
      var rest := MaxOf(xs[1..]);
      assert forall x :: x in xs <==> x == xs[0] || x in xs[1..];
      if xs[0] >= rest then xs[0] else rest
  }

  /** What a `Pagination` record promises: its flags and neighbours agree with the current and total page. */
  predicate Navigable(p: Pagination) {
    && (p.hasPrevPage <==> p.currentPage > 1)
    && (p.hasNextPage <==> p.currentPage < p.totalPages)
    && (p.prevPage.Some? <==> p.hasPrevPage)
    && (p.nextPage.Some? <==> p.hasNextPage)
    && (p.prevPage.Some? ==> p.prevPage.value == p.currentPage - 1 && p.prevPage.value >= 1)
    && (p.nextPage.Some? ==> p.nextPage.value == p.currentPage + 1 && p.nextPage.value <= p.totalPages)
  }

  /**
   * `parsePagination`: `current` is `parseInt` of the text of `.page-numbers.current`, `links`
   * the `.page-numbers` elements, `itemsPerPage` the endpoint's page size.
   */
  function ParsePagination(current: Option<int>, links: seq<PageLink>, itemsPerPage: int): (p: Pagination)
    ensures p.currentPage == OrElse(current, 1)
    ensures p.totalPages >= 1
    ensures forall l :: l in links && Numbered(l) && OrElse(l.number, 0) > 0 ==> l.number.value <= p.totalPages
    ensures p.totalPages == 1 || exists l :: l in links && Numbered(l) && l.number == Some(p.totalPages)
    ensures p.itemsPerPage == itemsPerPage
    ensures p.totalItems == Some(p.totalPages * itemsPerPage)
    ensures Navigable(p)
  {
    var currentPage := OrElse(current, 1);
    var pages := PageNumbers(links);
    var totalPages := if |pages| > 0 then MaxOf(pages) else 1;
    var totalItems := if totalPages > 0 then Some(totalPages * itemsPerPage) else None;
    Pagination(
      currentPage,
      totalPages,
      itemsPerPage,
      totalItems,
      currentPage > 1,
      currentPage < totalPages,
      if currentPage > 1 then Some(currentPage - 1) else None,
      if currentPage < totalPages then Some(currentPage + 1) else None)
  }

  /** A page without a pagination widget is page 1 of 1, with no neighbours. */
  lemma NoWidget(itemsPerPage: int)
    ensures ParsePagination(None, [], itemsPerPage)
         == Pagination(1, 1, itemsPerPage, Some(itemsPerPage), false, false, None, None)
  {
  }

  /**
   * On a real widget the current element is itself one of the numbered elements. Then the
   * current page lies within the page count, and a next page is announced exactly when the
   * widget lists a higher page number.
   */
  lemma CurrentWithinTotal(c: int, links: seq<PageLink>, itemsPerPage: int)
    requires c > 0
    requires exists l :: l in links && Numbered(l) && l.number == Some(c)
    ensures var p := ParsePagination(Some(c), links, itemsPerPage);
            && 1 <= p.currentPage <= p.totalPages
            && (p.hasNextPage <==> exists l :: l in links && Numbered(l) && OrElse(l.number, 0) > c)
  {
    var p := ParsePagination(Some(c), links, itemsPerPage);
    var l :| l in links && Numbered(l) && l.number == Some(c);
    assert OrElse(l.number, 0) > 0;
    if p.hasNextPage {
      var t :| t in links && Numbered(t) && t.number == Some(p.totalPages);
      assert OrElse(t.number, 0) > c;
    }
  }

  /** `parseInt` accepts a sign, so a negative current-page text is kept: the page is then below 1. */
  lemma NegativeCurrentPage()
    ensures var p := ParsePagination(Some(-2), [], DefaultItemsPerPage);
            p.currentPage == -2 && !p.hasPrevPage && p.hasNextPage && p.nextPage == Some(-1)
  {
  }
}

=== FILE: resolver.dfy ===
/**
 * The streaming resolver: a client token (base64 of a JSON object with optional `id`, `i` and
 * `q`) is exchanged, through two form POSTs to the site's AJAX endpoint, for a base64 HTML
 * fragment whose first `src="…"` attribute is the player URL.
 *
 * The resolver is a small state machine: decode the token, await the nonce, await the player,
 * decode the fragment. The network, base64 and `JSON.parse` are parameters (`Upstream`), and
 * both builds share the machine; they differ in how strict their base64 decoder is, in whether
 * a reply that is not JSON is an error of its own, and in how a fault is reported.
 */
module Resolver {
  import opened Wrappers
  import opened Text
  import Titles
  import Errors

  const NonceAction := "aa1208d27f29ca340c92c66d1926f13f"
  const PlayerAction := "2a3505c93b0035d3f455df82bf976b84"
  const NonceMissing := "Failed to get nonce for streaming"
  const PlayerMissing := "Failed to get streaming player"
  const ResolveFailed := "Failed to resolve streaming URL"

  /** The NestJS build (axios, `Buffer` base64) and the Hono build (`fetch`, `atob`). */
  datatype Build = Nest | Hono

  /** The token's fields, each possibly absent. */
  datatype StreamParams = StreamParams(id: Option<int>, i: Option<int>, q: Option<string>)

  /**
   * What `JSON.parse` makes of the decoded token. `null` parses but has no fields to read;
   * any other JSON value reads as its `id`, `i` and `q` fields (all absent for a number).
   */
  datatype Parsed = Unparsable(message: string) | NullValue | Fields(params: StreamParams)

  /** The two form POSTs: the nonce request carries only its action; the player request carries the nonce and the token's fields. */
  datatype AjaxRequest = NonceRequest | PlayerRequest(nonce: string, id: string, i: string, q: string)

  /** The form fields of a request, in the order they are sent. */
  function FormFields(r: AjaxRequest): (fields: seq<(string, string)>)
    ensures |fields| >= 1 && fields[0].0 == "action"
    ensures r.NonceRequest? ==> fields == [("action", NonceAction)]
    ensures r.PlayerRequest? ==>
              fields == [("action", PlayerAction), ("nonce", r.nonce), ("id", r.id), ("i", r.i), ("q", r.q)]
  {
    match r
    case NonceRequest => [("action", NonceAction)]
    case PlayerRequest(nonce, id, i, q) =>
      [("action", PlayerAction), ("nonce", nonce), ("id", id), ("i", i), ("q", q)]
  }

  /** Different requests put different fields on the wire: the form determines the request. */
  lemma FormFieldsInjective(a: AjaxRequest, b: AjaxRequest)
    requires FormFields(a) == FormFields(b)
    ensures a == b
  {
    if a.PlayerRequest? && b.PlayerRequest? {
      assert FormFields(a)[1].1 == FormFields(b)[1].1;
      assert FormFields(a)[2].1 == FormFields(b)[2].1;
      assert FormFields(a)[3].1 == FormFields(b)[3].1;
      assert FormFields(a)[4].1 == FormFields(b)[4].1;
    }
  }

  /** The body of an AJAX reply as JSON sees it; `data` is absent when missing or not a string. */
  datatype Body = NotJson(message: string) | JsonNull | JsonObject(data: Option<string>)

  /** An AJAX reply: a transport failure, or a status (2xx or not) with a body. */
  datatype AjaxReply = TransportFailure(message: string) | Reply(ok: bool, body: Body)

  /**
   * Everything outside the resolver: the strict base64 decoder (`atob`), the lenient one
   * (`Buffer.from(…, 'base64')`, which never fails), `JSON.parse`, the message the engine gives
   * when a field of `null` is read, and the two AJAX replies (the second may depend on what
   * was sent).
   */
  datatype Upstream = Upstream(
    atob: string -> Result<string, string>,
    bufferDecode: string -> string,
    parseJson: string -> Parsed,
    nullRead: string,
    nonceReply: AjaxReply,
    playerReply: AjaxRequest -> AjaxReply)

  /** Base64 decoding as each build does it. */
  function DecodeWith(build: Build, env: Upstream, s: string): (r: Result<string, string>)
    ensures build == Nest ==> r == Success(env.bufferDecode(s))
    ensures build == Hono ==> r == env.atob(s)
  {
    match build
    case Nest => Success(env.bufferDecode(s))
    case Hono => env.atob(s)
  }

  /** Which exchange a fault arose in. */
  datatype Stage = NonceStage | PlayerStage

  /** Why a run stopped. */
  datatype Fault =
    | TokenUnreadable(message: string)
    | TransportFailed(message: string)
    | Rejected(stage: Stage)
    | BodyUnreadable(message: string)
    | Missing(stage: Stage)
    | NullParams(message: string)
    | HtmlUnreadable(message: string)

  /**
   * The `data` string of a reply. A transport failure or a non-2xx status fails first; then a
   * body that is `null`, lacks `data` or has it empty is missing. A body that is not JSON is
   * missing data to axios (which hands back the raw text) and an error to `fetch`'s `json()`.
   */
  function ReplyData(build: Build, reply: AjaxReply, stage: Stage): (r: Result<string, Fault>)
    ensures r.Success? <==> reply.Reply? && reply.ok && reply.body.JsonObject? && Or(reply.body.data, "") != []
    ensures r.Success? ==> r.value == reply.body.data.value
    ensures reply.Reply? && !reply.ok ==> r == Failure(Rejected(stage))
    ensures r.Failure? && r.error.BodyUnreadable? ==> build == Hono
    ensures reply.Reply? && reply.ok && !reply.body.NotJson? && r.Failure? ==> r.error == Missing(stage)
    ensures reply.Reply? && reply.ok && reply.body.NotJson? ==>
              r == Failure(if build == Hono then BodyUnreadable(reply.body.message) else Missing(stage))
    ensures reply.TransportFailure? ==> r == Failure(TransportFailed(reply.message))
  {
    match reply
    case TransportFailure(message) => Failure(TransportFailed(message))
    case Reply(ok, body) =>
      if !ok then Failure(Rejected(stage))
      else
        match body
        case NotJson(message) => if build == Hono then Failure(BodyUnreadable(message)) else Failure(Missing(stage))
        case JsonNull => Failure(Missing(stage))
        case JsonObject(data) => if Or(data, "") != [] then Success(data.value) else Failure(Missing(stage))
  }

  /** A numeric field as a form value: its decimal rendering, or empty when absent. */
  function FieldText(n: Option<int>): (r: string)
    ensures r == [] <==> n.None?
    ensures n.Some? ==> r == IntToString(n.value)
  {
    match n
    case Some(v) => IntToString(v)
    case None => ""
  }

  /** The player request: the nonce passed on, the token's fields stringified or empty. */
  function PlayerRequestFor(nonce: string, p: StreamParams): (r: AjaxRequest)
    ensures r.PlayerRequest? && r.nonce == nonce
    ensures r.id == [] <==> p.id.None?
    ensures r.i == [] <==> p.i.None?
    ensures r.q == [] <==> p.q.None? || p.q.value == []
    ensures p.q.Some? ==> r.q == p.q.value
    ensures p.id.Some? ==> r.id == IntToString(p.id.value)
    ensures p.i.Some? ==> r.i == IntToString(p.i.value)
  {
    PlayerRequest(nonce, FieldText(p.id), FieldText(p.i), Or(p.q, ""))
  }

  /** A non-negative `id` or `i` read back from the request is the token's value. */
  lemma PlayerFieldsRoundTrip(nonce: string, p: StreamParams)
    requires p.id.Some? && p.id.value >= 0
    requires p.i.Some? && p.i.value >= 0
    ensures
      var r := PlayerRequestFor(nonce, p);
      && (forall k :: 0 <= k < |r.id| ==> IsDigit(r.id[k])) && DigitsValue(r.id) == p.id.value
      && (forall k :: 0 <= k < |r.i| ==> IsDigit(r.i[k])) && DigitsValue(r.i) == p.i.value
  {
    NatToStringRoundTrip(p.id.value);
    NatToStringRoundTrip(p.i.value);
  }

  /** The opening of the attribute the player URL is read from. */
  const SrcOpen := "src=\""

  /** Index just past the run of characters other than `"` that starts at `from`. */
  function SkipNonQuotes(s: string, from: nat): (k: nat)
    requires from <= |s|
    ensures from <= k <= |s|
    ensures forall i :: from <= i < k ==> s[i] != '"'
    ensures k == |s| || s[k] == '"'
    decreases |s| - from
  {
    if from < |s| && s[from] != '"' then SkipNonQuotes(s, from + 1) else from
  }

  /**
   * `src="([^"]+)"` matches at `p`: the opening, one or more non-quote characters, a quote.
   * The greedy run can only end at a quote or at the end, so backtracking never helps.
   */
  predicate SrcAt(s: string, p: nat) {
    OccursAt(s, SrcOpen, p) && p + 5 < SkipNonQuotes(s, p + 5) < |s|
  }

  /** The player URL: the capture of the leftmost `src="…"` match, or empty when there is none. */
  function ExtractSrc(html: string): (url: string)
    ensures '"' !in url
    ensures url == [] ==> forall p: nat :: p <= |html| ==> !SrcAt(html, p)
    ensures url != [] ==> exists p: nat ::
      && SrcAt(html, p)
      && url == html[p + 5..SkipNonQuotes(html, p + 5)]
      && forall q: nat :: q < p ==> !SrcAt(html, q)
  {
    match Titles.FirstFrom(html, SrcAt, 0)
    case Some(p) =>
      var url := html[p + 5..SkipNonQuotes(html, p + 5)];
      assert forall q: nat :: q < p ==> !SrcAt(html, q);
      url
    case None => []
  }

  /** The first `src="…"` after quote-free text yields exactly the quoted value. */
  lemma ExtractSrcOf(pre: string, u: string, post: string)
    requires '"' !in pre && '"' !in u && u != []
    ensures ExtractSrc(pre + SrcOpen + u + "\"" + post) == u
  {
    var s := pre + SrcOpen + u + "\"" + post;
    var p := |pre|;
    var e := p + 5 + |u|;
    assert s[..p] == pre;
    assert s[p..p + 5] == SrcOpen;
    assert s[e] == '"';
    forall i | p + 5 <= i < e
      ensures s[i] != '"'
    {
      assert s[i] == u[i - p - 5];
    }
    assert s[p + 5..e] == u;
    ExtractSrcAt(s, p, e);
  }

  /** A quote-free text up to `p`, then `src="`, a quote-free run and a quote at `e`. */
  lemma ExtractSrcAt(s: string, p: nat, e: nat)
    requires p + 5 < e < |s| && '"' !in s[..p]
    requires s[p..p + 5] == SrcOpen && s[e] == '"'
    requires forall i :: p + 5 <= i < e ==> s[i] != '"'
    ensures ExtractSrc(s) == s[p + 5..e]
  {
    SrcRunAt(s, p, e);
    NoSrcBefore(s[..p], s);
    Titles.FirstFromIs(s, SrcAt, p);
    ExtractSrcFound(s, p, e);
  }

  /** `src="` at `p`, then a quote-free run ended by a quote at `e`: a match whose run ends there. */
  lemma SrcRunAt(s: string, p: nat, e: nat)
    requires p + 5 < e < |s| && s[p..p + 5] == SrcOpen && s[e] == '"'
    requires forall i :: p + 5 <= i < e ==> s[i] != '"'
    ensures SkipNonQuotes(s, p + 5) == e && SrcAt(s, p)
  {
  }

  /** No match starts inside a quote-free prefix that is followed by `src="`. */
  lemma NoSrcBefore(pre: string, s: string)
    requires '"' !in pre
    requires |pre| + 5 <= |s| && s[..|pre|] == pre && s[|pre|..|pre| + 5] == SrcOpen
    ensures forall q: nat :: q < |pre| ==> !SrcAt(s, q)
  {
    var p := |pre|;
    forall q: nat | q < p
      ensures !SrcAt(s, q)
    {
      if q + 4 < p {
        assert s[q + 4] == s[..p][q + 4];
      } else {
        assert s[q + 4] == s[p..p + 5][q + 4 - p];
      }
      assert !OccursAt(s, SrcOpen, q) by {
        if q + 5 <= |s| {
          assert s[q..q + 5][4] == s[q + 4];
        }
      }
    }
  }

  /** Once the first match and the end of its quote-free run are known, the URL is the run. */
  lemma ExtractSrcFound(s: string, p: nat, e: nat)
    requires Titles.FirstFrom(s, SrcAt, 0) == Some(p)
    requires p + 5 <= e <= |s| && SkipNonQuotes(s, p + 5) == e
    ensures ExtractSrc(s) == s[p + 5..e]
  {
  }

  /** The token as each build reads it: decoded, parsed, and stopped if either fails. */
  function TokenParams(build: Build, env: Upstream, dataContent: string): (r: Result<Option<StreamParams>, Fault>)
    ensures r.Failure? ==> r.error.TokenUnreadable?
    ensures build == Nest && r.Failure? ==> env.parseJson(env.bufferDecode(dataContent)).Unparsable?
    ensures DecodeWith(build, env, dataContent).Failure? ==>
              r == Failure(TokenUnreadable(DecodeWith(build, env, dataContent).error))
    ensures DecodeWith(build, env, dataContent).Success? ==>
              var parsed := env.parseJson(DecodeWith(build, env, dataContent).value);
              && (parsed.Unparsable? ==> r == Failure(TokenUnreadable(parsed.message)))
              && (parsed.NullValue? ==> r == Success(None))
              && (parsed.Fields? ==> r == Success(Some(parsed.params)))
  {
    match DecodeWith(build, env, dataContent)
    case Failure(message) => Failure(TokenUnreadable(message))
    case Success(json) =>
      (match env.parseJson(json)
       case Unparsable(message) => Failure(TokenUnreadable(message))
       case NullValue => Success(None)
       case Fields(p) => Success(Some(p)))
  }

  /** Where a run is. */
  datatype Phase =
    | Start(dataContent: string)
    | AwaitNonce(params: Option<StreamParams>)
    | AwaitPlayer(request: AjaxRequest)
    | DecodeHtml(encoded: string)
    | Done(url: string, html: string)
    | Stopped(fault: Fault)

  predicate Terminal(phase: Phase) {
    phase.Done? || phase.Stopped?
  }

  /** Phases still to go; every step lowers it. */
  function Rank(phase: Phase): nat {
    match phase
    case Start(_) => 4
    case AwaitNonce(_) => 3
    case AwaitPlayer(_) => 2
    case DecodeHtml(_) => 1
    case _ => 0
  }

  /**
   * One step of the machine, with the requests it sends. Reading the fields of a `null`
   * token only fails when the player request is built, after the nonce has been fetched.
   */
  function Step(build: Build, env: Upstream, phase: Phase): (r: (Phase, seq<AjaxRequest>))
    requires !Terminal(phase)
    ensures Rank(r.0) < Rank(phase)
    ensures phase.AwaitNonce? ==> r.1 == [NonceRequest]
    ensures phase.AwaitPlayer? ==> r.1 == [phase.request]
    ensures phase.Start? || phase.DecodeHtml? ==> r.1 == []
    ensures r.0.AwaitPlayer? ==> r.0.request.PlayerRequest? && Success(r.0.request.nonce) == ReplyData(build, env.nonceReply, NonceStage)
  {
    match phase
    case Start(dataContent) =>
      (match TokenParams(build, env, dataContent)
       case Failure(f) => (Stopped(f), [])
       case Success(params) => (AwaitNonce(params), []))
    case AwaitNonce(params) =>
      (match ReplyData(build, env.nonceReply, NonceStage)
       case Failure(f) => (Stopped(f), [NonceRequest])
       case Success(nonce) =>
         if params.None? then (Stopped(NullParams(env.nullRead)), [NonceRequest])
         else (AwaitPlayer(PlayerRequestFor(nonce, params.value)), [NonceRequest]))
    case AwaitPlayer(request) =>
      (match ReplyData(build, env.playerReply(request), PlayerStage)
       case Failure(f) => (Stopped(f), [request])
       case Success(encoded) => (DecodeHtml(encoded), [request]))
    case DecodeHtml(encoded) =>
      (match DecodeWith(build, env, encoded)
       case Failure(message) => (Stopped(HtmlUnreadable(message)), [])
       case Success(html) => (Done(ExtractSrc(html), html), []))
  }

  /** A finished run: the requests sent, in order, and the final phase. */
  datatype Run = Run(requests: seq<AjaxRequest>, outcome: Phase)

  /** Steps from `phase` until the machine stops. */
  function RunFrom(build: Build, env: Upstream, phase: Phase): (r: Run)
    ensures Terminal(r.outcome)
    ensures |r.requests| <= Rank(phase)
    decreases Rank(phase)
  {
    if Terminal(phase) then Run([], phase)
    else
      var (next, sent) := Step(build, env, phase);
      var rest := RunFrom(build, env, next);
      Run(sent + rest.requests, rest.outcome)
  }

  /** Resolving a token. */
  function Resolve(build: Build, env: Upstream, dataContent: string): (r: Run)
    ensures Terminal(r.outcome)
  {
    RunFrom(build, env, Start(dataContent))
  }

  /** A run from the player phase on. */
  lemma {:induction false} FromPlayer(build: Build, env: Upstream, request: AjaxRequest)
    ensures
      var r := RunFrom(build, env, AwaitPlayer(request));
      var data := ReplyData(build, env.playerReply(request), PlayerStage);
      && r.requests == [request]
      && (data.Failure? ==> r.outcome == Stopped(data.error))
      && (data.Success? && DecodeWith(build, env, data.value).Failure? ==>
            r.outcome == Stopped(HtmlUnreadable(DecodeWith(build, env, data.value).error)))
      && (data.Success? && DecodeWith(build, env, data.value).Success? ==>
            var html := DecodeWith(build, env, data.value).value;
            r.outcome == Done(ExtractSrc(html), html))
  {
    var phase := AwaitPlayer(request);
    var (next, sent) := Step(build, env, phase);
    assert RunFrom(build, env, phase) == Run(sent + RunFrom(build, env, next).requests, RunFrom(build, env, next).outcome);
    if next.DecodeHtml? {
      var (last, none) := Step(build, env, next);
      assert RunFrom(build, env, next) == Run(none + RunFrom(build, env, last).requests, RunFrom(build, env, last).outcome);
      assert RunFrom(build, env, last) == Run([], last);
    } else {
      assert RunFrom(build, env, next) == Run([], next);
    }
  }

  /** A run from the nonce phase on: the nonce request, then the player phase when a nonce came back. */
  lemma {:induction false} FromNonce(build: Build, env: Upstream, params: Option<StreamParams>)
    ensures
      var r := RunFrom(build, env, AwaitNonce(params));
      var nonce := ReplyData(build, env.nonceReply, NonceStage);
      && (nonce.Failure? ==> r == Run([NonceRequest], Stopped(nonce.error)))
      && (nonce.Success? && params.None? ==> r == Run([NonceRequest], Stopped(NullParams(env.nullRead))))
      && (nonce.Success? && params.Some? ==>
            var rest := RunFrom(build, env, AwaitPlayer(PlayerRequestFor(nonce.value, params.value)));
            r == Run([NonceRequest] + rest.requests, rest.outcome))
  {
    var phase := AwaitNonce(params);
    var (next, sent) := Step(build, env, phase);
    assert RunFrom(build, env, phase) == Run(sent + RunFrom(build, env, next).requests, RunFrom(build, env, next).outcome);
    if Terminal(next) {
      assert RunFrom(build, env, next) == Run([], next);
    }
  }

  /** A run from the start: nothing is sent when the token cannot be read. */
  lemma {:induction false} FromStart(build: Build, env: Upstream, dataContent: string)
    ensures
      var r := Resolve(build, env, dataContent);
      var token := TokenParams(build, env, dataContent);
      && (token.Failure? ==> r == Run([], Stopped(token.error)))
      && (token.Success? ==> r == RunFrom(build, env, AwaitNonce(token.value)))
  {
    var phase := Start(dataContent);
    var (next, sent) := Step(build, env, phase);
    assert RunFrom(build, env, phase) == Run(sent + RunFrom(build, env, next).requests, RunFrom(build, env, next).outcome);
    if Terminal(next) {
      assert RunFrom(build, env, next) == Run([], next);
    }
  }

  /**
   * The protocol: no request is sent when the token cannot be read; otherwise the nonce
   * request goes first, and the player request follows exactly when a nonce came back and the
   * token was not `null`, carrying that nonce and the token's fields.
   */
  lemma {:induction false} ResolveProtocol(build: Build, env: Upstream, dataContent: string)
    ensures
      var r := Resolve(build, env, dataContent);
      var token := TokenParams(build, env, dataContent);
      var nonce := ReplyData(build, env.nonceReply, NonceStage);
      && (token.Failure? ==> r == Run([], Stopped(token.error)))
      && (token.Success? && nonce.Failure? ==> r == Run([NonceRequest], Stopped(nonce.error)))
      && (token.Success? && token.value.None? && nonce.Success? ==> r == Run([NonceRequest], Stopped(NullParams(env.nullRead))))
      && (token.Success? && token.value.Some? && nonce.Success? ==>
            r.requests == [NonceRequest, PlayerRequestFor(nonce.value, token.value.value)])
  {
    FromStart(build, env, dataContent);
    var token := TokenParams(build, env, dataContent);
    if token.Success? {
      FromNonce(build, env, token.value);
      var nonce := ReplyData(build, env.nonceReply, NonceStage);
      if nonce.Success? && token.value.Some? {
        FromPlayer(build, env, PlayerRequestFor(nonce.value, token.value.value));
      }
    }
  }

  /**
   * A finished run made both requests, the second carrying the nonce of the first reply, and
   * returns the decoded fragment with the URL extracted from it.
   */
  lemma {:induction false} ResolvedUrl(build: Build, env: Upstream, dataContent: string)
    ensures
      var r := Resolve(build, env, dataContent);
      r.outcome.Done? ==>
        && |r.requests| == 2 && r.requests[0] == NonceRequest && r.requests[1].PlayerRequest?
        && ReplyData(build, env.nonceReply, NonceStage) == Success(r.requests[1].nonce)
        && ReplyData(build, env.playerReply(r.requests[1]), PlayerStage).Success?
        && DecodeWith(build, env, ReplyData(build, env.playerReply(r.requests[1]), PlayerStage).value) == Success(r.outcome.html)
        && r.outcome.url == ExtractSrc(r.outcome.html)
  {
    FromStart(build, env, dataContent);
    var token := TokenParams(build, env, dataContent);
    if token.Success? {
      FromNonce(build, env, token.value);
      var nonce := ReplyData(build, env.nonceReply, NonceStage);
      if nonce.Success? && token.value.Some? {
        FromPlayer(build, env, PlayerRequestFor(nonce.value, token.value.value));
      }
    }
  }

  /**
   * The two builds agree whenever the two decoders agree (`atob` never rejects what it is
   * given) and every reply is JSON: then only the reporting of a fault differs.
   */
  lemma {:induction false} BuildsAgree(env: Upstream, dataContent: string)
    requires forall s :: env.atob(s) == Success(env.bufferDecode(s))
    requires !(env.nonceReply.Reply? && env.nonceReply.body.NotJson?)
    requires forall q :: !(env.playerReply(q).Reply? && env.playerReply(q).body.NotJson?)
    ensures Resolve(Nest, env, dataContent) == Resolve(Hono, env, dataContent)
  {
    FromStart(Nest, env, dataContent);
    FromStart(Hono, env, dataContent);
    var token := TokenParams(Hono, env, dataContent);
    assert TokenParams(Nest, env, dataContent) == token;
    if token.Success? {
      FromNonce(Nest, env, token.value);
      FromNonce(Hono, env, token.value);
      var nonce := ReplyData(Hono, env.nonceReply, NonceStage);
      assert ReplyData(Nest, env.nonceReply, NonceStage) == nonce;
      if nonce.Success? && token.value.Some? {
        var q := PlayerRequestFor(nonce.value, token.value.value);
        FromPlayer(Nest, env, q);
        FromPlayer(Hono, env, q);
        assert ReplyData(Nest, env.playerReply(q), PlayerStage) == ReplyData(Hono, env.playerReply(q), PlayerStage);
      }
    }
  }

  /** The token of the worked example and what it decodes to. */
  const ExampleToken := "eyJpZCI6MTIzLCJpIjowLCJxIjoiNDgwcCJ9"
  const ExampleJson := "{\"id\":123,\"i\":0,\"q\":\"480p\"}"
  const ExampleEncodedHtml := "PGlmcmFtZSBzcmM9Imh0dHBzOi8vcGxheWVyLngveSI+PC9pZnJhbWU+"
  const ExampleUrl := "https://player.x/y"
  const ExampleHtml := "<iframe " + SrcOpen + ExampleUrl + "\"" + "></iframe>"

  /** A site that answers the worked example: nonce `nonce1`, then the iframe fragment. */
  function ExampleUpstream(): Upstream {
    var decode := (s: string) =>
      if s == ExampleToken then ExampleJson else if s == ExampleEncodedHtml then ExampleHtml else "";
    Upstream(
      (s: string) => if s == ExampleToken || s == ExampleEncodedHtml then Success(decode(s)) else Failure("InvalidCharacterError"),
      decode,
      (s: string) => if s == ExampleJson then Fields(StreamParams(Some(123), Some(0), Some("480p"))) else Unparsable("SyntaxError"),
      "TypeError",
      Reply(true, JsonObject(Some("nonce1"))),
      (q: AjaxRequest) => Reply(true, JsonObject(Some(ExampleEncodedHtml))))
  }

  /**
   * The worked example: token `{id:123,i:0,q:"480p"}`, nonce `nonce1`, and a fragment holding
   * `<iframe src="https://player.x/y">` resolve to that URL in both builds, after exactly the
   * nonce request and a player request carrying `nonce1`, `123`, `0` and `480p`.
   */
  lemma ExampleResolution(build: Build)
    ensures Resolve(build, ExampleUpstream(), ExampleToken)
      == Run([NonceRequest, PlayerRequest("nonce1", "123", "0", "480p")], Done(ExampleUrl, ExampleHtml))
  {
    var env := ExampleUpstream();
    var params := StreamParams(Some(123), Some(0), Some("480p"));
    var request := PlayerRequest("nonce1", "123", "0", "480p");
    ExampleExchanges(build);
    ExampleRequest();
    ExampleFragment();
    FromStart(build, env, ExampleToken);
    FromNonce(build, env, Some(params));
    FromPlayer(build, env, request);
  }

  /** The worked example's token and replies, as each build reads them. */
  lemma ExampleExchanges(build: Build)
    ensures TokenParams(build, ExampleUpstream(), ExampleToken) == Success(Some(StreamParams(Some(123), Some(0), Some("480p"))))
    ensures ReplyData(build, ExampleUpstream().nonceReply, NonceStage) == Success("nonce1")
    ensures ReplyData(build, ExampleUpstream().playerReply(PlayerRequest("nonce1", "123", "0", "480p")), PlayerStage) == Success(ExampleEncodedHtml)
    ensures DecodeWith(build, ExampleUpstream(), ExampleEncodedHtml) == Success(ExampleHtml)
  {
  }

  /** The worked example's player request: `123` and `0` rendered in decimal. */
  lemma ExampleRequest()
    ensures PlayerRequestFor("nonce1", StreamParams(Some(123), Some(0), Some("480p"))) == PlayerRequest("nonce1", "123", "0", "480p")
  {
    assert NatToString(123) == "123" by {
      assert NatToString(1) == "1";
      assert NatToString(12) == NatToString(1) + [DigitChar(2)];
    }
    assert NatToString(0) == "0";
  }

  /** The worked example's fragment yields the player URL. */
  lemma ExampleFragment()
    ensures ExtractSrc(ExampleHtml) == ExampleUrl
  {
    ExtractSrcOf("<iframe ", ExampleUrl, "></iframe>");
  }

  /** How the NestJS build reports a fault: always a 502, with a message naming what failed. */
  function NestThrown(fault: Fault): (t: Errors.Thrown)
    ensures t.HttpException? && t.status == 502 && t.response.TextResponse?
    ensures t.response.text == NonceMissing <==> fault == Missing(NonceStage)
    ensures t.response.text == PlayerMissing <==> fault == Missing(PlayerStage)
    ensures !fault.Missing? ==> t.response.text == ResolveFailed
  {
    var message :=
      if fault == Missing(NonceStage) then NonceMissing
      else if fault == Missing(PlayerStage) then PlayerMissing
      else ResolveFailed;
    Errors.HttpException(502, Errors.TextResponse(message))
  }

  /**
   * How the Hono build reports a fault: a missing nonce or player carries status 502; a
   * rejected exchange has the same message but no status; anything else is the thrown error's
   * own message without a status.
   */
  function HonoThrown(fault: Fault): (e: Errors.JsError)
    ensures e.statusCode == Some(502) <==> fault.Missing?
    ensures !fault.Missing? ==> e.statusCode.None?
    ensures fault.Missing? || fault.Rejected? ==>
      e.message == (if fault.stage == NonceStage then NonceMissing else PlayerMissing)
  {
    match fault
    case Missing(stage) => Errors.JsError(if stage == NonceStage then NonceMissing else PlayerMissing, Some(502))
    case Rejected(stage) => Errors.JsError(if stage == NonceStage then NonceMissing else PlayerMissing, None)
    case TokenUnreadable(message) => Errors.JsError(message, None)
    case TransportFailed(message) => Errors.JsError(message, None)
    case BodyUnreadable(message) => Errors.JsError(message, None)
    case NullParams(message) => Errors.JsError(message, None)
    case HtmlUnreadable(message) => Errors.JsError(message, None)
  }

  /** Every NestJS resolver failure is answered 502 UPSTREAM_ERROR. */
  lemma NestFaultsAreUpstream(fault: Fault, url: string, development: bool)
    ensures
      var b := Errors.NestErrorBody(NestThrown(fault), url, development);
      b.statusCode == 502 && b.code == "UPSTREAM_ERROR" && b.message == NestThrown(fault).response.text
  {
  }

  /**
   * The Hono answer: 502 UPSTREAM_ERROR for a missing nonce or player, 500 INTERNAL_ERROR
   * for everything else, including a rejected exchange and an unreadable token.
   */
  lemma HonoFaultStatus(fault: Fault, path: string)
    ensures
      var b := Errors.HonoErrorBody(HonoThrown(fault), path);
      && (fault.Missing? ==> b.statusCode == 502 && b.code == "UPSTREAM_ERROR")
      && (!fault.Missing? ==> b.statusCode == 500 && b.code == Errors.InternalError)
  {
  }
}

=== FILE: routes.dfy ===
/**
 * The answers the two builds give on the routes whose failures the core decides: the detail
 * pages (not found), any page whose fetch fails, and the streaming resolver (the `dataContent`
 * guard of the Hono POST route, and the GET route that passes its parameter straight on).
 */
module Routes {
  import opened Wrappers
  import opened Text
  import Errors
  import Resolver
  import AnimeDetails
  import EpisodeDetails
  import Titles

  const DataContentRequired := "dataContent is required"

  /** What the resolver hands back on success. */
  datatype Resolution = Resolution(url: string, html: string)

  /** A route's answer: the success envelope or the error body. */
  datatype Answer<T> = Answered(envelope: Errors.Envelope<T>) | Refused(body: Errors.ErrorBody)

  /** The Hono answer to a finished resolver run. */
  function HonoAnswer(run: Resolver.Run, path: string): (a: Answer<Resolution>)
    requires Resolver.Terminal(run.outcome)
    ensures a.Answered? <==> run.outcome.Done?
    ensures a.Answered? ==> a.envelope.data == Resolution(run.outcome.url, run.outcome.html) && a.envelope.statusCode == 200
    ensures a.Refused? ==> a.body == Errors.HonoErrorBody(Resolver.HonoThrown(run.outcome.fault), path)
  {
    match run.outcome
    case Done(url, html) => Answered(Errors.Succeed(Resolution(url, html), path))
    case Stopped(fault) => Refused(Errors.HonoErrorBody(Resolver.HonoThrown(fault), path))
  }

  /** Hono `GET /api/resolve-streaming/:dataContent`: the requests sent and the answer. */
  function HonoResolveGet(env: Resolver.Upstream, dataContent: string, path: string): (r: (seq<Resolver.AjaxRequest>, Answer<Resolution>))
    ensures r.0 == Resolver.Resolve(Resolver.Hono, env, dataContent).requests
    ensures r.1 == HonoAnswer(Resolver.Resolve(Resolver.Hono, env, dataContent), path)
  {
    var run := Resolver.Resolve(Resolver.Hono, env, dataContent);
    (run.requests, HonoAnswer(run, path))
  }

  /**
   * Hono `POST /api/resolve-streaming`: a missing or empty `dataContent` is refused with 400
   * before anything is sent; otherwise the token is resolved.
   */
  function HonoResolvePost(env: Resolver.Upstream, dataContent: Option<string>, path: string): (r: (seq<Resolver.AjaxRequest>, Answer<Resolution>))
    ensures Or(dataContent, "") == [] ==> r.0 == []
    ensures Or(dataContent, "") != [] ==> r.0 == Resolver.Resolve(Resolver.Hono, env, dataContent.value).requests
    ensures Or(dataContent, "") != [] ==> r.1 == HonoAnswer(Resolver.Resolve(Resolver.Hono, env, dataContent.value), path)
    ensures Or(dataContent, "") == [] ==>
              r.1 == Refused(Errors.HonoErrorBody(Errors.JsError(DataContentRequired, Some(400)), path))
  {
    if Or(dataContent, "") == [] then
      ([], Refused(Errors.HonoErrorBody(Errors.JsError(DataContentRequired, Some(400)), path)))
    else
      HonoResolveGet(env, dataContent.value, path)
  }

  /** The guard: without a token the Hono POST route answers 400 BAD_REQUEST and sends nothing. */
  lemma PostGuard(env: Resolver.Upstream, dataContent: Option<string>, path: string)
    requires dataContent.None? || dataContent.value == []
    ensures
      var (sent, answer) := HonoResolvePost(env, dataContent, path);
      && sent == []
      && answer.Refused?
      && answer.body.statusCode == 400 && answer.body.code == "BAD_REQUEST"
      && answer.body.message == DataContentRequired
  {
  }

  /** With a token, POST and GET behave the same. */
  lemma PostMatchesGet(env: Resolver.Upstream, dataContent: string, path: string)
    requires dataContent != []
    ensures HonoResolvePost(env, Some(dataContent), path) == HonoResolveGet(env, dataContent, path)
  {
  }

  /**
   * The NestJS resolver route (before the response interceptor wraps it). A missing body
   * field fails inside the resolver's `try` and is reported like any other unreadable token.
   */
  function NestResolve(env: Resolver.Upstream, dataContent: Option<string>, url: string, development: bool)
    : (r: (seq<Resolver.AjaxRequest>, Result<Resolution, Errors.ErrorBody>))
    ensures dataContent.None? ==> r.0 == [] && r.1.Failure? && r.1.error.statusCode == 502
    ensures dataContent.Some? ==> r.0 == Resolver.Resolve(Resolver.Nest, env, dataContent.value).requests
    ensures r.1.Failure? ==> r.1.error.statusCode == 502 && r.1.error.code == "UPSTREAM_ERROR"
    ensures dataContent.Some? && Resolver.Resolve(Resolver.Nest, env, dataContent.value).outcome.Done? ==>
              var run := Resolver.Resolve(Resolver.Nest, env, dataContent.value);
              r.1 == Success(Resolution(run.outcome.url, run.outcome.html))
    ensures dataContent.Some? && Resolver.Resolve(Resolver.Nest, env, dataContent.value).outcome.Stopped? ==>
              var run := Resolver.Resolve(Resolver.Nest, env, dataContent.value);
              r.1 == Failure(Errors.NestErrorBody(Resolver.NestThrown(run.outcome.fault), url, development))
  {
    if dataContent.None? then
      var fault := Resolver.TokenUnreadable("");
      Resolver.NestFaultsAreUpstream(fault, url, development);
      ([], Failure(Errors.NestErrorBody(Resolver.NestThrown(fault), url, development)))
    else
      var run := Resolver.Resolve(Resolver.Nest, env, dataContent.value);
      match run.outcome
      case Done(u, html) => (run.requests, Success(Resolution(u, html)))
      case Stopped(fault) =>
        Resolver.NestFaultsAreUpstream(fault, url, development);
        (run.requests, Failure(Errors.NestErrorBody(Resolver.NestThrown(fault), url, development)))
  }

  /**
   * An empty token: Hono refuses it with 400 and sends nothing, while NestJS hands it to the
   * resolver, so any failure there is a 502.
   */
  lemma EmptyTokenDiffers(env: Resolver.Upstream, path: string, development: bool)
    ensures HonoResolvePost(env, Some(""), path).1.body.statusCode == 400
    ensures NestResolve(env, Some(""), path, development).0 == Resolver.Resolve(Resolver.Nest, env, "").requests
  {
  }

  /**
   * A token that cannot be decoded or parsed stops the resolver before anything is sent.
   * NestJS answers it 502 UPSTREAM_ERROR "Failed to resolve streaming URL"; Hono answers it
   * 500 INTERNAL_ERROR with the decoder's or parser's message.
   */
  lemma UnreadableToken(build: Resolver.Build, env: Resolver.Upstream, dataContent: string, path: string, development: bool)
    requires Resolver.TokenParams(build, env, dataContent).Failure?
    ensures Resolver.Resolve(build, env, dataContent).requests == []
    ensures build == Resolver.Nest ==>
              var (sent, answer) := NestResolve(env, Some(dataContent), path, development);
              && sent == [] && answer.Failure?
              && answer.error.statusCode == 502 && answer.error.code == "UPSTREAM_ERROR"
              && answer.error.message == Resolver.ResolveFailed
    ensures build == Resolver.Hono ==>
              var (sent, answer) := HonoResolveGet(env, dataContent, path);
              && sent == [] && answer.Refused?
              && answer.body.statusCode == 500 && answer.body.code == Errors.InternalError
              && answer.body.message == Or(Some(Resolver.TokenParams(build, env, dataContent).error.message), Errors.DefaultMessage)
  {
    Resolver.ResolveProtocol(build, env, dataContent);
    var fault := Resolver.TokenParams(build, env, dataContent).error;
    Resolver.NestFaultsAreUpstream(fault, path, development);
    Resolver.HonoFaultStatus(fault, path);
  }

  /** How a page fetch fails: the site answers with an error status, or the request itself fails with its own message. */
  datatype FetchFault = NotOk | Unreachable(message: string)

  /**
   * A failed page fetch. NestJS turns every failure into 502 with the URL in the message. Hono
   * throws that message only on an error status; a failed request propagates its own error.
   * Either way Hono's error carries no status and becomes 500.
   */
  function FetchFailed(build: Resolver.Build, fault: FetchFault, pageUrl: string, path: string, development: bool): (b: Errors.ErrorBody)
    ensures build == Resolver.Nest || fault.NotOk? ==> b.message == "Failed to fetch data from " + pageUrl
    ensures build == Resolver.Hono && fault.Unreachable? && fault.message != [] ==> b.message == fault.message
    ensures build == Resolver.Hono && fault.Unreachable? && fault.message == [] ==> b.message == Errors.DefaultMessage
    ensures build == Resolver.Nest ==> b.statusCode == 502 && b.code == "UPSTREAM_ERROR"
    ensures build == Resolver.Hono ==> b.statusCode == 500 && b.code == Errors.InternalError
  {
    var message := "Failed to fetch data from " + pageUrl;
    match build
    case Nest => Errors.NestErrorBody(Errors.HttpException(502, Errors.TextResponse(message)), path, development)
    case Hono =>
      match fault
      case NotOk => Errors.HonoErrorBody(Errors.JsError(message, None), path)
      case Unreachable(reason) => Errors.HonoErrorBody(Errors.JsError(reason, None), path)
  }

  /** How a detail parser's not-found failure is thrown, per build, and answered. */
  function NotFound(build: Resolver.Build, message: string, path: string, development: bool): (b: Errors.ErrorBody)
    requires message != []
    ensures b.statusCode == 404 && b.message == message && b.code == Errors.ResourceOf(path) + "_NOT_FOUND"
  {
    match build
    case Nest => Errors.NestErrorBody(Errors.HttpException(404, Errors.TextResponse(message)), path, development)
    case Hono => Errors.HonoErrorBody(Errors.JsError(message, Some(404)), path)
  }

  /** `GET /api/anime/:slug` once the page is fetched. */
  function AnimeRoute(build: Resolver.Build, slug: string, page: AnimeDetails.AnimePage, development: bool)
    : (a: Answer<AnimeDetails.AnimeDetail>)
    ensures a.Answered? <==> AnimeDetails.ParseAnimeDetail(slug, page).Success?
    ensures a.Answered? ==> a.envelope == Errors.Succeed(AnimeDetails.ParseAnimeDetail(slug, page).value, "/api/anime/" + slug)
    ensures a.Refused? ==>
              a.body == NotFound(build, AnimeDetails.ParseAnimeDetail(slug, page).error, "/api/anime/" + slug, development)
  {
    var path := "/api/anime/" + slug;
    match AnimeDetails.ParseAnimeDetail(slug, page)
    case Success(detail) => Answered(Errors.Succeed(detail, path))
    case Failure(message) => Refused(NotFound(build, message, path, development))
  }

  /**
   * An anime page whose title normalises to nothing is answered, in both builds, 404
   * ANIME_NOT_FOUND with the message naming the slug.
   */
  lemma AnimeNotFound(build: Resolver.Build, slug: string, page: AnimeDetails.AnimePage, development: bool)
    requires '/' !in slug
    requires Titles.NormalizeAnimeTitle(page.h1Text) == []
    ensures
      var a := AnimeRoute(build, slug, page, development);
      && a.Refused? && a.body.statusCode == 404 && a.body.code == "ANIME_NOT_FOUND"
      && a.body.message == AnimeDetails.NotFoundMessage("Anime", slug)
  {
    Errors.AnimeNotFoundCode(slug);
  }

  /** `GET /api/episode/:slug` once the page is fetched. */
  function EpisodeRoute(build: Resolver.Build, slug: string, page: EpisodeDetails.EpisodePage, development: bool)
    : (a: Answer<EpisodeDetails.EpisodeDetail>)
    ensures a.Answered? <==> EpisodeDetails.ParseEpisodeDetail(slug, page).Success?
    ensures a.Answered? ==> a.envelope == Errors.Succeed(EpisodeDetails.ParseEpisodeDetail(slug, page).value, "/api/episode/" + slug)
    ensures a.Refused? ==>
              a.body == NotFound(build, EpisodeDetails.ParseEpisodeDetail(slug, page).error, "/api/episode/" + slug, development)
  {
    var path := "/api/episode/" + slug;
    match EpisodeDetails.ParseEpisodeDetail(slug, page)
    case Success(detail) => Answered(Errors.Succeed(detail, path))
    case Failure(message) => Refused(NotFound(build, message, path, development))
  }

  /** An episode page with an empty title is answered, in both builds, 404 EPISODE_NOT_FOUND. */
  lemma EpisodeNotFound(build: Resolver.Build, slug: string, page: EpisodeDetails.EpisodePage, development: bool)
    requires '/' !in slug
    requires Trim(page.postTitleText) == []
    ensures
      var a := EpisodeRoute(build, slug, page, development);
      && a.Refused? && a.body.statusCode == 404 && a.body.code == "EPISODE_NOT_FOUND"
      && a.body.message == AnimeDetails.NotFoundMessage("Episode", slug)
  {
    Errors.EpisodeNotFoundCode(slug);
  }
}

=== FILE: slugs.dfy ===
/**
 * Slug extraction from absolute links: the patterns `\/(?:anime|episode)\/([^/]+)\/?` and
 * `\/genres\/([^/]+)\/?` applied with `String.prototype.match`, which returns the capture of
 * the leftmost match or nothing. The trailing `\/?` never changes the capture, so it is not
 * modelled.
 */
module Slugs {
  import opened Wrappers
  import opened Text

  const BaseUrl := "https://otakudesu.best"
  const AnimeMarker := "/anime/"
  const EpisodeMarker := "/episode/"
  const GenresMarker := "/genres/"

  /** The alternatives of the detail-link pattern, in the order the regular expression tries them. */
  const DetailMarkers := [AnimeMarker, EpisodeMarker]

  /** The genre-link pattern has a single alternative. */
  const GenreMarkers := [GenresMarker]

  /** Length of the run of non-`/` characters at the start of `s` (a greedy `[^/]*`). */
  function SegmentLength(s: string): (n: nat)
    ensures n <= |s|
    ensures forall i :: 0 <= i < n ==> s[i] != '/'
    ensures n == |s| || s[n] == '/'
  {
    if |s| == 0 || s[0] == '/' then 0 else 1 + SegmentLength(s[1..])
  }

  /** The maximal run of non-`/` characters starting at index `k`. */
  function SegmentAt(url: string, k: nat): string
    requires k <= |url|
  {
    url[k..k + SegmentLength(url[k..])]
  }

  /** `marker([^/]+)` matches at index `i`: the marker occurs there and a non-`/` character follows it. */
  predicate MatchesAt(url: string, marker: string, i: nat) {
    OccursAt(url, marker, i) && i + |marker| < |url| && url[i + |marker|] != '/'
  }

  /** Some alternative of the pattern matches at index `i`. */
  predicate SomeMarkerAt(url: string, markers: seq<string>, i: nat) {
    exists m :: m in markers && MatchesAt(url, m, i)
  }

  /** Index `j` is the leftmost index at or after `from` where the pattern matches. */
  ghost predicate IsFirstMatch(url: string, markers: seq<string>, from: nat, j: nat) {
    from <= j < |url| && SomeMarkerAt(url, markers, j)
    && forall j': nat :: from <= j' < j ==> !SomeMarkerAt(url, markers, j')
  }

  /** Where the capture group starts when the pattern matches at `i`, trying the alternatives in order. */
  function CaptureStart(url: string, markers: seq<string>, i: nat): (r: Option<nat>)
    ensures r.Some? <==> SomeMarkerAt(url, markers, i)
    ensures r.Some? ==> exists m :: m in markers && MatchesAt(url, m, i) && r.value == i + |m|
  {
    if |markers| == 0 then None
    else if MatchesAt(url, markers[0], i) then Some(i + |markers[0]|)
    else
      var r := CaptureStart(url, markers[1..], i);
      assert forall m :: m in markers <==> m == markers[0] || m in markers[1..];
      r
  }

  /** The capture of the leftmost match at or after `from`, or `""` when the pattern does not match. */
  function SlugFrom(url: string, markers: seq<string>, from: nat): (r: string)
    requires from <= |url|
    ensures '/' !in r
    ensures r == [] <==> forall j: nat :: from <= j < |url| ==> !SomeMarkerAt(url, markers, j)
    ensures r != [] ==> exists j: nat :: IsFirstMatch(url, markers, from, j)
                                       && r == SegmentAt(url, CaptureStart(url, markers, j).value)
    decreases |url| - from
  {
    if from == |url| then ""
    else match CaptureStart(url, markers, from)
      case Some(k) =>
        assert IsFirstMatch(url, markers, from, from);
        SegmentAt(url, k)
      case None =>
        var r := SlugFrom(url, markers, from + 1);
        assert r != [] ==> exists j: nat :: IsFirstMatch(url, markers, from, j)
                                            && r == SegmentAt(url, CaptureStart(url, markers, j).value) by {
          if r != [] {
            var j: nat :| IsFirstMatch(url, markers, from + 1, j)
                          && r == SegmentAt(url, CaptureStart(url, markers, j).value);
            FirstMatchEarlier(url, markers, from, j);
          }
        }
        r
  }

  /** A leftmost match after `from` is also leftmost from `from` when nothing matches at `from`. */
  lemma FirstMatchEarlier(url: string, markers: seq<string>, from: nat, j: nat)
    requires IsFirstMatch(url, markers, from + 1, j) && !SomeMarkerAt(url, markers, from)
    ensures IsFirstMatch(url, markers, from, j)
  {
    forall j': nat | from <= j' < j
      ensures !SomeMarkerAt(url, markers, j')
    {
      if j' > from {
        assert from + 1 <= j' < j;
      }
    }
  }

  /**
   * `extractSlug`: the maximal non-`/` run after the first `/anime/` or `/episode/` that is
   * followed by a non-`/` character; `""` when there is none.
   */
  function ExtractSlug(url: string): (r: string)
    ensures '/' !in r
    ensures r == [] <==> forall j: nat :: j < |url| ==> !SomeMarkerAt(url, DetailMarkers, j)
    ensures r != [] ==> exists j: nat :: IsFirstMatch(url, DetailMarkers, 0, j)
                                       && r == SegmentAt(url, CaptureStart(url, DetailMarkers, j).value)
  {
    SlugFrom(url, DetailMarkers, 0)
  }

  /** `extractGenreSlug`: the same rule for the `/genres/` marker. */
  function ExtractGenreSlug(url: string): (r: string)
    ensures '/' !in r
    ensures r == [] <==> forall j: nat :: j < |url| ==> !SomeMarkerAt(url, GenreMarkers, j)
    ensures r != [] ==> exists j: nat :: IsFirstMatch(url, GenreMarkers, 0, j)
                                       && r == SegmentAt(url, CaptureStart(url, GenreMarkers, j).value)
  {
    SlugFrom(url, GenreMarkers, 0)
  }

  /** The page URL the service fetches for a slug: `${baseUrl}${marker}${slug}/`. */
  function PageUrl(marker: string, slug: string): string {
    BaseUrl + marker + slug + "/"
  }

  /** The shape every marker has: `/`, a lower-case letter other than `o`, no inner `/`, a closing `/`. */
  predicate IsMarker(m: string) {
    && |m| >= 3 && m[0] == '/' && 'a' <= m[1] <= 'z' && m[1] != 'o' && m[|m| - 1] == '/'
    && forall i :: 1 <= i < |m| - 1 ==> m[i] != '/'
  }

  /** No marker matches inside the base URL: its only slashes are the two after the scheme. */
  lemma NoMatchInBase(url: string, markers: seq<string>, j: nat)
    requires |BaseUrl| <= |url| && url[..|BaseUrl|] == BaseUrl
    requires forall m :: m in markers ==> IsMarker(m)
    requires j < |BaseUrl|
    ensures !SomeMarkerAt(url, markers, j)
  {
    assert url[j] == BaseUrl[j];
    assert j + 1 < |BaseUrl| ==> url[j + 1] == BaseUrl[j + 1];
    forall m | m in markers && OccursAt(url, m, j)
      ensures false
    {
    }
  }

  /** Once the leftmost match is known, the capture is the segment after its marker. */
  lemma {:induction false} FirstMatchCapture(url: string, markers: seq<string>, from: nat, j: nat)
    requires from <= |url|
    requires IsFirstMatch(url, markers, from, j)
    ensures SlugFrom(url, markers, from) == SegmentAt(url, CaptureStart(url, markers, j).value)
    decreases j - from
  {
    if from < j {
      assert !SomeMarkerAt(url, markers, from);
      assert CaptureStart(url, markers, from).None?;
      FirstMatchCapture(url, markers, from + 1, j);
      assert SlugFrom(url, markers, from) == SlugFrom(url, markers, from + 1);
    } else {
      MatchHere(url, markers, from);
    }
  }

  /** Where the pattern matches at `from` itself, the capture is the segment after that marker. */
  lemma MatchHere(url: string, markers: seq<string>, from: nat)
    requires from < |url| && SomeMarkerAt(url, markers, from)
    ensures SlugFrom(url, markers, from) == SegmentAt(url, CaptureStart(url, markers, from).value)
  {
  }

  /** In a page URL the leftmost match is the marker right after the base URL. */
  lemma PageUrlFirstMatch(markers: seq<string>, marker: string, slug: string)
    requires marker in markers
    requires forall m :: m in markers ==> IsMarker(m)
    requires slug != [] && '/' !in slug
    ensures IsFirstMatch(PageUrl(marker, slug), markers, 0, |BaseUrl|)
  {
    var url := PageUrl(marker, slug);
    var start := |BaseUrl|;
    assert url[..start] == BaseUrl;
    assert url[start..start + |marker|] == marker;
    assert url[start + |marker|] == slug[0];
    assert MatchesAt(url, marker, start);
    forall j: nat | j < start
      ensures !SomeMarkerAt(url, markers, j)
    {
      NoMatchInBase(url, markers, j);
    }
  }

  /** The capture in a page URL is the slug the URL was built from. */
  lemma PageUrlSlug(markers: seq<string>, marker: string, slug: string)
    requires marker in markers
    requires forall m :: m in markers ==> IsMarker(m)
    requires slug != [] && '/' !in slug
    ensures SlugFrom(PageUrl(marker, slug), markers, 0) == slug
  {
    var url := PageUrl(marker, slug);
    var start := |BaseUrl|;
    PageUrlFirstMatch(markers, marker, slug);
    assert SomeMarkerAt(url, markers, start);
    assert IsMarker(marker);
    FirstMatchCapture(url, markers, 0, start);
    assert SlugFrom(url, markers, 0) == SegmentAt(url, CaptureStart(url, markers, start).value);
    CaptureAtBase(markers, marker, slug);
    assert CaptureStart(url, markers, start).value == start + |marker|;
    CaptureIsSlug(marker, slug);
  }

  /** The segment right after the marker of a page URL is its slug. */
  lemma CaptureIsSlug(marker: string, slug: string)
    requires '/' !in slug
    ensures SegmentAt(PageUrl(marker, slug), |BaseUrl| + |marker|) == slug
  {
    var url := PageUrl(marker, slug);
    var k := |BaseUrl| + |marker|;
    assert url == BaseUrl + marker + (slug + "/");
    assert url[k..] == slug + "/";
    SegmentOfSlug(slug);
  }

  /** The segment at the start of `slug + "/"` is the whole slug. */
  lemma SegmentOfSlug(slug: string)
    requires '/' !in slug
    ensures SegmentLength(slug + "/") == |slug|
  {
    var t := slug + "/";
    var n := SegmentLength(t);
    assert t[|slug|] == '/';
  }

  /** In a page URL the capture starts right after the marker the URL was built with. */
  lemma {:induction false} CaptureAtBase(markers: seq<string>, marker: string, slug: string)
    requires forall m :: m in markers ==> IsMarker(m)
    requires IsMarker(marker) && slug != [] && '/' !in slug
    requires SomeMarkerAt(PageUrl(marker, slug), markers, |BaseUrl|)
    ensures CaptureStart(PageUrl(marker, slug), markers, |BaseUrl|) == Some(|BaseUrl| + |marker|)
  {
    var url := PageUrl(marker, slug);
    var m :| m in markers && MatchesAt(url, m, |BaseUrl|);
    if MatchesAt(url, markers[0], |BaseUrl|) {
      SameMarkerAtBase(url, |BaseUrl|, markers[0], marker, slug);
      assert CaptureStart(url, markers, |BaseUrl|) == Some(|BaseUrl| + |markers[0]|);
    } else {
      assert markers[0] in markers;
      assert m in markers[1..];
      assert forall m' :: m' in markers[1..] ==> m' in markers;
      CaptureAtBase(markers[1..], marker, slug);
      assert CaptureStart(url, markers, |BaseUrl|) == CaptureStart(url, markers[1..], |BaseUrl|);
    }
  }

  /** A marker occurring at `k` is measured by the first `/` after `k`. */
  lemma MarkerLength(s: string, m: string, k: nat)
    requires IsMarker(m) && OccursAt(s, m, k)
    ensures SegmentLength(s[k + 1..]) == |m| - 2
  {
    var t := s[k + 1..];
    assert t[|m| - 2] == m[|m| - 1] == '/';
    assert forall i :: 0 <= i < |m| - 2 ==> t[i] == m[i + 1];
  }

  /** Two markers that both occur right after the base URL of a page URL are the same marker. */
  lemma SameMarkerAtBase(url: string, start: nat, m: string, marker: string, slug: string)
    requires url == PageUrl(marker, slug) && start == |BaseUrl|
    requires IsMarker(m) && IsMarker(marker)
    requires OccursAt(url, m, start)
    ensures |m| == |marker| && url[start + |m|..] == slug + "/"
  {
    assert url[start..start + |m|] == m;
    assert url[start..start + |marker|] == marker;
    MarkerLength(url, m, start);
    MarkerLength(url, marker, start);
    assert url == BaseUrl + marker + (slug + "/");
    assert url[start + |marker|..] == slug + "/";
  }

  /** A detail slug survives the round trip through the detail page URL the service builds. */
  lemma DetailUrlRoundTrip(slug: string)
    requires slug != [] && '/' !in slug
    ensures ExtractSlug(PageUrl(AnimeMarker, slug)) == slug
    ensures ExtractSlug(PageUrl(EpisodeMarker, slug)) == slug
  {
    assert IsMarker(AnimeMarker) && IsMarker(EpisodeMarker);
    PageUrlSlug(DetailMarkers, AnimeMarker, slug);
    PageUrlSlug(DetailMarkers, EpisodeMarker, slug);
  }

  /** A genre slug survives the round trip through the genre page URL the service builds. */
  lemma GenreUrlRoundTrip(slug: string)
    requires slug != [] && '/' !in slug
    ensures ExtractGenreSlug(PageUrl(GenresMarker, slug)) == slug
  {
    assert IsMarker(GenresMarker);
    PageUrlSlug(GenreMarkers, GenresMarker, slug);
  }

  /** A link may contain `/anime/` and still yield no slug: nothing follows the marker. */
  lemma MarkerWithoutSegment()
    ensures Contains(BaseUrl + AnimeMarker, AnimeMarker)
    ensures ExtractSlug(BaseUrl + AnimeMarker) == ""
  {
    var url := BaseUrl + AnimeMarker;
    assert OccursAt(url, AnimeMarker, |BaseUrl|);
    forall j: nat | j < |url|
      ensures !SomeMarkerAt(url, DetailMarkers, j)
    {
      if j < |BaseUrl| {
        assert IsMarker(AnimeMarker) && IsMarker(EpisodeMarker);
        NoMatchInBase(url, DetailMarkers, j);
      }
    }
  }
}

=== FILE: text.dfy ===
/**
 * The string primitives the scraper leans on: JavaScript's `trim`, the `\s` and `\d`
 * character classes, ASCII case folding, `includes`, `indexOf`, `replace` with a string
 * pattern, and the decimal rendering of integers inside template literals.
 */
module Text {
  import opened Wrappers

  /**
   * White space as `String.prototype.trim` and the `\s` class see it: the ECMAScript
   * WhiteSpace and LineTerminator characters (tab, vertical tab, form feed, space, no-break
   * space, byte-order mark, the other space separators, line feed, carriage return and the two
   * Unicode line terminators).
   */
  predicate IsSpace(c: char) {
    c == ' ' || c == '\t' || c == '\n' || c == '\r' || c == '\U{000B}' || c == '\U{000C}'
    || c == '\U{00A0}' || c == '\U{1680}' || ('\U{2000}' <= c <= '\U{200A}')
    || c == '\U{2028}' || c == '\U{2029}' || c == '\U{202F}' || c == '\U{205F}'
    || c == '\U{3000}' || c == '\U{FEFF}'
  }

  /** The characters a regular-expression `.` refuses to match. */
  predicate IsLineTerminator(c: char) {
    c == '\n' || c == '\r' || c == '\U{2028}' || c == '\U{2029}'
  }

  /** JavaScript `value || fallback` on an optional string: absent and empty both give the fallback. */
  function Or(value: Option<string>, fallback: string): (r: string)
    ensures r == fallback || (value.Some? && r == value.value && r != [])
  {
    if value.Some? && value.value != [] then value.value else fallback
  }

  /** The `\d` class. */
  predicate IsDigit(c: char) {
    '0' <= c <= '9'
  }

  /** Index just past the run of white space that starts at `from` (a greedy `\s*`). */
  function SkipSpaces(s: string, from: nat): (k: nat)
    requires from <= |s|
    ensures from <= k <= |s|
    ensures forall i :: from <= i < k ==> IsSpace(s[i])
    ensures k == |s| || !IsSpace(s[k])
    decreases |s| - from
  {
    if from < |s| && IsSpace(s[from]) then SkipSpaces(s, from + 1) else from
  }

  /** Index just past the run of decimal digits that starts at `from` (a greedy `\d*`). */
  function SkipDigits(s: string, from: nat): (k: nat)
    requires from <= |s|
    ensures from <= k <= |s|
    ensures forall i :: from <= i < k ==> IsDigit(s[i])
    ensures k == |s| || !IsDigit(s[k])
    decreases |s| - from
  {
    if from < |s| && IsDigit(s[from]) then SkipDigits(s, from + 1) else from
  }

  /** Index just past the last non-space character at or after `lo`, or `lo` if there is none. */
  function TrimmedEnd(s: string, lo: nat): (hi: nat)
    requires lo <= |s|
    ensures lo <= hi <= |s|
    ensures forall i :: hi <= i < |s| ==> IsSpace(s[i])
    ensures hi == lo || !IsSpace(s[hi - 1])
    decreases |s|
  {
    if lo < |s| && IsSpace(s[|s| - 1]) then TrimmedEnd(s[..|s| - 1], lo) else |s|
  }

  /** `String.prototype.trim`. */
  function Trim(s: string): (r: string)
    ensures |r| <= |s|
    ensures r == [] || (!IsSpace(r[0]) && !IsSpace(r[|r| - 1]))
    ensures r == [] <==> forall i :: 0 <= i < |s| ==> IsSpace(s[i])
    ensures exists lo: nat, hi: nat ::
              lo <= hi <= |s| && r == s[lo..hi]
              && (forall i :: 0 <= i < lo ==> IsSpace(s[i])) && (forall i :: hi <= i < |s| ==> IsSpace(s[i]))
  {
    var lo := SkipSpaces(s, 0);
    var hi := TrimmedEnd(s, lo);
    assert hi > lo ==> !IsSpace(s[lo..hi][0]) && !IsSpace(s[lo..hi][hi - lo - 1]);
    s[lo..hi]
  }

  /** A string with no white space at either end is its own trim. */
  lemma TrimOfTrimmed(s: string)
    requires s == [] || (!IsSpace(s[0]) && !IsSpace(s[|s| - 1]))
    ensures Trim(s) == s
  {
  }

  /** Trimming a string that does not end with white space only removes a prefix. */
  lemma TrimIsSuffix(s: string)
    requires s == [] || !IsSpace(s[|s| - 1])
    ensures |Trim(s)| <= |s| && Trim(s) == s[|s| - |Trim(s)|..]
  {
  }

  /** ASCII upper case to lower case; every other character is unchanged. */
  function LowerChar(c: char): char {
    if 'A' <= c <= 'Z' then (c as int + 32) as char else c
  }

  /** ASCII lower case to upper case; every other character is unchanged. */
  function UpperChar(c: char): char {
    if 'a' <= c <= 'z' then (c as int - 32) as char else c
  }

  /** `String.prototype.toLowerCase` on the ASCII letters. */
  function ToLower(s: string): (r: string)
    ensures |r| == |s|
  {
    seq(|s|, i requires 0 <= i < |s| => LowerChar(s[i]))
  }

  /** `String.prototype.toUpperCase` on the ASCII letters. */
  function ToUpper(s: string): (r: string)
    ensures |r| == |s|
  {
    seq(|s|, i requires 0 <= i < |s| => UpperChar(s[i]))
  }

  /** Case-insensitive equality of two strings (the `i` flag of a regular expression). */
  predicate EqualsIgnoreCase(a: string, b: string) {
    ToLower(a) == ToLower(b)
  }

  /** `s` starts with `p`, ignoring ASCII case. */
  predicate StartsWithIgnoreCase(s: string, p: string) {
    |p| <= |s| && EqualsIgnoreCase(s[..|p|], p)
  }

  /** `s` ends with `p`, ignoring ASCII case. */
  predicate EndsWithIgnoreCase(s: string, p: string) {
    |p| <= |s| && EqualsIgnoreCase(s[|s| - |p|..], p)
  }

  /** `t` occurs in `s` starting at index `j`. */
  predicate OccursAt(s: string, t: string, j: nat) {
    j + |t| <= |s| && s[j..j + |t|] == t
  }

  /** `String.prototype.includes`. */
  predicate Contains(s: string, t: string) {
    exists j: nat | j <= |s| :: OccursAt(s, t, j)
  }

  /** `String.prototype.indexOf(t, from)`: the leftmost occurrence of `t` at or after `from`. */
  function IndexOf(s: string, t: string, from: nat): (r: Option<nat>)
    requires from <= |s|
    ensures r.Some? ==> from <= r.value && OccursAt(s, t, r.value)
    ensures forall j: nat :: from <= j && (r.None? || j < r.value) ==> !OccursAt(s, t, j)
    decreases |s| - from
  {
    if OccursAt(s, t, from) then Some(from)
    else if from == |s| then None
    else IndexOf(s, t, from + 1)
  }

  /** Searching from the start finds an occurrence exactly when the string contains one. */
  lemma IndexOfFindsContained(s: string, t: string)
    ensures IndexOf(s, t, 0).Some? <==> Contains(s, t)
  {
    if Contains(s, t) {
      var j: nat :| j <= |s| && OccursAt(s, t, j);
      assert IndexOf(s, t, 0).Some?;
    }
  }

  /** `s.replace(t, u)` with a string pattern: only the leftmost occurrence is replaced. */
  function ReplaceFirst(s: string, t: string, u: string): (r: string)
    ensures !Contains(s, t) ==> r == s
    ensures forall i: nat :: OccursAt(s, t, i) && (forall j: nat :: j < i ==> !OccursAt(s, t, j))
              ==> r == s[..i] + u + s[i + |t|..]
  {
    IndexOfFindsContained(s, t);
    match IndexOf(s, t, 0)
    case Some(i) => s[..i] + u + s[i + |t|..]
    case None => s
  }

  /** The decimal digit character for `d`. */
  function DigitChar(d: nat): (c: char)
    requires d < 10
    ensures IsDigit(c)
  {
    ('0' as int + d) as char
  }

  /** The value of the decimal digit `c`. */
  function DigitValue(c: char): (d: nat)
    requires IsDigit(c)
    ensures d < 10
  {
    c as int - '0' as int
  }

  /** Decimal rendering of a natural number, as a template literal prints it. */
  function NatToString(n: nat): (r: string)
    ensures |r| > 0
    ensures forall i :: 0 <= i < |r| ==> IsDigit(r[i])
  {
    if n < 10 then [DigitChar(n)] else NatToString(n / 10) + [DigitChar(n % 10)]
  }

  /** Decimal rendering of an integer, with a leading `-` when negative (`Number.prototype.toString`). */
  function IntToString(n: int): (r: string)
    ensures |r| > 0
    ensures n >= 0 ==> r == NatToString(n)
    ensures n < 0 ==> r[0] == '-' && r[1..] == NatToString(-n)
  {
    if n < 0 then "-" + NatToString(-n) else NatToString(n)
  }

  /** The value of a string of decimal digits. */
  function DigitsValue(s: string): nat
    requires forall i :: 0 <= i < |s| ==> IsDigit(s[i])
  {
    if |s| == 0 then 0 else 10 * DigitsValue(s[..|s| - 1]) + DigitValue(s[|s| - 1])
  }

  /** Reading back the decimal rendering of `n` gives `n`: the rendering loses nothing. */
  lemma {:induction false} NatToStringRoundTrip(n: nat)
    ensures DigitsValue(NatToString(n)) == n
  {
    var r := NatToString(n);
    if n >= 10 {
      NatToStringRoundTrip(n / 10);
      assert r[..|r| - 1] == NatToString(n / 10);
    }
  }

  /** Distinct numbers have distinct decimal renderings. */
  lemma NatToStringInjective(m: nat, n: nat)
    requires NatToString(m) == NatToString(n)
    ensures m == n
  {
    NatToStringRoundTrip(m);
    NatToStringRoundTrip(n);
  }

  /** The middle of `a + m + b` is determined by the whole when the ends are fixed. */
  lemma InfixCancel(a: string, m: string, n: string, b: string)
    requires a + m + b == a + n + b
    ensures m == n
  {
    assert |m| == |n|;
    assert m == (a + m + b)[|a|..|a| + |m|];
    assert n == (a + n + b)[|a|..|a| + |n|];
  }

  /** What follows a fixed prefix is determined by the whole. */
  lemma PrefixCancel(a: string, m: string, n: string)
    requires a + m == a + n
    ensures m == n
  {
    assert m == (a + m)[|a|..];
    assert n == (a + n)[|a|..];
  }
}

=== FILE: titles.dfy ===
/**
 * The title rules of the detail pages, each a leftmost regular-expression match written out
 * as a deterministic scan. Every pattern here is free of real backtracking: each `\s*` or
 * `\d+` is followed by a character its class cannot contain, so only the greedy run can
 * succeed, and the `i` flag folds exactly the ASCII letters these patterns spell.
 */
module Titles {
  import opened Wrappers
  import opened Text

  /** `w` (written in lower case) occurs at `i` in `s`, ignoring case. */
  predicate WordAt(s: string, w: string, i: nat) {
    i + |w| <= |s| && EqualsIgnoreCase(s[i..i + |w|], w)
  }

  /** The leftmost position at or after `from` where `matches` holds. */
  function FirstFrom(s: string, matches: (string, nat) -> bool, from: nat): (r: Option<nat>)
    requires from <= |s|
    ensures r.Some? ==> from <= r.value <= |s| && matches(s, r.value)
    ensures forall p: nat :: from <= p <= |s| && (r.None? || p < r.value) ==> !matches(s, p)
    decreases |s| - from
  {
    if matches(s, from) then Some(from)
    else if from == |s| then None
    else FirstFrom(s, matches, from + 1)
  }

  /** The leftmost match is at `at` when it matches there and nowhere before. */
  lemma FirstFromIs(s: string, matches: (string, nat) -> bool, at: nat)
    requires at <= |s| && matches(s, at)
    requires forall p: nat :: p < at ==> !matches(s, p)
    ensures FirstFrom(s, matches, 0) == Some(at)
  {
  }

  /** `p` is the leftmost position where `matches` holds: it matches there and nowhere before. */
  predicate Leftmost(s: string, matches: (string, nat) -> bool, p: nat) {
    p <= |s| && matches(s, p) && forall q: nat :: q < p ==> !matches(s, q)
  }

  /** The position the scan from the start finds is the only leftmost match. */
  lemma FoundIsLeftmost(s: string, matches: (string, nat) -> bool, p: nat)
    requires FirstFrom(s, matches, 0) == Some(p)
    ensures Leftmost(s, matches, p)
    ensures forall q: nat :: Leftmost(s, matches, q) ==> q == p
  {
  }

  /** When the scan from the start finds nothing, there is no leftmost match. */
  lemma NotFoundNoLeftmost(s: string, matches: (string, nat) -> bool)
    requires FirstFrom(s, matches, 0).None?
    ensures forall q: nat :: !Leftmost(s, matches, q)
  {
  }

  /** Skipping white space from anywhere inside a run of white space ends at the same place. */
  lemma {:induction false} SkipSpacesThrough(s: string, b: nat, p: nat)
    requires b <= p <= |s|
    requires forall i :: b <= i < p ==> IsSpace(s[i])
    ensures SkipSpaces(s, b) == SkipSpaces(s, p)
    decreases p - b
  {
    if b < p {
      SkipSpacesThrough(s, b + 1, p);
    }
  }

  // ---------------------------------------------------------------------------------------
  // `\s*\(Episode\s*\d+\s*[-–]\s*\d+\)\s*` with the `i` flag: the episode-range group.

  /** The end of a match of the episode-range pattern that starts at `p`. */
  function RangeEnd(s: string, p: nat): (r: Option<nat>)
    requires p <= |s|
    ensures r.Some? ==> p < r.value <= |s|
  {
    GroupEnd(s, SkipSpaces(s, p))
  }

  /** The end of a range group whose `(` is expected at `a`, with the white space after it. */
  function GroupEnd(s: string, a: nat): (r: Option<nat>)
    requires a <= |s|
    ensures r.Some? ==> a < r.value <= |s|
  {
    if !(a < |s| && s[a] == '(' && WordAt(s, "episode", a + 1)) then None
    else
      var b := SkipSpaces(s, a + 8);
      var c := SkipDigits(s, b);
      if c == b then None
      else
        var d := SkipSpaces(s, c);
        if !(d < |s| && (s[d] == '-' || s[d] == '\U{2013}')) then None
        else
          var e := SkipSpaces(s, d + 1);
          var f := SkipDigits(s, e);
          if f == e || f == |s| || s[f] != ')' then None
          else Some(SkipSpaces(s, f + 1))
  }

  predicate RangeAt(s: string, p: nat) {
    p <= |s| && RangeEnd(s, p).Some?
  }

  /** The h1 text with its first episode-range group (and the white space around it) removed. */
  function RemoveRange(s: string): (r: string)
    ensures |r| <= |s|
    ensures (forall p: nat :: p <= |s| ==> !RangeAt(s, p)) ==> r == s
    ensures (exists p: nat :: p <= |s| && RangeAt(s, p)) ==> |r| < |s|
    ensures forall p: nat :: Leftmost(s, RangeAt, p) ==> r == s[..p] + s[RangeEnd(s, p).value..]
  {
    match FirstFrom(s, RangeAt, 0)
    case None =>
      NotFoundNoLeftmost(s, RangeAt);
      s
    case Some(p) =>
      FoundIsLeftmost(s, RangeAt, p);
      var e := RangeEnd(s, p).value;
      assert |s[..p] + s[e..]| < |s|;
      s[..p] + s[e..]
  }

  /** A text without `(` has no episode-range group and is left alone. */
  lemma RemoveRangeWithoutParen(s: string)
    requires '(' !in s
    ensures RemoveRange(s) == s
  {
    forall p: nat | p <= |s|
      ensures !RangeAt(s, p)
    {
      var a := SkipSpaces(s, p);
      assert a < |s| ==> s[a] in s;
    }
  }

  /** `s` is empty or ends with a character other than white space. */
  predicate NoTrailingSpace(s: string) {
    s == [] || !IsSpace(s[|s| - 1])
  }

  /**
   * Removing the leftmost range group keeps a text free of trailing white space: the match
   * swallows the white space before it, since starting one position earlier inside that white
   * space would match too.
   */
  lemma RemoveRangeNoTrailingSpace(s: string)
    requires NoTrailingSpace(s)
    ensures NoTrailingSpace(RemoveRange(s))
  {
    var m := FirstFrom(s, RangeAt, 0);
    if m.Some? {
      var p := m.value;
      var e := RangeEnd(s, p).value;
      assert RemoveRange(s) == s[..p] + s[e..];
      if e == |s| && p > 0 && IsSpace(s[p - 1]) {
        RangeAtEarlier(s, p);
        assert false;
      }
      CutKeepsNoTrailingSpace(s, p, e);
    }
  }

  /** Cutting `s[p..e]` out leaves no trailing white space, provided a cut to the end leaves none. */
  lemma CutKeepsNoTrailingSpace(s: string, p: nat, e: nat)
    requires NoTrailingSpace(s) && p <= e <= |s|
    requires e == |s| && p > 0 ==> !IsSpace(s[p - 1])
    ensures NoTrailingSpace(s[..p] + s[e..])
  {
    var r := s[..p] + s[e..];
    if e < |s| {
      assert r[|r| - 1] == s[|s| - 1];
    } else {
      assert r == s[..p];
    }
  }

  /** A range match preceded by white space also matches one position earlier. */
  lemma RangeAtEarlier(s: string, p: nat)
    requires 0 < p <= |s| && IsSpace(s[p - 1]) && RangeAt(s, p)
    ensures RangeAt(s, p - 1)
  {
    SkipSpacesThrough(s, p - 1, p);
  }

  // ---------------------------------------------------------------------------------------
  // `(\s*(Subtitle Indonesia|Sub Indo))+$` with the `i` flag: the trailing release suffixes.

  const SubtitleIndonesia: string := "subtitle indonesia"
  const SubIndo: string := "sub indo"

  /** The end of the suffix word at `k`; the alternatives differ at their fourth letter, so at most one fits. */
  function SuffixWordEnd(s: string, k: nat): (r: Option<nat>)
    ensures r.Some? ==> k < r.value <= |s|
  {
    if WordAt(s, SubtitleIndonesia, k) then Some(k + |SubtitleIndonesia|)
    else if WordAt(s, SubIndo, k) then Some(k + |SubIndo|)
    else None
  }

  /** `s[i..]` is a run of one or more suffix words, each preceded by optional white space. */
  predicate SuffixRun(s: string, i: nat)
    decreases |s| - i
  {
    i <= |s| &&
    var k := SkipSpaces(s, i);
    match SuffixWordEnd(s, k)
    case None => false
    case Some(e) => e == |s| || SuffixRun(s, e)
  }

  /** The text with its leftmost-starting trailing run of suffixes removed. */
  function StripSuffixes(s: string): (r: string)
    ensures |r| <= |s| && r == s[..|r|]
    ensures r == s ==> forall p: nat :: p <= |s| ==> !SuffixRun(s, p)
    ensures (forall p: nat :: p <= |s| ==> !SuffixRun(s, p)) ==> r == s
    ensures r != s ==> SuffixRun(s, |r|) && forall p: nat :: p < |r| ==> !SuffixRun(s, p)
  {
    match FirstFrom(s, SuffixRun, 0)
    case None =>
      assert forall p: nat :: p <= |s| ==> !SuffixRun(s, p);
      s
    case Some(p) =>
      assert SuffixRun(s, p);
      assert p < |s| by { assert !SuffixRun(s, |s|) by { assert SkipSpaces(s, |s|) == |s|; } }
      assert |s[..p]| < |s|;
      assert !(forall p: nat :: p <= |s| ==> !SuffixRun(s, p));
      s[..p]
  }

  /** A suffix word spelled out at `q`, ending at `hi`, is recognised there. */
  lemma SuffixWordAt(t: string, q: nat, hi: nat, w: string)
    requires w == SubtitleIndonesia || w == SubIndo
    requires q + |w| == hi <= |t| && EqualsIgnoreCase(t[q..hi], w)
    ensures SkipSpaces(t, q) == q
    ensures SuffixWordEnd(t, q) == Some(hi)
  {
    assert ToLower(t[q..hi])[0] == 's';
    assert LowerChar(t[q]) == 's';
    if w == SubIndo {
      assert ToLower(t[q..hi])[3] == ' ';
      assert LowerChar(t[q + 3]) == ' ';
      assert !WordAt(t, SubtitleIndonesia, q) by {
        if q + 18 <= |t| {
          assert ToLower(t[q..q + 18])[3] == LowerChar(t[q + 3]);
        }
      }
    }
  }

  /** The title-normalisation pipeline of the anime page. */
  function NormalizeAnimeTitle(h1Text: string): (r: string)
    ensures |r| <= |h1Text|
    ensures r == [] || (!IsSpace(r[0]) && !IsSpace(r[|r| - 1]))
  {
    Trim(StripSuffixes(RemoveRange(Trim(h1Text))))
  }

  /**
   * A normalised title never ends with a release suffix: had it ended with one, the suffix
   * run would have started earlier, at that word.
   */
  lemma NormalizedTitleHasNoSuffix(h1Text: string)
    ensures !EndsWithIgnoreCase(NormalizeAnimeTitle(h1Text), SubtitleIndonesia)
    ensures !EndsWithIgnoreCase(NormalizeAnimeTitle(h1Text), SubIndo)
  {
    var t := RemoveRange(Trim(h1Text));
    RemoveRangeNoTrailingSpace(Trim(h1Text));
    var u := StripSuffixes(t);
    StrippedHasNoSuffix(t, SubtitleIndonesia);
    StrippedHasNoSuffix(t, SubIndo);
  }

  /** After the suffix run is cut off and the rest trimmed, no suffix word is left at the end. */
  lemma StrippedHasNoSuffix(t: string, w: string)
    requires w == SubtitleIndonesia || w == SubIndo
    requires NoTrailingSpace(t)
    ensures !EndsWithIgnoreCase(Trim(StripSuffixes(t)), w)
  {
    var u := StripSuffixes(t);
    if EndsWithIgnoreCase(Trim(u), w) {
      var q := EndingWordStartsRun(t, w);
    }
  }

  /** A suffix word left at the end of the trimmed remainder would itself start a suffix run. */
  lemma EndingWordStartsRun(t: string, w: string) returns (q: nat)
    requires w == SubtitleIndonesia || w == SubIndo
    requires NoTrailingSpace(t)
    requires EndsWithIgnoreCase(Trim(StripSuffixes(t)), w)
    ensures q < |StripSuffixes(t)| && SuffixRun(t, q)
  {
    q := EndingWordOfPrefix(t, StripSuffixes(t), w);
  }

  /** The same for any prefix `u` of `t` that is all of `t` or is followed by a suffix run. */
  lemma EndingWordOfPrefix(t: string, u: string, w: string) returns (q: nat)
    requires w == SubtitleIndonesia || w == SubIndo
    requires NoTrailingSpace(t)
    requires |u| <= |t| && u == t[..|u|]
    requires u == t || SuffixRun(t, |u|)
    requires EndsWithIgnoreCase(Trim(u), w)
    ensures q < |u| && SuffixRun(t, q)
  {
    var hi := TrimmedEndsWith(u, w);
    q := hi - |w|;
    SliceOfPrefix(t, u, q, hi);
    forall i | hi <= i < |u|
      ensures IsSpace(t[i])
    {
      assert t[..|u|][i] == t[i];
    }
    if u == t {
      assert hi == |t|;
      SuffixRunAtWord(t, q, hi, w);
    } else {
      SuffixRunEarlier(t, hi, |u|);
      SuffixRunAtWord(t, q, hi, w);
    }
  }

  /** A slice of a prefix of `t` is the same slice of `t`. */
  lemma SliceOfPrefix(t: string, u: string, a: nat, b: nat)
    requires |u| <= |t| && u == t[..|u|] && a <= b <= |u|
    ensures t[a..b] == u[a..b]
  {
  }

  /** Where a trimmed text ends with `w`: the end of `w` in the untrimmed text, followed only by white space. */
  lemma TrimmedEndsWith(u: string, w: string) returns (hi: nat)
    requires EndsWithIgnoreCase(Trim(u), w)
    ensures |w| <= hi <= |u| && EqualsIgnoreCase(u[hi - |w|..hi], w)
    ensures forall i :: hi <= i < |u| ==> IsSpace(u[i])
  {
    var lo := SkipSpaces(u, 0);
    hi := TrimmedEnd(u, lo);
    var r := Trim(u);
    assert r == u[lo..hi];
    assert r[|r| - |w|..] == u[hi - |w|..hi];
  }

  /** A suffix run that starts after white space also starts where that white space does. */
  lemma SuffixRunEarlier(t: string, hi: nat, p: nat)
    requires hi <= p <= |t| && SuffixRun(t, p)
    requires forall i :: hi <= i < p ==> IsSpace(t[i])
    ensures SuffixRun(t, hi)
  {
    SkipSpacesThrough(t, hi, p);
  }

  /** A suffix word followed by the end of the text or by a suffix run starts a suffix run. */
  lemma SuffixRunAtWord(t: string, q: nat, hi: nat, w: string)
    requires w == SubtitleIndonesia || w == SubIndo
    requires q + |w| == hi <= |t| && EqualsIgnoreCase(t[q..hi], w)
    requires hi == |t| || SuffixRun(t, hi)
    ensures SuffixRun(t, q)
  {
    SuffixWordAt(t, q, hi, w);
  }

  // ---------------------------------------------------------------------------------------
  // `Episode\s*(\d+)` with the `i` flag: the label of an episode-list entry.

  const EpisodeWord: string := "episode"

  /** A word with no white space cannot occur across a white-space character. */
  lemma WordAtNoSpace(s: string, w: string, i: nat, j: nat)
    requires i <= j < i + |w| && j < |s| && IsSpace(s[j])
    requires forall k :: 0 <= k < |w| ==> !IsSpace(w[k]) && LowerChar(w[k]) == w[k]
    ensures !WordAt(s, w, i)
  {
    if i + |w| <= |s| {
      var a := ToLower(s[i..i + |w|]);
      assert IsSpace(a[j - i]);
      assert !IsSpace(ToLower(w)[j - i]);
    }
  }

  /** `Episode` followed by optional white space and a digit starts at `p`. */
  predicate EpisodeNumberAt(s: string, p: nat) {
    WordAt(s, EpisodeWord, p) && SkipSpaces(s, p + 7) < |s| && IsDigit(s[SkipSpaces(s, p + 7)])
  }

  /** The episode label: the digits after the first `Episode`, else the whole (trimmed) link text. */
  function EpisodeLabel(text: string): (r: string)
    ensures r == text || (r != [] && forall i :: 0 <= i < |r| ==> IsDigit(r[i]))
    ensures (forall p: nat :: p <= |text| ==> !EpisodeNumberAt(text, p)) ==> r == text
    ensures forall p: nat :: Leftmost(text, EpisodeNumberAt, p)
              ==> r == text[SkipSpaces(text, p + 7)..SkipDigits(text, SkipSpaces(text, p + 7))]
  {
    match FirstFrom(text, EpisodeNumberAt, 0)
    case None =>
      assert forall p: nat :: p <= |text| ==> !EpisodeNumberAt(text, p);
      NotFoundNoLeftmost(text, EpisodeNumberAt);
      text
    case Some(p) =>
      FoundIsLeftmost(text, EpisodeNumberAt, p);
      assert EpisodeNumberAt(text, p);
      var d := SkipSpaces(text, p + 7);
      text[d..SkipDigits(text, d)]
  }

  /** A run of `k` digits at `d`, ended by the end of the text or a non-digit, is what `\d+` takes. */
  lemma {:induction false} SkipDigitsOver(s: string, d: nat, k: nat)
    requires d + k <= |s|
    requires forall i :: d <= i < d + k ==> IsDigit(s[i])
    requires d + k == |s| || !IsDigit(s[d + k])
    ensures SkipDigits(s, d) == d + k
    decreases k
  {
    if k > 0 {
      SkipDigitsOver(s, d + 1, k - 1);
    }
  }

  /** Where the text before the word is free of the word and ends in white space (or is empty), no earlier match is possible. */
  lemma NoEarlierWord(pre: string, s: string, p: nat)
    requires pre == [] || IsSpace(pre[|pre| - 1])
    requires forall i: nat :: !WordAt(pre, EpisodeWord, i)
    requires |pre| <= |s| && s[..|pre|] == pre && p < |pre|
    ensures !WordAt(s, EpisodeWord, p)
  {
    if p + 7 <= |pre| {
      SliceOfPrefix(s, pre, p, p + 7);
      assert !WordAt(pre, EpisodeWord, p);
    } else {
      assert s[|pre| - 1] == pre[|pre| - 1];
      WordAtNoSpace(s, EpisodeWord, p, |pre| - 1);
    }
  }

  /**
   * The label of a link reading `Episode <n>` is the decimal rendering of `n`, whatever free
   * text comes before the word (as long as it does not contain the word itself) or after the
   * number (as long as it does not continue the digits).
   */
  lemma EpisodeLabelOfNumber(pre: string, n: nat, post: string)
    requires pre == [] || IsSpace(pre[|pre| - 1])
    requires forall i: nat :: !WordAt(pre, EpisodeWord, i)
    requires post == [] || !IsDigit(post[0])
    ensures EpisodeLabel(pre + "Episode " + NatToString(n) + post) == NatToString(n)
  {
    var digits := NatToString(n);
    var s := pre + "Episode " + digits + post;
    var at := |pre|;
    assert s[..|pre|] == pre;
    forall p: nat | p < at
      ensures !EpisodeNumberAt(s, p)
    {
      NoEarlierWord(pre, s, p);
    }
    assert s[at..at + 8] == "Episode ";
    assert s[at + 8..at + 8 + |digits|] == digits;
    assert at + 8 + |digits| == |s| || !IsDigit(s[at + 8 + |digits|]) by {
      if at + 8 + |digits| < |s| {
        assert s[at + 8 + |digits|] == post[0];
      }
    }
    EpisodeLabelAt(s, at, digits);
  }

  /** `Episode`, one white-space character, then a digit: a match whose white space ends right after that character. */
  lemma EpisodeWordBefore(s: string, at: nat)
    requires at + 8 < |s| && s[at..at + 7] == "Episode" && IsSpace(s[at + 7]) && IsDigit(s[at + 8])
    ensures EpisodeNumberAt(s, at) && SkipSpaces(s, at + 7) == at + 8
  {
    assert WordAt(s, EpisodeWord, at);
  }

  /** The label of a text whose first `Episode ` is at `at`, followed by the digits `digits`. */
  lemma EpisodeLabelAt(s: string, at: nat, digits: string)
    requires at + 8 + |digits| <= |s|
    requires s[at..at + 8] == "Episode " && s[at + 8..at + 8 + |digits|] == digits
    requires digits != [] && forall i :: 0 <= i < |digits| ==> IsDigit(digits[i])
    requires at + 8 + |digits| == |s| || !IsDigit(s[at + 8 + |digits|])
    requires forall p: nat :: p < at ==> !EpisodeNumberAt(s, p)
    ensures EpisodeLabel(s) == digits
  {
    assert s[at + 8] == digits[0];
    assert s[at..at + 7] == s[at..at + 8][..7] && s[at + 7] == s[at..at + 8][7];
    EpisodeWordBefore(s, at);
    forall i | at + 8 <= i < at + 8 + |digits|
      ensures IsDigit(s[i])
    {
      assert s[i] == digits[i - at - 8];
    }
    SkipDigitsOver(s, at + 8, |digits|);
    FirstFromIs(s, EpisodeNumberAt, at);
    EpisodeLabelFound(s, at, at + 8 + |digits|);
  }

  /** Once the first match and the ends of its white space and digits are known, the label is the digits between. */
  lemma EpisodeLabelFound(s: string, at: nat, e: nat)
    requires FirstFrom(s, EpisodeNumberAt, 0) == Some(at)
    requires at + 8 <= e <= |s|
    requires SkipSpaces(s, at + 7) == at + 8 && SkipDigits(s, at + 8) == e
    ensures EpisodeLabel(s) == s[at + 8..e]
  {
  }

  // ---------------------------------------------------------------------------------------
  // `\s*Episode\s*\d+.*$` with the `i` flag: the anime title inside an episode title.

  /**
   * The episode tail starts at `p`: optional white space, `Episode`, optional white space (line
   * breaks included), a digit, and no line break from that digit to the end.
   */
  predicate EpisodeTailAt(s: string, p: nat) {
    p <= |s| && EpisodeNumberAt(s, SkipSpaces(s, p))
    && forall i :: SkipSpaces(s, SkipSpaces(s, p) + 7) <= i < |s| ==> !IsLineTerminator(s[i])
  }

  /** The anime title: the episode title cut before its leftmost episode tail, trimmed. */
  function AnimeTitleOf(title: string): (r: string)
    ensures r == [] || (!IsSpace(r[0]) && !IsSpace(r[|r| - 1]))
    ensures (forall p: nat :: p <= |title| ==> !EpisodeTailAt(title, p)) ==> r == Trim(title)
    ensures forall p: nat :: Leftmost(title, EpisodeTailAt, p) ==> r == Trim(title[..p])
  {
    match FirstFrom(title, EpisodeTailAt, 0)
    case None =>
      assert forall p: nat :: p <= |title| ==> !EpisodeTailAt(title, p);
      NotFoundNoLeftmost(title, EpisodeTailAt);
      Trim(title)
    case Some(p) =>
      FoundIsLeftmost(title, EpisodeTailAt, p);
      Trim(title[..p])
  }

  /**
   * The anime title of `<name> Episode<gap><n><rest>` is the trimmed name, provided the name
   * does not itself contain the word, does not end in white space, and the rest holds no line
   * break. The gap is any one white-space character, a line break included: only the text from
   * the number on must stay on one line.
   */
  lemma AnimeTitleOfEpisode(name: string, gap: char, n: nat, rest: string)
    requires NoTrailingSpace(name) && IsSpace(gap)
    requires forall i: nat :: !WordAt(name, EpisodeWord, i)
    requires forall i :: 0 <= i < |rest| ==> !IsLineTerminator(rest[i])
    ensures AnimeTitleOf(name + " Episode" + [gap] + NatToString(n) + rest) == Trim(name)
  {
    var s := name + " Episode" + [gap] + NatToString(n) + rest;
    var at := |name|;
    forall p: nat | p < at
      ensures !EpisodeTailAt(s, p)
    {
      NoTailInName(name, s, p);
    }
    TailAfterName(name, gap, n, rest);
    FirstFromIs(s, EpisodeTailAt, at);
    assert s[..at] == name;
  }

  /** The title `<name> Episode <n>` is already trimmed, and its anime title is the name itself. */
  lemma NamedEpisodeTitle(name: string, n: nat)
    requires name != [] && !IsSpace(name[0]) && NoTrailingSpace(name)
    requires forall i: nat :: !WordAt(name, EpisodeWord, i)
    ensures var t := name + " Episode " + NatToString(n);
            Trim(t) == t && AnimeTitleOf(t) == name
  {
    NamedEpisodeTitleTrimmed(name, NatToString(n));
    NamedEpisodeTitleName(name, n);
  }

  lemma NamedEpisodeTitleTrimmed(name: string, digits: string)
    requires name != [] && !IsSpace(name[0])
    requires digits != [] && IsDigit(digits[|digits| - 1])
    ensures Trim(name + " Episode " + digits) == name + " Episode " + digits
  {
    var t := name + " Episode " + digits;
    assert t[0] == name[0];
    assert t[|t| - 1] == digits[|digits| - 1];
    TrimOfTrimmed(t);
  }

  lemma NamedEpisodeTitleName(name: string, n: nat)
    requires name != [] && !IsSpace(name[0]) && NoTrailingSpace(name)
    requires forall i: nat :: !WordAt(name, EpisodeWord, i)
    ensures AnimeTitleOf(name + " Episode " + NatToString(n)) == name
  {
    var digits := NatToString(n);
    assert name + " Episode" + [' '] + digits + [] == name + " Episode " + digits;
    AnimeTitleOfEpisode(name, ' ', n, []);
    TrimOfTrimmed(name);
  }

  /** A line break between `Episode` and the number does not stop the tail from being cut. */
  lemma AnimeTitleAcrossLineBreak(name: string, n: nat)
    requires NoTrailingSpace(name)
    requires forall i: nat :: !WordAt(name, EpisodeWord, i)
    ensures AnimeTitleOf(name + " Episode" + "\n" + NatToString(n)) == Trim(name)
  {
    AnimeTitleOfEpisode(name, '\n', n, []);
    assert name + " Episode" + "\n" + NatToString(n) == name + " Episode" + ['\n'] + NatToString(n) + [];
  }

  /** No episode tail starts inside a name that does not contain the word and is followed by white space. */
  lemma NoTailInName(name: string, s: string, p: nat)
    requires NoTrailingSpace(name)
    requires forall i: nat :: !WordAt(name, EpisodeWord, i)
    requires |name| < |s| && s[..|name|] == name && IsSpace(s[|name|]) && p < |name|
    ensures !EpisodeTailAt(s, p)
  {
    var at := |name|;
    var k := SkipSpaces(s, p);
    assert s[at - 1] == name[at - 1];
    assert k < at;
    if k + 7 <= at {
      SliceOfPrefix(s, name, k, k + 7);
      assert !WordAt(name, EpisodeWord, k);
    } else {
      WordAtNoSpace(s, EpisodeWord, k, at);
    }
  }

  /** The text ` Episode<gap><n><rest>` after the name is an episode tail. */
  lemma TailAfterName(name: string, gap: char, n: nat, rest: string)
    requires IsSpace(gap)
    requires forall i :: 0 <= i < |rest| ==> !IsLineTerminator(rest[i])
    ensures EpisodeTailAt(name + " Episode" + [gap] + NatToString(n) + rest, |name|)
  {
    var digits := NatToString(n);
    var tail := " Episode" + [gap] + digits + rest;
    assert tail[1..8] == "Episode" && tail[8] == gap;
    assert tail[9] == digits[0];
    forall j | 9 <= j < |tail|
      ensures !IsLineTerminator(tail[j])
    {
      if j >= 9 + |digits| {
        assert tail[j] == rest[j - 9 - |digits|];
      } else {
        assert tail[j] == digits[j - 9];
      }
    }
    assert name + " Episode" + [gap] + digits + rest == name + tail;
    TailAfterPrefix(name, tail);
  }

  /** A tail of one space, `Episode`, one white-space character, a digit and no line break from the digit on, after any prefix. */
  lemma TailAfterPrefix(name: string, tail: string)
    requires 9 < |tail| && tail[0] == ' ' && tail[1..8] == "Episode" && IsSpace(tail[8]) && IsDigit(tail[9])
    requires forall j :: 9 <= j < |tail| ==> !IsLineTerminator(tail[j])
    ensures EpisodeTailAt(name + tail, |name|)
  {
    var s := name + tail;
    var at := |name|;
    assert s[at..] == tail;
    assert s[at + 1..at + 8] == tail[1..8];
    assert s[at + 8] == tail[8] && s[at + 9] == tail[9];
    assert SkipSpaces(s, at) == at + 1 by {
      assert s[at] == ' ';
      assert s[at + 1] == tail[1..8][0];
    }
    EpisodeWordBefore(s, at + 1);
    forall i | at + 9 <= i < |s|
      ensures !IsLineTerminator(s[i])
    {
      assert s[i] == tail[i - at];
    }
  }
}

=== FILE: wrappers.dfy ===
/** Optional values and success/failure results shared by every module of the model. */
module Wrappers {

  /** A value that may be absent: JavaScript's `undefined` (or a missing attribute). */
  datatype Option<+T> = None | Some(value: T) {

    /** The value, or `default` when absent. */
    function GetOr(default: T): T {
      match this
      case Some(v) => v
      case None => default
    }
  }

  /** The outcome of an operation that either produces a value or raises an error. */
  datatype Result<+R, +E> = Success(value: R) | Failure(error: E)
}
